=== FILE: README.md ===
# mummichog core, modelled in Dafny

This project models the computational core of mummichog, which does
pathway and network analysis of untargeted metabolomics data. It has
five parts, each in its own module:

- **Module engine (`Mmodule`, `ModuleSearch`).** Candidate modules are
  subgraphs of the metabolic network. They are grown from the seed compounds
  of a trio list in four steps. The connected components of useful size
  become modules, and so do the communities split from larger modules.
  - Each module is shaved: non-seed nodes of degree one are removed until
    none remain.
  - Each module is labelled by its sorted, concatenated node identifiers and
    scored by Newman–Girvan modularity against the whole network.
  - Modules are deduplicated by label; the first one with a label wins.
- **Significance (`Significance`).** Each module gets an empirical p-value
  from its rank among the scores of permutation runs. The modules below 0.05
  are selected and sorted. The trios they hit are collected, and the JSON
  shape is produced.
- **Data meets model (`MeetModel`).** Each empirical compound gets scored
  candidate compounds.
  - The candidates come from its identity list, its annotation records, or,
    for a singleton, from a proton-corrected mass.
  - The metabolic model adds candidates whose mass matches, without
    overwriting existing ones.
  - The feature index, the compound index and the trio list are then built.
- **User data (`UserData`).** A tab-separated feature table is read. Rows are
  filtered to the 50–2000 m/z range and user identifiers are defaulted. The
  significance cutoff is chosen automatically from p-value hotspots unless
  the user gives one. Features are marked strictly below the cutoff, and the
  maxima of retention time and m/z are computed.
- **MS2 helpers (`Ms2Data`).** This part covers peak filtering of MS2 scans,
  top-n spectra and peaks, and the choice of the most intense spectrum. It
  also covers reading an asari feature table, and matching spectra to
  features by mass pairs and retention time. The matches are merged over
  several runs.

Supporting modules model Python's behaviour where the core relies on it:

- `Wrappers`: `Result`/`Option`, and list comprehensions that can raise.
- `Dicts`: insertion-ordered dictionaries.
- `Text`: `str.split`, `str.strip`, `''.join` and string order.
- `Sorting`: the stable `sorted`, including `reverse=True`, and slicing to
  the top n.
- `Graphs`: the networkx operations used (degree, induced subgraph, node
  removal, edges at a node set, graph from an edge list).
- `Trios`: the `(feature, empirical compound, compound)` trio.

Modelling choices:

- Floating-point numbers are modelled as exact reals.
- Python dictionaries are modelled as a key order plus a map.
- networkx components, louvain communities, the square root, float parsing,
  identifier formatting and the asari mass mapping are passed in as
  function parameters.

## Model

| member | source | states |
|---|---|---|
| Mmodule.Excessive | mummichog/algorithms/modularAnalysis.py:131-132 | A shaving round removes exactly the non-seed nodes of the graph whose degree is one: every such node, and no other node (in particular no seed). |
| Mmodule.Shave | mummichog/algorithms/modularAnalysis.py:126-137 | Shaving yields a well-formed graph whose nodes and edges are all nodes and edges of the module graph it started from. |
| Mmodule.ShaveSpec | mummichog/algorithms/modularAnalysis.py:126-137 | After shaving, no non-seed node has degree one, every seed node of the input survives, and the result is the subgraph induced by the surviving nodes. |
| Mmodule.ShaveKeepsCore | mummichog/algorithms/modularAnalysis.py:126-137 | Shaving removes only dangling nodes: every node of a set in which each non-seed node has at least two neighbours inside the set survives. |
| Mmodule.ShaveIdempotent | mummichog/algorithms/modularAnalysis.py:133-137 | Shaving an already shaved graph changes nothing: the loop stops at a fixed point. |
| Mmodule.LabelOfListing | mummichog/algorithms/modularAnalysis.py:140-146 | The label of a node set is the concatenation of its identifiers listed in strictly increasing order. |
| Mmodule.LabelDeterminesFixedWidthNodes | mummichog/algorithms/modularAnalysis.py:140-146 | When all identifiers have one fixed length, two node sets have the same label exactly when they are equal. |
| Mmodule.LabelCollision | mummichog/algorithms/modularAnalysis.py:140-146 | With identifiers of different lengths, the distinct sets {A, BC, X, Y} and {AB, C, X, Y} share a label, so deduplication by label can merge different modules. |
| Mmodule.NumEmpCpdBound | mummichog/algorithms/modularAnalysis.py:89-96 | The seed-group count never exceeds the number of distinct empirical compounds in the trio list. |
| Mmodule.NumEmpCpdMonotone | mummichog/algorithms/modularAnalysis.py:89-96 | A module with more nodes counts at least as many distinct empirical compounds. |
| Mmodule.RowSumClosedForm | mummichog/algorithms/modularAnalysis.py:108-110 | The inner loop's sum of deg(x)·deg(jj) over jj ≠ x equals deg(x) times the degree sum, less deg(x)² when x is among the nodes. |
| Mmodule.PairSumClosedForm | mummichog/algorithms/modularAnalysis.py:107-110 | The double loop over ordered pairs of distinct nodes sums to S·S − S2, where S is the sum of the reference degrees and S2 the sum of their squares. |
| Mmodule.NodeListSpec | mummichog/algorithms/modularAnalysis.py:105-108 | The node list the loops walk holds every node of the module exactly once. |
| Mmodule.ExpectedEdges | mummichog/algorithms/modularAnalysis.py:106-112 | The expected edge count is never negative. |
| Mmodule.ExpectedEdgesClosedForm | mummichog/algorithms/modularAnalysis.py:104-112 | The expected edge count is (S·S − S2) / 4m, with m the number of edges in the reference network. |
| Mmodule.ModularityClosedForm | mummichog/algorithms/modularAnalysis.py:99-113 | Q = (module edges − (S·S − S2) / 4m) / m. |
| Mmodule.ModularityBound | mummichog/algorithms/modularAnalysis.py:112-113 | Q never exceeds the module's edge count divided by the reference edge count. |
| Mmodule.ActivityScoreSign | mummichog/algorithms/modularAnalysis.py:59-86 | The activity score is 0 for an empty module and for one without seed groups. Otherwise, when the root of N_seeds/Nm is positive, it is positive exactly when Q is and negative exactly when Q is. N_seeds counts every trio, duplicates included. |
| Mmodule.ScoreSign | mummichog/algorithms/modularAnalysis.py:84 | The product root·Q·(Ns/Nm)·100 vanishes with the density and otherwise has the sign of Q. |
| Mmodule.MakeModule | mummichog/algorithms/modularAnalysis.py:47-63 | A module's graph is a well-formed subgraph of the candidate it was built from. |
| Mmodule.MakeModuleBuilt | mummichog/algorithms/modularAnalysis.py:47-63 | A module keeps every trio compound of the candidate and is the subgraph the candidate induces on its surviving nodes. It counts the distinct empirical compounds of the trios it contains and scores 0 when shaving leaves nothing. |
| ModuleSearch.SeedNetwork | mummichog/algorithms/modularAnalysis.py:267-271 | Step 0 holds exactly the reference edges with both ends among the seeds, and its nodes are seeds. |
| ModuleSearch.Expand | mummichog/algorithms/modularAnalysis.py:267-276 | A later step holds exactly the reference edges with at least one end in the previous node set. |
| ModuleSearch.Grow | mummichog/algorithms/modularAnalysis.py:273-276 | Steps 1 onwards form a list of networks drawn from the reference network, the first expanded around the seeds. |
| ModuleSearch.SearchNetworks | mummichog/algorithms/modularAnalysis.py:266-276 | There are four search networks; step 0 joins seed to seed and step 1 expands around the seeds themselves. |
| ModuleSearch.SearchNetworksGrow | mummichog/algorithms/modularAnalysis.py:266-276 | Every later search network contains every earlier one, nodes and edges. |
| ModuleSearch.ComponentModule | mummichog/algorithms/modularAnalysis.py:278-282 | The module built from a component lies inside the component and the network. |
| ModuleSearch.ComponentModulesSpec | mummichog/algorithms/modularAnalysis.py:278-282 | Every component with more than 3 and fewer than 100 nodes yields its module, and every module comes from such a component. |
| ModuleSearch.ComponentModulesValid | mummichog/algorithms/modularAnalysis.py:278-282 | Every module of one network is valid, built for the trio list, and inside the network. |
| ModuleSearch.StepModules | mummichog/algorithms/modularAnalysis.py:266-282 | The modules of all four steps are valid, built for the trio list, and inside the networks searched. |
| ModuleSearch.StepModulesComplete | mummichog/algorithms/modularAnalysis.py:266-282 | Every component of useful size, in every step, yields its module. |
| ModuleSearch.CommunityModule | mummichog/algorithms/modularAnalysis.py:290-293 | A module split from a parent lies inside the parent and the community. |
| ModuleSearch.CommunityModulesSpec | mummichog/algorithms/modularAnalysis.py:315-322 | Every community of more than 3 nodes yields its module, and every module comes from such a community. |
| ModuleSearch.CommunityModulesValid | mummichog/algorithms/modularAnalysis.py:290-293 | Every module split from a parent is valid, built for the trio list, and inside the parent. |
| ModuleSearch.SplitModules | mummichog/algorithms/modularAnalysis.py:290-293 | The split modules are valid, built for the trio list, and inside the modules they were split from. |
| ModuleSearch.SplitModulesComplete | mummichog/algorithms/modularAnalysis.py:290-293 | Every community of more than 3 nodes, of every module with more than 5 nodes, yields its module. |
| ModuleSearch.Dedup | mummichog/algorithms/modularAnalysis.py:295-302 | Every module kept comes from the input, has more than 3 nodes and an unseen label, and no two kept modules share a label. |
| ModuleSearch.DedupKeepsFirst | mummichog/algorithms/modularAnalysis.py:295-302 | The modules kept are exactly the first occurrences of their labels among the modules with more than 3 nodes. |
| ModuleSearch.DedupInOrder | mummichog/algorithms/modularAnalysis.py:295-302 | The modules kept appear in their original order. |
| ModuleSearch.Candidates | mummichog/algorithms/modularAnalysis.py:278-296 | All candidates, `modules + modules2`, are valid, built for the trio list, and inside the last search network. |
| ModuleSearch.FindModules | mummichog/algorithms/modularAnalysis.py:252-302 | The modules found are valid, built for the trio list, have more than 3 nodes and lie inside the last search network, and no two share a label. |
| ModuleSearch.FindModulesComplete | mummichog/algorithms/modularAnalysis.py:295-302 | The modules found keep the candidates' order, and every label of a candidate with more than 3 nodes is carried by some module found. |
| Significance.Descending | mummichog/algorithms/modularAnalysis.py:360-361 | The descending sort holds the same scores, from the highest down. |
| Significance.CountAbovePermutation | mummichog/algorithms/modularAnalysis.py:360-361 | The number of scores above x does not depend on their order. |
| Significance.IndexInDescending | mummichog/algorithms/modularAnalysis.py:361-363 | In a list sorted from the highest down, the first x comes right after the entries strictly above x. |
| Significance.CalculatePRank | mummichog/algorithms/modularAnalysis.py:356-363 | The p-value is (1 + the number of null scores strictly above x) / (n + 1), so ties count in the module's favour. |
| Significance.PValueRange | mummichog/algorithms/modularAnalysis.py:356-363 | Every p-value lies in (0, 1], and a score at least as high as every null score gets 1 / (n + 1). |
| Significance.Scored | mummichog/algorithms/modularAnalysis.py:346-347 | Every module found keeps its place and gets its rank p-value. |
| Significance.SignificantOnly | mummichog/algorithms/modularAnalysis.py:349 | The selection keeps exactly the modules whose p-value is strictly below 0.05. |
| Significance.RankSignificance | mummichog/algorithms/modularAnalysis.py:346-350 | `top_modules` is sorted by non-decreasing p-value. |
| Significance.RankSignificanceSpec | mummichog/algorithms/modularAnalysis.py:346-350 | `top_modules` holds exactly the modules with a p-value strictly below the cutoff, each with its p-value, as often as they were found. |
| Significance.TopModulesSignificant | mummichog/algorithms/modularAnalysis.py:349-350 | Every selected module's p-value lies in (0, 0.05). |
| Significance.ScoresOrZero | mummichog/algorithms/modularAnalysis.py:239 | One permutation contributes at least one score: its modules' scores, or a single 0 when it found none. |
| Significance.PoolScores | mummichog/algorithms/modularAnalysis.py:232-241 | The pool is each search's module scores, or `[0]` when it found none, concatenated in search order. Hence at least one score per search, every score 0 or a found module's score, and every found module's score present. |
| Significance.DoPermutations | mummichog/algorithms/modularAnalysis.py:226-241 | The scores are the permutations' module scores, `[0]` for a permutation that found none, concatenated in permutation order. Hence at least as many scores as permutations, every score 0 or the score of a module some permutation found, and every such module's score present. |
| Significance.TopNodes | mummichog/algorithms/modularAnalysis.py:370-374 | The overlap set is exactly the nodes of the top modules. |
| Significance.HitsIn | mummichog/algorithms/modularAnalysis.py:375-384 | The filter keeps exactly the trios whose compound is in the node set, in their original order. |
| Significance.CollectHitTrios | mummichog/algorithms/modularAnalysis.py:365-384 | The hit trios are exactly the significant trios whose compound is a node of some top module, in their original order. |
| Significance.EdgeStringRoundTrip | mummichog/algorithms/modularAnalysis.py:398 | An edge written as `a,b` is recovered by splitting on the comma when the identifiers contain none. |
| Significance.ModuleJson | mummichog/algorithms/modularAnalysis.py:396-400 | A module entry carries its p-value, one string per edge, and each node once. |
| Significance.ToJson | mummichog/algorithms/modularAnalysis.py:388-401 | There is one entry per top module, in order, with its p-value and its nodes. |
| MeetModel.IdentityScores | mummichog/annotate/meetModel.py:78-81 | Identity scoring never produces the missing-compound key. |
| MeetModel.IdentityScoresValid | mummichog/annotate/meetModel.py:78-81 | Identity scoring lists each compound once, in insertion order. |
| MeetModel.IdentityScoresSpec | mummichog/annotate/meetModel.py:78-81 | A compound is scored exactly when some entry names it alone, with the score (0.1 when absent) of the last such entry. |
| MeetModel.FieldsOf | mummichog/annotate/meetModel.py:86-92 | `entry.get(field)` is taken for every record, in order. |
| MeetModel.SourceCompoundsSpec | mummichog/annotate/meetModel.py:85-92 | One source contributes exactly the identifier fields of its records when its name starts with HMDB, KEGG, authLib_Li_Lab or MoNA, and nothing otherwise. |
| MeetModel.AnnotatedCompoundsSpec | mummichog/annotate/meetModel.py:84-93 | A compound is gathered exactly when a record of a recognised source names it. |
| MeetModel.AddMissingSpec | mummichog/annotate/meetModel.py:94-96 | Adding defaults keeps every existing score, gives each new compound the default, and adds exactly the listed compounds. |
| MeetModel.AddMissingValid | mummichog/annotate/meetModel.py:94-96 | Adding defaults keeps each compound listed once. |
| MeetModel.ScoreCpdIdentity | mummichog/annotate/meetModel.py:60-98 | With a non-empty identity list, no missing-compound key is scored. |
| MeetModel.ScoreCpdIdentityValid | mummichog/annotate/meetModel.py:60-98 | The score map lists each compound once. |
| MeetModel.AnnotationScoresSpec | mummichog/annotate/meetModel.py:83-96 | Without an identity list, the scored compounds are exactly those a recognised annotation record names, each at 0.1. |
| MeetModel.ScoreEmpCpd | mummichog/annotate/meetModel.py:144-156 | Scoring fails exactly for a singleton without features. Otherwise it gives a neutral mass and changes nothing but the mass and the scores. |
| MeetModel.SingletonMass | mummichog/annotate/meetModel.py:146-156 | A singleton's neutral mass plus 1.007276 (positive mode, the default) or minus 1.007276 is its first feature's m/z, and it starts with no candidates. A record with a mass keeps it and gets identity scores. |
| MeetModel.Ppm | mummichog/annotate/meetModel.py:172 | A given non-zero ppm is used as is; a ppm of `None` or 0 falls back to 10. |
| MeetModel.MatchedCompoundsSpec | mummichog/annotate/meetModel.py:173-180 | A model compound is matched exactly when its neutral mass is within the tolerance of the record's mass. |
| MeetModel.Augment | mummichog/annotate/meetModel.py:164-185 | Augmenting changes nothing but the candidate scores. |
| MeetModel.AugmentSpec | mummichog/annotate/meetModel.py:172-185 | Existing scores are never overwritten. A compound that was not a candidate becomes one, at 0.05, exactly when a model compound with its identifier is within ppm·mass/10⁶, with ppm 10 when unset. |
| MeetModel.ScoreOne | mummichog/annotate/meetModel.py:144-159 | One loop pass fails exactly when scoring fails, and changes only the mass and the scores. |
| MeetModel.ScoreOneValid | mummichog/annotate/meetModel.py:144-159 | A scored record lists each candidate once. |
| MeetModel.ScoreAllSpec | mummichog/annotate/meetModel.py:144-161 | Scoring all records fails exactly when some record cannot be scored. Otherwise record i of the result is record i scored and augmented. |
| MeetModel.ScoreAllValid | mummichog/annotate/meetModel.py:144-161 | Every scored record lists each candidate once. |
| MeetModel.PutAllSpec | mummichog/annotate/meetModel.py:207-208 | Every feature listed maps to the record's identifier, and every other feature keeps its value. |
| MeetModel.FeatureIndexSpec | mummichog/annotate/meetModel.py:206-208 | A feature is indexed exactly when some record has it, and it points at the last such record. |
| MeetModel.AppendToSpec | mummichog/annotate/meetModel.py:209-212 | Appending under distinct compounds adds the identifier once to each of their lists and leaves other lists alone. |
| MeetModel.CompoundIndexKeys | mummichog/annotate/meetModel.py:209-212 | A compound is indexed exactly when some record lists it. |
| MeetModel.CompoundIndexSpec | mummichog/annotate/meetModel.py:209-212 | The list of a compound is the interim identifiers of exactly the records listing it, in record order. |
| MeetModel.HoldersSpec | mummichog/annotate/meetModel.py:209-212 | An identifier is among a compound's holders exactly when a record with that identifier lists the compound. |
| MeetModel.FeatureTrios | mummichog/annotate/meetModel.py:213-214 | The inner loop gives one trio per feature, in feature order. |
| MeetModel.CompoundTriosSpec | mummichog/annotate/meetModel.py:209-214 | A record's trios pair each of its features with each of its candidates, and nothing else. |
| MeetModel.CompoundTriosLength | mummichog/annotate/meetModel.py:209-214 | A record gives one trio per candidate and feature. |
| MeetModel.CompoundTriosAt | mummichog/annotate/meetModel.py:209-214 | A record's trios are ordered by candidate, then feature: position j × (number of features) + k pairs feature k with candidate j. |
| MeetModel.TrioListSpec | mummichog/annotate/meetModel.py:204-216 | A trio is listed exactly when some record gives it. |
| MeetModel.TrioListAll | mummichog/annotate/meetModel.py:204-216 | The same, for every trio at once. |
| MeetModel.TrioListAppend | mummichog/annotate/meetModel.py:206-214 | The trios keep record order: the trios of two runs of records are those of the first followed by those of the second. |
| MeetModel.TrioListOne | mummichog/annotate/meetModel.py:209-214 | One record's contribution is its candidate-by-feature trios, each trio as often as it is produced. |
| MeetModel.MeetFailure | mummichog/annotate/meetModel.py:121-124 | With the index loop of line 206 corrected, meeting the model fails exactly when some record is a singleton without features. |
| MeetModel.MeetTrios | mummichog/annotate/meetModel.py:121-124 | With the index loop of line 206 corrected, the trio list holds exactly the trios the scored records give. |
| MeetModel.MeetAsWritten | mummichog/annotate/meetModel.py:121-124 | With the feature list of lines 116 and 120 read from the user features, scoring and the index loop as written succeed exactly when there are no records, and then the trio list and feature index are empty. |
| MeetModel.MassFeaturesAsWritten | mummichog/annotate/meetModel.py:116 | Reading `ListOfMassFeatures` from the user data fails whatever the data, since only `ListOfUserFeatures` is ever set. |
| MeetModel.DataMeetModelAsWritten | mummichog/annotate/meetModel.py:110-124 | The constructor as written fails on every input, records or none. |
| MeetModel.DataMeetModel | mummichog/annotate/meetModel.py:110-124 | With the user features read and the index loop corrected, the constructor fails exactly when some record is a singleton without features; otherwise the significant list is the user data's, the reference list holds each feature's id in order, the row dictionary is keyed by exactly those ids, and the three indexes are those built from the scored records. |
| MeetModel.DataMeetModelTrios | mummichog/annotate/meetModel.py:121-124 | The trio list the corrected constructor leaves holds exactly the trios the scored records give. |
| MeetModel.RowDictSpec | mummichog/annotate/meetModel.py:116-120 | The row dictionary is keyed by exactly the reference ids, and each key holds the last feature with that id. |
| MeetModel.DataMeetModelAsWrittenFails | mummichog/annotate/meetModel.py:116-120 | With one user feature and no records the constructor as written fails, while the corrected one succeeds and files the feature under its id. |
| MeetModel.IndexAsWritten | mummichog/annotate/meetModel.py:206 | Looping over the dictionary itself succeeds exactly when it has no keys, and then with no trios and no indexed features. |
| MeetModel.IndexRecords | mummichog/annotate/meetModel.py:188-216 | Looping over the records in key order gives exactly the trios the records contribute. |
| MeetModel.IndexAsWrittenFails | mummichog/annotate/meetModel.py:206-214 | For a one-record dictionary the loop as written fails while the loop over records yields the record's trio. |
| UserData.ParseColumns | mummichog/annotate/userData.py:83 | Converting the first four columns gives one number per column, at most four. |
| UserData.ParseRow | mummichog/annotate/userData.py:77-101 | A row kept is in the m/z range. |
| UserData.ParseRowSucceeds | mummichog/annotate/userData.py:78-83 | A row parses exactly when it has four columns and all four convert to numbers. |
| UserData.ParseRowSpec | mummichog/annotate/userData.py:80-101 | A parsed row is kept exactly when 50 < m/z < 2000. Its fields come from columns 1 to 4, and `id` and `id_number` are the identifier of its 1-based row number. `fid_from_user` is the stripped fifth column when present and non-empty, otherwise that identifier. |
| UserData.ParseRows | mummichog/annotate/userData.py:77-101 | There are never more features than rows. |
| UserData.ParseRowsSpec | mummichog/annotate/userData.py:77-101 | Reading succeeds exactly when every row parses. Its features are then exactly those of the rows kept, so excluded rows never appear. |
| UserData.ParseRowsInRange | mummichog/annotate/userData.py:86-101 | Every feature read has 50 < m/z < 2000. |
| UserData.ReadTable | mummichog/annotate/userData.py:63-101 | Reading fails exactly when there are no lines or some data row does not parse. |
| UserData.CountBelowMonotone | mummichog/annotate/userData.py:149 | A larger threshold selects at least as many features. |
| UserData.CountBelowPermutation | mummichog/annotate/userData.py:146-149 | The number of features below a threshold does not depend on their order. |
| UserData.CountBelowSorted | mummichog/annotate/userData.py:146-167 | Fewer than k features lie strictly below the p-value at sorted position k. |
| UserData.HotspotCounts | mummichog/annotate/userData.py:148-149 | There is one count per hotspot: the number of features strictly below it. |
| UserData.HotspotCountsNonIncreasing | mummichog/annotate/userData.py:148-149 | The hotspot counts never increase, because the thresholds decrease. |
| UserData.LastWithin | mummichog/annotate/userData.py:154-163 | One scan picks the last index whose count is strictly between the bounds, and `None` when there is none. |
| UserData.HotspotChoice | mummichog/annotate/userData.py:151-163 | A chosen hotspot selects more than 30 and fewer than N/4 features; when none is chosen, no hotspot does. |
| UserData.HotspotChoicePrefersOptimum | mummichog/annotate/userData.py:152-163 | A hotspot with more than 300 features wins over one with only more than 30. Among the winners the last is taken. |
| UserData.QuantileCutoff | mummichog/annotate/userData.py:146-167 | The fallback exists exactly when position int(N/4) + 1 is inside the sorted list. |
| UserData.QuantileCutoffSpec | mummichog/annotate/userData.py:165-167 | The fallback cutoff is some feature's p-value, with at most int(N/4) + 1 features strictly below it. |
| UserData.ChooseCutoff | mummichog/annotate/userData.py:144-171 | The automatic choice is the chosen hotspot's threshold, or else the fallback at position int(N/4) + 1. |
| UserData.ChooseCutoffFails | mummichog/annotate/userData.py:165-167 | The automatic choice fails exactly for fewer than two features. |
| UserData.ChooseCutoffHotspot | mummichog/annotate/userData.py:154-171 | A chosen hotspot's threshold selects more than 30 and fewer than N/4 features. |
| UserData.Cutoff | mummichog/annotate/userData.py:144 | A user cutoff that is set is kept unchanged. |
| UserData.Marks | mummichog/annotate/userData.py:176-180 | A feature is marked significant exactly when its p-value is strictly below the cutoff. |
| UserData.SignificantIds | mummichog/annotate/userData.py:182 | The significant list has one entry per feature strictly below the cutoff. |
| UserData.SignificantIdsSpec | mummichog/annotate/userData.py:176-182 | An identifier is listed exactly when a marked feature carries it as `fid_from_user`. |
| UserData.SignificantIdsInOrder | mummichog/annotate/userData.py:176-182 | The list keeps feature order and multiplicity: two runs of features give their lists one after the other. |
| UserData.SignificantIdsOne | mummichog/annotate/userData.py:176-182 | One feature gives its `fid_from_user` exactly when its p-value is below the cutoff, and nothing otherwise. |
| UserData.AutomaticListSize | mummichog/annotate/userData.py:144-182 | With a chosen hotspot, the significant list has more than 30 and fewer than N/4 entries. |
| UserData.MaxSpec | mummichog/annotate/userData.py:44-47 | The maximum is an element that no element exceeds. |
| UserData.Update | mummichog/annotate/userData.py:37-48 | Updating keeps the features and header. |
| UserData.UpdateSpec | mummichog/annotate/userData.py:37-48 | Updating fails exactly on an empty table or when no cutoff can be chosen. Otherwise the maxima are the largest retention time and m/z of the features, the cutoff is the user's or the chosen one (which needs two features), each feature is marked exactly when its p-value is below the cutoff, and the significant list is the user identifiers of the marked features. |
| UserData.Load | mummichog/annotate/userData.py:23-35 | Loading gives the features the table reader produced. |
| Ms2Data.CleanPeaks | tests/get_ms2_data.py:25-26 | Every peak kept has intensity ≥ the floor and m/z < precursor − 1. |
| Ms2Data.CleanPeaksSpec | tests/get_ms2_data.py:25-26 | A peak survives exactly when it is in the scan and passes the filter, as many times as it occurs in the scan. |
| Ms2Data.CleanPeaksInOrder | tests/get_ms2_data.py:25-26 | The surviving peaks keep scan order: two runs of peaks give their survivors one after the other, and one peak survives exactly when it passes the filter. |
| Ms2Data.CleanScan | tests/get_ms2_data.py:21-35 | A spectrum is produced only with at least one peak kept. |
| Ms2Data.ExtractSpectra | tests/get_ms2_data.py:18-36 | There are never more spectra than scans. |
| Ms2Data.ExtractSpectraSpec | tests/get_ms2_data.py:18-36 | The spectra are exactly those of MS2 scans with a precursor and a surviving peak, with scan time × 60 and the filtered peaks. |
| Ms2Data.ExtractSpectraInOrder | tests/get_ms2_data.py:18-36 | The spectra keep scan order: two runs of scans give their spectra one after the other, and one scan gives its cleaned spectrum or nothing. |
| Ms2Data.TopSpectra | tests/get_ms2_data.py:54-58 | The input is returned unchanged when it has at most n spectra. Otherwise exactly n spectra from the input are returned, with peak counts descending; among spectra of equal peak count the earliest are kept, in input order. |
| Ms2Data.TopSpectraKeepsLargest | tests/get_ms2_data.py:54-58 | Every spectrum kept has at least as many peaks as every spectrum dropped. |
| Ms2Data.TopPeaks | tests/get_ms2_data.py:76-80 | The input is returned unchanged when it has at most n peaks. Otherwise exactly n peaks from the input are returned, with intensities descending; among peaks of equal intensity the earliest are kept, in input order. |
| Ms2Data.TopPeaksKeepsLargest | tests/get_ms2_data.py:76-80 | Every peak kept is at least as intense as every peak dropped. |
| Ms2Data.BestSpectrum | tests/get_ms2_data.py:96-99 | The result is `None` exactly for no spectra. |
| Ms2Data.BestSpectrumSpec | tests/get_ms2_data.py:96-99 | The best spectrum is the first input spectrum whose total intensity no other exceeds. |
| Ms2Data.BestOfTwo | tests/get_ms2_data.py:96-99 | Of two spectra the more intense is best, the first on a tie. |
| Ms2Data.Column | tests/get_ms2_data.py:132-136 | A numeric column is read exactly when it exists and parses. |
| Ms2Data.AsariFields | tests/get_ms2_data.py:128-143 | A line parses exactly when it has the 11 fixed columns and columns 1 to 4 parse. `id` and `id_number` are both column 0, the apex is the retention time, and columns 5 to 10 are kept as text. |
| Ms2Data.AsariLine | tests/get_ms2_data.py:127-143 | Exactly the blank lines are skipped. |
| Ms2Data.AsariRows | tests/get_ms2_data.py:125-144 | There are never more features than lines. |
| Ms2Data.AsariRowsSpec | tests/get_ms2_data.py:126-143 | Reading succeeds exactly when every line does, and then gives exactly the features of the non-blank lines. |
| Ms2Data.ReadAsariTable | tests/get_ms2_data.py:118-144 | The table reads exactly when it has a header line and every data line parses. `num_samples` is the header's column count less 11. |
| Ms2Data.RtFiltered | tests/get_ms2_data.py:168 | Every pair kept has retention times within the tolerance. |
| Ms2Data.RtFilteredSpec | tests/get_ms2_data.py:168 | A pair is kept exactly when it is a mapped pair with retention times within the tolerance, as many times as it is mapped. |
| Ms2Data.RtFilteredInOrder | tests/get_ms2_data.py:168 | The kept pairs keep mapping order: two runs of pairs give their kept pairs one after the other, and one pair is kept exactly when its retention times are within the tolerance. |
| Ms2Data.Group | tests/get_ms2_data.py:170-174 | Every group holds at least one spectrum. |
| Ms2Data.GroupSpec | tests/get_ms2_data.py:170-174 | Each feature's group is precisely the spectra paired with it, in pair order, in a well-formed dictionary. |
| Ms2Data.GroupKeys | tests/get_ms2_data.py:170-174 | The grouping's keys are exactly the features of the pairs. |
| Ms2Data.GroupDefined | tests/get_ms2_data.py:170-174 | Every key of the grouping is a feature index with a non-empty group. |
| Ms2Data.Entries | tests/get_ms2_data.py:175-180 | There is one entry per key of the grouping, in key order. |
| Ms2Data.EntriesSpec | tests/get_ms2_data.py:175-180 | The entries are exactly one per feature with a non-empty group. |
| Ms2Data.GetMatchedSpec | tests/get_ms2_data.py:166-182 | Each feature with a close pair appears with its best spectrum and the number of its spectra, and nothing else appears. |
| Ms2Data.Better | tests/get_ms2_data.py:203 | The better of two spectra is at least as intense as each. |
| Ms2Data.BetterIsBest | tests/get_ms2_data.py:203 | The better of two spectra is `get_best_ms2_spectrum` of the pair. |
| Ms2Data.MergeOne | tests/get_ms2_data.py:198-204 | A merge step adds exactly the match's feature id. |
| Ms2Data.MergeOneSpec | tests/get_ms2_data.py:198-204 | A merge step adds the match's count to its feature's and leaves other features alone. It stores the match's spectrum for a new id, and the better of the old and new spectra otherwise. |
| Ms2Data.MergeOneGrows | tests/get_ms2_data.py:198-204 | A merge step never lowers a stored spectrum's total intensity. |
| Ms2Data.MergeAllValid | tests/get_ms2_data.py:198-204 | Merging keeps each feature id once in the record. |
| Ms2Data.MergeAllKeys | tests/get_ms2_data.py:198-204 | A feature id is present after merging exactly when it was before or some match has it. |
| Ms2Data.MergeAllCounts | tests/get_ms2_data.py:198-204 | Each feature's count is its stored count plus the counts of its matches. |
| Ms2Data.MergeAllCandidate | tests/get_ms2_data.py:198-204 | Each feature's spectrum is its stored one or one matched to it. |
| Ms2Data.MergeAllKeepsStored | tests/get_ms2_data.py:198-204 | Each feature's spectrum is at least as intense as its stored one. |
| Ms2Data.MergeAllKeepsMatched | tests/get_ms2_data.py:198-204 | Each feature's spectrum is at least as intense as every spectrum matched to it. |
| Ms2Data.MergeAllAppend | tests/get_ms2_data.py:191-204 | Merging two lists of matches is merging the first, then the second. |
| Ms2Data.MergeRunsAll | tests/get_ms2_data.py:191-204 | Merging run by run is merging all the runs' matches at once. |
| Ms2Data.MergeFromEmpty | tests/get_ms2_data.py:191-204 | From an empty record there is one entry per matched id, with the sum of its counts and a most intense spectrum matched to it. |
| Ms2Data.TrimAsWritten | tests/get_ms2_data.py:206-208 | The trim as written, which measures the 3-key record instead of its peaks, returns the spectrum unchanged. |
| Ms2Data.TrimAsWrittenKeepsAll | tests/get_ms2_data.py:206-208 | A spectrum of 21 peaks keeps all 21 under the trim as written, but 20 under the intended trim. |
| Ms2Data.Trim | tests/get_ms2_data.py:206-208 | The intended trim keeps at most 20 of the spectrum's peaks, changes nothing when there are at most 20, and otherwise keeps exactly 20, in descending intensity; among peaks of equal intensity the earliest are kept, in input order. |
| Sorting.SortByStable | tests/get_ms2_data.py:57 | Sorting by a key is stable: the elements of any one key value come out in input order. |
| Sorting.SortDescendingStable | tests/get_ms2_data.py:57 | Sorting by a key in reverse is stable as well, as Python's `sorted(..., reverse=True)` is. |
| Sorting.TopNStable | tests/get_ms2_data.py:54-58 | For every key value, the elements kept with that value are the earliest elements of the input with that value, in input order. |
| Ms2Data.TrimKeepsLargest | tests/get_ms2_data.py:206-208 | Every peak the trim keeps is at least as intense as every peak it drops. |
| Ms2Data.TrimAllAsWritten | tests/get_ms2_data.py:206-208 | The trim loop as written returns the record it is given, unchanged. |
| Ms2Data.TrimAll | tests/get_ms2_data.py:206-208 | The intended trim keeps the ids, their order and the counts, and trims each spectrum to its 20 most intense peaks. |
| Ms2Data.MatchMs2FilesToFeatures | tests/get_ms2_data.py:184-214 | Matching fails exactly when the feature table cannot be read; otherwise the record returned is the merged record of all runs, untrimmed. |
| Ms2Data.MatchMs2FilesIntended | tests/get_ms2_data.py:184-214 | With the intended trim, matching fails exactly when the feature table cannot be read; otherwise it returns the merged record with every spectrum trimmed. |
| Ms2Data.MergedRecordSpec | tests/get_ms2_data.py:184-214 | The record returned has one entry per feature id matched in any run. Its count is the number of spectra matched to that id over all runs, and its spectrum is a most intense spectrum matched to it, untrimmed. |
| Ms2Data.IntendedRecordSpec | tests/get_ms2_data.py:184-214 | Under the intended trim, the keys and counts are the same, and each spectrum is the trimmed form of a most intense spectrum matched to its id. |

## Left out

- The gamma branch of `rank_significance` (SciPy distribution fitting) is not modelled; only the rank branch is.
- The square root in `activity_score` is a parameter (`sqrt`), because real square roots are not computable here. `test_compute_modularity` is unused and not modelled.
- `nx.connected_components` and the community detection behind `find_communities` (louvain and the other methods) are parameters. Their results are taken as given node sets.
- `random.sample` in `do_permutations` and `batch_rowindex_EmpCpd_Cpd` are not modelled. Each permutation's trio list is an input.
- The order in which networkx lists nodes is not modelled. `compute_modularity` walks the nodes in sorted order, which gives the same sum.
- Printing, logging, file reading and writing, the JSON dump, `export_network_txt` and `__export_debug_modules__` are left out. `__check_redundant__` only prints, so it is the identity here. `splitlines` is replaced by taking the lines as input.
- Python's `float()` and `_make_id` (float rounding and formatting) are parameters (`Parsers`, `parseFloat`).
- Floating-point numbers are modelled as exact reals, so rounding in sums, divisions and the ppm tolerance is not modelled.
- The loading of the annotation file in `update` is left out (file I/O).
- `DataMeetModel.to_json` is left out: it reads attributes the dictionary records do not have.
- `complete_mass_paired_mapping` (an asari library function) is a parameter that returns index pairs within range. Its ppm tolerance is fixed inside it.
- Reading mzML files with pymzml is replaced by a list of `Scan` records per run.
- `tests/enp_search.py`, `mummichog/models/get_models.py`, `mummichog/main.py`, `mummichog/api.py` and `mummichog/parameters.py` are wrappers and plumbing, not modelled.
- MeetModel.ScoreCpdIdentity: Python iterates the annotation compounds through a `set`, whose order is unspecified. The model takes them in first-occurrence order. Only key order depends on this; the scores do not.
- MeetModel.IdentityScoresSpec: an identity entry's score is either present or absent (then 0.1). An entry whose score field is present but null, which Python would store as `None`, is not modelled.
- Ms2Data.ExtractSpectraSpec: a scan's first selected precursor is either present or has no m/z. An MS2 scan with no selected precursor at all, where Python's `[0]` would raise, is not modelled.
- Significance.RankSignificanceSpec: states the selection and the sort order, not that modules with equal p-values keep their found order (Python's sort is stable, and so is the model's).
- Significance.ToJson: states p-values and node sets, not the order of nodes and edges, which networkx decides.
- UserData.ParseRowsSpec: states which features are read, not that they keep row order (the definition keeps it).
- Ms2Data.AsariRowsSpec: states which features are read, not that they keep line order (the definition keeps it).
- Ms2Data.GetMatchedSpec: states which entries the result holds, not their order (the features in the order they first appear in the pairs).
- Ms2Data.MergedRecordSpec: states that the spectrum kept is a most intense one matched to the id, not which one among equals. The tie rule is stated per step by Ms2Data.MergeOneSpec and Ms2Data.BestOfTwo.
- MeetModel.FeatureIndexSpec: states the feature-to-record map, not the insertion order of its keys.
- MeetModel.Meet: builds the index with the loop of line 206 corrected, as `IndexRecords` does, and is used by MeetModel.DataMeetModel, which also reads the user features at lines 116 and 120. The constructor as written raises `AttributeError` at line 116 for every input (MeetModel.DataMeetModelAsWritten); with that read corrected, the index loop as written raises `TypeError` for any non-empty record dictionary (MeetModel.MeetAsWritten). MeetModel.MeetFailure and MeetModel.MeetTrios describe the corrected `Meet`.
- MeetModel.MeetFailure: states the failure of the corrected `Meet`, not the `AttributeError` of line 116 (MeetModel.DataMeetModelAsWritten) nor the `TypeError` of line 206 (MeetModel.MeetAsWritten). Nor is the `KeyError` of lines 208 and 214 modelled: they read `feat['id']`, while the record format documented at lines 18-26 keys each peak by `feature_id`; `Ms1Peak` always carries an `id`, so records in the documented format are not modelled.
- MeetModel.MeetTrios: states the trio list of the corrected `Meet`; as written no trio list results for any input (MeetModel.DataMeetModelAsWritten).
- MeetModel.TrioListSpec: states which trios are listed. Their order and multiplicity, record by record and within a record candidate by feature, are stated by MeetModel.TrioListAppend, MeetModel.TrioListOne and MeetModel.CompoundTriosAt.
- MeetModel.TrioListAll: as MeetModel.TrioListSpec; order and multiplicity are stated by MeetModel.TrioListAppend, MeetModel.TrioListOne and MeetModel.CompoundTriosAt.
- MeetModel.IndexRecords: states which trios are listed; its trio list is the `TrioList` of the records in key order, whose order and multiplicity MeetModel.TrioListAppend, MeetModel.TrioListOne and MeetModel.CompoundTriosAt state.
- UserData.SignificantIdsSpec: states which identifiers are listed; their order and multiplicity are stated by UserData.SignificantIdsInOrder and UserData.SignificantIdsOne.
- Ms2Data.CleanPeaksSpec: states membership and multiplicity; the order is stated by Ms2Data.CleanPeaksInOrder.
- Ms2Data.RtFilteredSpec: states membership and multiplicity; the order is stated by Ms2Data.RtFilteredInOrder.
- Ms2Data.ExtractSpectraSpec: states which spectra result; their order and multiplicity, one per surviving scan in scan order, are stated by Ms2Data.ExtractSpectraInOrder.
- MeetModel.PositiveMode: `None` stands for a missing `ionization` key, which gives positive mode. A key that is present with value `None` gives negative mode in Python and is not modelled.
- MeetModel.Ppm: a missing `ppm` key, where `paradict['ppm']` raises `KeyError`, is not modelled; `None` stands for a present `None`. The same holds for the `cutoff` key in UserData.Cutoff.
- Significance.ModuleJson: writes each edge as its two ends in string order. networkx writes the ends in the order its adjacency lists them, which follows node insertion order; that order is not modelled, so the source may write an edge the other way round. The edge strings are also collected as a set, so two edges whose joined strings coincide (possible only when identifiers contain commas) give one string where the source gives two.
- Graphs.WellFormed: the reference network is assumed free of self loops. networkx accepts a self-loop edge, which adds 2 to its node's degree and would change the degree-one test of shaving and the degrees in `compute_modularity`.

## Findings

| source | as written | input that shows it | evidently intended | confidence | as-written member | corrected member |
|---|---|---|---|---|---|---|
| mummichog/annotate/meetModel.py:206 | `for empCpd in self.ListOfEmpiricalCompounds` iterates the dictionary of records itself, which yields the interim identifiers, so `empCpd['MS1_pseudo_Spectra']` indexes a string with a string and raises `TypeError` | one record `E1` with feature `F1` and candidate `C1`, once line 116 reads the user features (as written, line 116 fails first) | iterate the records (`.values()`, as line 144 does) | not executed | MeetModel.IndexAsWritten, MeetModel.IndexAsWrittenFails, MeetModel.MeetAsWritten | MeetModel.IndexRecords |
| mummichog/annotate/meetModel.py:116-120 | `self.data.ListOfMassFeatures` is read from an `InputUserData`, which sets only `ListOfUserFeatures` (userData.py lines 30 and 97), so the constructor raises `AttributeError` | one user feature and no records | read `self.data.ListOfUserFeatures` | not executed | MeetModel.MassFeaturesAsWritten, MeetModel.DataMeetModelAsWritten, MeetModel.DataMeetModelAsWrittenFails | MeetModel.DataMeetModel, MeetModel.RowDictSpec |
| tests/get_ms2_data.py:207-208 | `get_top_n_peaks(pp[0], 20)` is given the spectrum record, a dictionary of 3 keys, so `len` is 3 and the spectrum is never trimmed | a best spectrum with 21 peaks | trim the spectrum's peak list to its 20 most intense peaks | not executed | Ms2Data.TrimAsWritten, Ms2Data.TrimAsWrittenKeepsAll, Ms2Data.MatchMs2FilesToFeatures | Ms2Data.Trim, Ms2Data.TrimKeepsLargest, Ms2Data.MatchMs2FilesIntended |

=== FILE: dicts.dfy ===
/** Python dictionaries, which remember insertion order: the keys in the
    order they were first assigned, and the map from keys to values.
    Assigning to an existing key keeps its position; assigning to a new key
    appends it. */
module Dicts {

  datatype Dict<K, V> = Dict(keys: seq<K>, values: map<K, V>)

  /** No element occurs twice. */
  ghost predicate Distinct<T>(s: seq<T>) {
    forall i, j | 0 <= i < j < |s| :: s[i] != s[j]
  }

  /** The key order lists every key of the map exactly once. */
  ghost predicate Valid<K, V>(d: Dict<K, V>) {
    && Distinct(d.keys)
    && (forall k | k in d.values :: k in d.keys)
    && (forall k | k in d.keys :: k in d.values)
  }

  /** `{}`. */
  function Empty<K, V>(): (d: Dict<K, V>)
    ensures Valid(d) && d.values == map[]
  {
    Dict([], map[])
  }

  /** Python's `d[k] = v`: the value of `k` becomes `v`, an existing key
      keeps its place and a new key goes last. */
  function Put<K, V>(d: Dict<K, V>, k: K, v: V): (r: Dict<K, V>)
    ensures r.values == d.values[k := v]
    ensures k in d.values ==> r.keys == d.keys
    ensures k !in d.values ==> r.keys == d.keys + [k]
  {
    if k in d.values then Dict(d.keys, d.values[k := v])
    else Dict(d.keys + [k], d.values[k := v])
  }

  /** Assignment keeps the key order a listing of the map's keys, each
      once. */
  lemma PutValid<K, V>(d: Dict<K, V>, k: K, v: V)
    requires Valid(d)
    ensures Valid(Put(d, k, v))
  {
  }

  /** Python's `list(d.values())`: the values in key order. */
  function ValueList<K, V>(d: Dict<K, V>): (vs: seq<V>)
    requires forall k | k in d.keys :: k in d.values
    ensures |vs| == |d.keys|
    ensures forall i | 0 <= i < |vs| :: vs[i] == d.values[d.keys[i]]
    decreases |d.keys|
  {
    if d.keys == [] then []
    else [d.values[d.keys[0]]] + ValueList(Dict(d.keys[1..], d.values))
  }
}

=== FILE: graphs.dfy ===
/** Undirected graphs as networkx presents them to the module engine: a set
    of compound identifiers and a set of edges between them. */
module Graphs {
  import Text

  type NodeId = string

  /** An undirected edge. networkx treats `(a, b)` and `(b, a)` as one edge;
      here each edge is stored once, with its ends in string order. */
  datatype Edge = Edge(lo: NodeId, hi: NodeId) {
    /** `x` is an end of this edge. */
    predicate Has(x: NodeId) {
      x == lo || x == hi
    }

    /** Both ends are in `ns`. */
    predicate Inside(ns: set<NodeId>) {
      lo in ns && hi in ns
    }

    /** At least one end is in `ns`. */
    predicate Touches(ns: set<NodeId>) {
      lo in ns || hi in ns
    }
  }

  datatype Graph = Graph(nodes: set<NodeId>, edges: set<Edge>)

  /** The single stored form of an edge: distinct ends, the lower first. */
  ghost predicate Canonical(e: Edge) {
    Text.LexLess(e.lo, e.hi)
  }

  /** Every edge is stored in canonical form and joins two nodes of the
      graph (so there are no self loops). */
  ghost predicate WellFormed(g: Graph) {
    forall e | e in g.edges :: Canonical(e) && e.Inside(g.nodes)
  }

  /** The edges of `g` at `x`. */
  function Incident(g: Graph, x: NodeId): (es: set<Edge>)
    ensures es <= g.edges
  {
    set e | e in g.edges && e.Has(x)
  }

  /** networkx `G.degree(x)` for a graph without self loops. */
  function Degree(g: Graph, x: NodeId): nat {
    |Incident(g, x)|
  }

  /** networkx `G.subgraph(ns)`: the nodes of `g` that are in `ns` and the
      edges of `g` with both ends among them. */
  function InducedSubgraph(g: Graph, ns: set<NodeId>): (h: Graph)
    ensures h.nodes <= g.nodes && h.edges <= g.edges
    ensures WellFormed(g) ==> WellFormed(h)
  {
    Graph(g.nodes * ns, set e | e in g.edges && e.Inside(ns))
  }

  /** networkx `remove_node` applied to every node of `xs`: the nodes go, and
      so does every edge at one of them. */
  function RemoveNodes(g: Graph, xs: set<NodeId>): (h: Graph)
    requires WellFormed(g)
    ensures WellFormed(h)
    ensures h == InducedSubgraph(g, g.nodes - xs)
  {
    Graph(g.nodes - xs, set e | e in g.edges && !e.Touches(xs))
  }

  /** networkx `nx.edges(G, nbunch)`: the edges of `g` with at least one end
      in `ns`. */
  function EdgesTouching(g: Graph, ns: set<NodeId>): (es: set<Edge>)
    ensures es <= g.edges
    ensures forall e | e in g.edges :: e in es <==> e.Touches(ns)
  {
    set e | e in g.edges && e.Touches(ns)
  }

  /** `x` is an end of one of the edges `es`. */
  ghost predicate Covered(es: set<Edge>, x: NodeId) {
    exists e | e in es :: e.Has(x)
  }

  /** networkx `nx.from_edgelist(es)`: the graph whose nodes are exactly the
      ends of `es`. */
  function FromEdges(es: set<Edge>): (g: Graph)
    requires forall e | e in es :: Canonical(e)
    ensures WellFormed(g)
    ensures g.edges == es
    ensures forall x {:trigger Covered(es, x)} :: x in g.nodes <==> Covered(es, x)
  {
    Graph((set e | e in es :: e.lo) + (set e | e in es :: e.hi), es)
  }

  lemma {:induction false} SubsetCardinality<T>(a: set<T>, b: set<T>)
    requires a <= b
    ensures |a| <= |b|
    decreases |a|
  {
    if a != {} {
      var x :| x in a;
      SubsetCardinality(a - {x}, b - {x});
    }
  }

  /** Removing edges never raises a degree. */
  lemma DegreeOfSubgraph(g: Graph, h: Graph, x: NodeId)
    requires h.edges <= g.edges
    ensures Degree(h, x) <= Degree(g, x)
  {
    SubsetCardinality(Incident(h, x), Incident(g, x));
  }

  /** Taking the induced subgraph twice is taking it once on the
      intersection. */
  lemma InducedTwice(g: Graph, a: set<NodeId>, b: set<NodeId>)
    ensures InducedSubgraph(InducedSubgraph(g, a), b) == InducedSubgraph(g, a * b)
  {
  }
}

=== FILE: meetmodel.dfy ===
/** Where measured data meets the metabolic model (`DataMeetModel`): every
    empirical compound gets a scored list of candidate compounds, from its
    identity list, its annotation records, or a neutral-mass match against
    the model; then the compounds are indexed and the trio list the module
    search runs on is built. */
module MeetModel {
  import opened Wrappers
  import opened Dicts
  import opened Trios
  import Text
  import UserData

  /** The score of an identity entry without one, and of an annotated
      compound. */
  const DefaultScore: real := 0.1
  /** The score of a compound found only by mass matching against the
      model. */
  const ModelMatchScore: real := 0.05
  /** The proton mass added or removed to turn a singleton's m/z into a
      neutral mass. */
  const ProtonMass: real := 1.007276
  /** The mass tolerance in ppm when the parameters give none. */
  const DefaultPpm: real := 10.0

  /** One entry of an identity list: the compounds it names and its score
      field, absent in some entries. */
  datatype Identity = Identity(compounds: seq<string>, score: Option<real>)

  /** An annotation record: its fields by name. */
  type Entry = map<string, string>

  /** A feature of an empirical compound's MS1 pseudo spectrum. */
  datatype Ms1Peak = Ms1Peak(id: string, mz: real)

  /** Candidate compounds and their scores, in insertion order. */
  type Scores = Dict<CpdKey, real>

  /** An annotation block, `empCpd['annotation'].items()`: each source's
      name with its records. */
  type Annotation = seq<(string, seq<Entry>)>

  /** An empirical compound record. `neutralMass` is `None` for a singleton
      the grouping could not give a formula mass; `cpdScores` is filled in
      by scoring. */
  datatype EmpCpd = EmpCpd(
    interimId: string,
    neutralMass: Option<real>,
    identity: seq<Identity>,
    annotation: Annotation,
    spectra: seq<Ms1Peak>,
    cpdScores: Scores)

  // ------------------------------------------------------------- identity

  /** Entry `x` names the single compound `c`; entries naming several
      compounds (mixtures) score nothing. */
  predicate ScoresCompound(x: Identity, c: string) {
    |x.compounds| == 1 && x.compounds[0] == c
  }

  /** The score an entry gives, `0.1` when it has no score field. */
  function EntryScore(x: Identity): real {
    x.score.GetOr(DefaultScore)
  }

  /** One pass of the loop of `score_cpd_identity` over the identity list:
      a single-compound entry assigns its compound's score. */
  function IdentityStep(d: Scores, x: Identity): Scores {
    if |x.compounds| == 1 then Put(d, Some(x.compounds[0]), EntryScore(x)) else d
  }

  /** The loop of `score_cpd_identity` over a non-empty identity list: a
      later entry for a compound overwrites an earlier one. */
  function IdentityScores(ids: seq<Identity>): (r: Scores)
    ensures None !in r.values
    decreases |ids|
  {
    if ids == [] then Empty()
    else IdentityStep(IdentityScores(ids[..|ids| - 1]), ids[|ids| - 1])
  }

  lemma {:induction false} IdentityScoresValid(ids: seq<Identity>)
    ensures Valid(IdentityScores(ids))
    decreases |ids|
  {
    if ids != [] {
      var n := |ids| - 1;
      IdentityScoresValid(ids[..n]);
      if |ids[n].compounds| == 1 {
        PutValid(IdentityScores(ids[..n]), Some(ids[n].compounds[0]), EntryScore(ids[n]));
      }
    }
  }

  /** `ids[i]` is the last entry naming `c` alone. */
  ghost predicate LastFor(ids: seq<Identity>, c: string, i: int) {
    && 0 <= i < |ids|
    && ScoresCompound(ids[i], c)
    && forall j | i < j < |ids| :: !ScoresCompound(ids[j], c)
  }

  /** An entry that does not name `c` alone leaves the last entry for `c`
      where it was. */
  lemma LastForSnoc(init: seq<Identity>, x: Identity, c: string, i: int)
    requires LastFor(init, c, i) && !ScoresCompound(x, c)
    ensures LastFor(init + [x], c, i)
  {
    var ids := init + [x];
    forall j | i < j < |ids|
      ensures !ScoresCompound(ids[j], c)
    {
      if j < |init| {
        assert ids[j] == init[j];
      }
    }
  }

  /** A compound is scored exactly when some entry names it alone, and its
      score is the one of the last such entry. */
  lemma {:induction false} IdentityScoresSpec(ids: seq<Identity>, c: string)
    ensures Some(c) !in IdentityScores(ids).values <==>
      forall i | 0 <= i < |ids| :: !ScoresCompound(ids[i], c)
    ensures Some(c) in IdentityScores(ids).values ==>
      exists i :: LastFor(ids, c, i) && IdentityScores(ids).values[Some(c)] == EntryScore(ids[i])
    decreases |ids|
  {
    if ids != [] {
      var n := |ids| - 1;
      var init := ids[..n];
      var x := ids[n];
      assert ids == init + [x];
      IdentityScoresSpec(init, c);
      var prev := IdentityScores(init);
      assert forall i | 0 <= i < n :: ids[i] == init[i];
      if ScoresCompound(x, c) {
        assert LastFor(ids, c, n);
      } else {
        var r := IdentityScores(ids).values;
        assert (Some(c) in r <==> Some(c) in prev.values) && (Some(c) in r ==> r[Some(c)] == prev.values[Some(c)]) by {
          if |x.compounds| == 1 {
            assert x.compounds[0] != c;
          }
        }
        if Some(c) in prev.values {
          var i :| LastFor(init, c, i) && prev.values[Some(c)] == EntryScore(init[i]);
          LastForSnoc(init, x, c, i);
          assert LastFor(ids, c, i);
        }
      }
    }
  }

  // ----------------------------------------------------------- annotation

  /** The field holding the compound identifier in the records of an
      annotation source, chosen by the prefix of the source's name; `None`
      for sources that are ignored. */
  function CompoundField(source: string): Option<string> {
    if Text.StartsWith(source, "HMDB") then Some("accession")
    else if Text.StartsWith(source, "KEGG") then Some("accession")
    else if Text.StartsWith(source, "authLib_Li_Lab") then Some("cpd")
    else if Text.StartsWith(source, "MoNA") then Some("reference_id")
    else None
  }

  /** Python's `entry.get(field)`. */
  function FieldOf(e: Entry, field: string): CpdKey {
    if field in e then Some(e[field]) else None
  }

  /** `[entry.get(field) for entry in entries]`. */
  function FieldsOf(entries: seq<Entry>, field: string): (cs: seq<CpdKey>)
    ensures |cs| == |entries|
    ensures forall j | 0 <= j < |entries| :: cs[j] == FieldOf(entries[j], field)
  {
    if entries == [] then []
    else [FieldOf(entries[0], field)] + FieldsOf(entries[1..], field)
  }

  /** The compounds one annotation source contributes: the identifier
      field of each of its records, or nothing for an unrecognised source. */
  function SourceCompounds(source: string, entries: seq<Entry>): seq<CpdKey> {
    if CompoundField(source).Some? then FieldsOf(entries, CompoundField(source).value) else []
  }

  /** The compound list `score_cpd_identity` gathers from the annotation
      sources, in source order. */
  function AnnotatedCompounds(ann: Annotation): seq<CpdKey>
    decreases |ann|
  {
    if ann == [] then []
    else AnnotatedCompounds(ann[..|ann| - 1]) + SourceCompounds(ann[|ann| - 1].0, ann[|ann| - 1].1)
  }

  /** Record `j` of `source` is read, and its identifier field gives `c`. */
  ghost predicate Reads(source: string, entries: seq<Entry>, j: int, c: CpdKey) {
    && CompoundField(source).Some?
    && 0 <= j < |entries|
    && FieldOf(entries[j], CompoundField(source).value) == c
  }

  lemma SourceCompoundsSpec(source: string, entries: seq<Entry>, c: CpdKey)
    ensures c in SourceCompounds(source, entries) <==> exists j :: Reads(source, entries, j, c)
  {
    var cs := SourceCompounds(source, entries);
    if c in cs {
      var j :| 0 <= j < |cs| && cs[j] == c;
      assert Reads(source, entries, j, c);
    }
  }

  /** Record `j` of source `i` is read, and its identifier field gives `c`. */
  ghost predicate Annotates(ann: Annotation, i: int, j: int, c: CpdKey) {
    0 <= i < |ann| && Reads(ann[i].0, ann[i].1, j, c)
  }

  /** A compound is gathered exactly when a record of a recognised source
      names it; records of other sources are ignored. */
  lemma {:induction false} AnnotatedCompoundsSpec(ann: Annotation, c: CpdKey)
    ensures c in AnnotatedCompounds(ann) <==> exists i, j :: Annotates(ann, i, j, c)
    decreases |ann|
  {
    if ann != [] {
      var n := |ann| - 1;
      var init := ann[..n];
      var last := ann[n];
      AnnotatedCompoundsSpec(init, c);
      SourceCompoundsSpec(last.0, last.1, c);
      assert c in AnnotatedCompounds(ann) <==>
        c in AnnotatedCompounds(init) || c in SourceCompounds(last.0, last.1);
      if exists i, j :: Annotates(init, i, j, c) {
        var i, j :| Annotates(init, i, j, c);
        assert Annotates(ann, i, j, c);
      }
      if exists j :: Reads(last.0, last.1, j, c) {
        var j :| Reads(last.0, last.1, j, c);
        assert Annotates(ann, n, j, c);
      }
      if exists i, j :: Annotates(ann, i, j, c) {
        var i, j :| Annotates(ann, i, j, c);
        if i < n {
          assert Annotates(init, i, j, c);
        } else {
          assert i == n && ann[i] == last;
        }
      }
    }
  }

  // ------------------------------------------------------ adding defaults

  /** `for c in cs: if c not in scores: scores[c] = v`. A compound already
      present keeps its score. */
  function AddMissing(scores: Scores, cs: seq<CpdKey>, v: real): (r: Scores)
    decreases |cs|
  {
    if cs == [] then scores
    else if cs[|cs| - 1] in AddMissing(scores, cs[..|cs| - 1], v).values then
      AddMissing(scores, cs[..|cs| - 1], v)
    else
      Put(AddMissing(scores, cs[..|cs| - 1], v), cs[|cs| - 1], v)
  }

  /** Adding defaults never changes a score already present, gives every
      new compound the default, adds exactly the listed compounds, and
      keeps the existing compounds first and in order. */
  lemma {:induction false} AddMissingValid(scores: Scores, cs: seq<CpdKey>, v: real)
    requires Valid(scores)
    ensures Valid(AddMissing(scores, cs, v))
    decreases |cs|
  {
    if cs != [] {
      var n := |cs| - 1;
      AddMissingValid(scores, cs[..n], v);
      PutValid(AddMissing(scores, cs[..n], v), cs[n], v);
    }
  }

  lemma {:induction false} AddMissingSpec(scores: Scores, cs: seq<CpdKey>, v: real, c: CpdKey)
    ensures var r := AddMissing(scores, cs, v);
      && (c in r.values <==> c in scores.values || c in cs)
      && (c in scores.values ==> r.values[c] == scores.values[c])
      && (c in r.values && c !in scores.values ==> r.values[c] == v)
      && scores.keys <= r.keys
    decreases |cs|
  {
    if cs != [] {
      var n := |cs| - 1;
      var prev := AddMissing(scores, cs[..n], v);
      var r := AddMissing(scores, cs, v);
      AddMissingSpec(scores, cs[..n], v, c);
      assert c in cs <==> c in cs[..n] || c == cs[n];
      if cs[n] in prev.values {
        assert r == prev;
      } else {
        assert r == Put(prev, cs[n], v);
        assert prev.keys <= r.keys;
      }
    }
  }

  // -------------------------------------------------------------- scoring

  /** `score_cpd_identity`: with a non-empty identity list, the scores of
      its single-compound entries; otherwise every compound the annotation
      records name, at the default score. Python iterates the compounds of
      the annotation branch through a `set`; here they are taken in first
      occurrence order. */
  function ScoreCpdIdentity(e: EmpCpd): (r: Scores)
    ensures |e.identity| > 0 ==> None !in r.values
  {
    if |e.identity| > 0 then IdentityScores(e.identity)
    else AddMissing(Empty(), AnnotatedCompounds(e.annotation), DefaultScore)
  }

  lemma ScoreCpdIdentityValid(e: EmpCpd)
    ensures Valid(ScoreCpdIdentity(e))
  {
    if |e.identity| > 0 {
      IdentityScoresValid(e.identity);
    } else {
      AddMissingValid(Empty(), AnnotatedCompounds(e.annotation), DefaultScore);
    }
  }

  /** Without an identity list, the scored compounds are exactly those a
      record of a recognised annotation source names, each at 0.1. */
  lemma AnnotationScoresSpec(e: EmpCpd, c: CpdKey)
    requires |e.identity| == 0
    ensures c in ScoreCpdIdentity(e).values <==> exists i, j :: Annotates(e.annotation, i, j, c)
    ensures c in ScoreCpdIdentity(e).values ==> ScoreCpdIdentity(e).values[c] == DefaultScore
  {
    AddMissingSpec(Empty(), AnnotatedCompounds(e.annotation), DefaultScore, c);
    AnnotatedCompoundsSpec(e.annotation, c);
  }

  /** Python's truth value of a neutral mass: `None` and `0.0` are false. */
  predicate Falsy(m: Option<real>) {
    m.None? || m.value == 0.0
  }

  /** `paradict.get('ionization', 'pos') == 'pos'`, with `None` standing
      for a missing key. */
  predicate PositiveMode(ionization: Option<string>) {
    ionization.None? || ionization.value == "pos"
  }

  /** The first step of `List_score_EmpiricalCompounds` for one record. A
      singleton without neutral mass gets an empty score map and the neutral
      mass of its first feature read as a protonated (positive mode) or
      deprotonated ion; fails, as Python's `[0]` does, when it has no
      feature. Any other record is scored by `ScoreCpdIdentity`. */
  function ScoreEmpCpd(e: EmpCpd, ionization: Option<string>): (r: Result<EmpCpd>)
    ensures r.Failure? <==> Falsy(e.neutralMass) && |e.spectra| == 0
    ensures r.Success? ==> r.value.neutralMass.Some?
    ensures r.Success? ==>
      r.value == e.(neutralMass := r.value.neutralMass, cpdScores := r.value.cpdScores)
  {
    if Falsy(e.neutralMass) then
      if |e.spectra| == 0 then Failure("IndexError: list index out of range")
      else if PositiveMode(ionization) then
        Success(e.(cpdScores := Empty(), neutralMass := Some(e.spectra[0].mz - ProtonMass)))
      else
        Success(e.(cpdScores := Empty(), neutralMass := Some(e.spectra[0].mz + ProtonMass)))
    else
      Success(e.(cpdScores := ScoreCpdIdentity(e)))
  }

  /** A singleton's neutral mass is the mass whose singly charged ion, a
      proton added in positive mode and removed otherwise, has the m/z of
      its first feature; it starts with no candidate compounds. A record
      with a mass keeps it. */
  lemma SingletonMass(e: EmpCpd, ionization: Option<string>)
    requires ScoreEmpCpd(e, ionization).Success?
    ensures var r := ScoreEmpCpd(e, ionization).value;
      && (Falsy(e.neutralMass) ==>
            && r.cpdScores == Empty()
            && r.neutralMass.value + (if PositiveMode(ionization) then ProtonMass else -ProtonMass) == e.spectra[0].mz)
      && (!Falsy(e.neutralMass) ==> r.neutralMass == e.neutralMass && r.cpdScores == ScoreCpdIdentity(e))
  {
  }

  // --------------------------------------------------------- augmentation

  /** `paradict['ppm'] or 10`: a ppm of `None` or 0 falls back to 10. */
  function Ppm(ppm: Option<real>): (p: real)
    ensures !Falsy(ppm) ==> p == ppm.value
    ensures Falsy(ppm) ==> p == DefaultPpm
  {
    if ppm.None? || ppm.value == 0.0 then DefaultPpm else ppm.value
  }

  function Abs(x: real): (r: real)
    ensures r >= 0.0 && (r == x || r == -x)
  {
    if x < 0.0 then -x else x
  }

  /** The mass tolerance of `mass` at `ppm` parts per million. */
  function MassTolerance(ppm: real, mass: real): real {
    ppm * mass / 1000000.0
  }

  /** The model compounds, in model order, whose neutral mass is within
      `tol` of `mass`. */
  function MatchedCompounds(model: seq<(string, real)>, mass: real, tol: real): (cs: seq<CpdKey>)
    ensures forall k | 0 <= k < |cs| :: cs[k].Some?
    decreases |model|
  {
    if model == [] then []
    else
      MatchedCompounds(model[..|model| - 1], mass, tol)
        + (if Abs(model[|model| - 1].1 - mass) <= tol then [Some(model[|model| - 1].0)] else [])
  }

  /** Model compound `i` has identifier `c` and lies within `tol` of `mass`. */
  ghost predicate MassMatch(model: seq<(string, real)>, mass: real, tol: real, i: int, c: string) {
    0 <= i < |model| && model[i].0 == c && Abs(model[i].1 - mass) <= tol
  }

  lemma {:induction false} MatchedCompoundsSpec(model: seq<(string, real)>, mass: real, tol: real, c: string)
    ensures Some(c) in MatchedCompounds(model, mass, tol) <==> exists i :: MassMatch(model, mass, tol, i, c)
    decreases |model|
  {
    if model != [] {
      var n := |model| - 1;
      MatchedCompoundsSpec(model[..n], mass, tol, c);
      if exists i :: MassMatch(model, mass, tol, i, c) {
        var i :| MassMatch(model, mass, tol, i, c);
        if i < n {
          assert MassMatch(model[..n], mass, tol, i, c);
        }
      }
      if exists i :: MassMatch(model[..n], mass, tol, i, c) {
        var i :| MassMatch(model[..n], mass, tol, i, c);
        assert MassMatch(model, mass, tol, i, c);
      }
      if Abs(model[n].1 - mass) <= tol && model[n].0 == c {
        assert MassMatch(model, mass, tol, n, c);
      }
    }
  }

  /** `augment_empCpd_with_model_cpds`: every model compound within the
      ppm tolerance of the neutral mass joins the candidates at score 0.05,
      unless it is a candidate already. */
  function Augment(e: EmpCpd, model: seq<(string, real)>, ppm: Option<real>): (r: EmpCpd)
    requires e.neutralMass.Some?
    ensures r == e.(cpdScores := r.cpdScores)
  {
    var mass := e.neutralMass.value;
    e.(cpdScores := AddMissing(e.cpdScores, MatchedCompounds(model, mass, MassTolerance(Ppm(ppm), mass)), ModelMatchScore))
  }

  /** Augmenting keeps every existing score, and a compound that was not a
      candidate becomes one, at 0.05, exactly when some model compound with
      its identifier is within tolerance. */
  lemma AugmentSpec(e: EmpCpd, model: seq<(string, real)>, ppm: Option<real>, c: CpdKey)
    requires e.neutralMass.Some?
    ensures var r := Augment(e, model, ppm).cpdScores;
      var mass := e.neutralMass.value;
      && (c in e.cpdScores.values ==> c in r.values && r.values[c] == e.cpdScores.values[c])
      && (c !in e.cpdScores.values ==>
            && (c in r.values <==>
                  c.Some? && exists i :: MassMatch(model, mass, MassTolerance(Ppm(ppm), mass), i, c.value))
            && (c in r.values ==> r.values[c] == ModelMatchScore))
      && e.cpdScores.keys <= r.keys
  {
    var mass := e.neutralMass.value;
    var tol := MassTolerance(Ppm(ppm), mass);
    var cs := MatchedCompounds(model, mass, tol);
    AddMissingSpec(e.cpdScores, cs, ModelMatchScore, c);
    if c.Some? {
      MatchedCompoundsSpec(model, mass, tol, c.value);
    } else {
      assert c !in cs;
    }
  }

  /** One pass of the loop of `List_score_EmpiricalCompounds`: score the
      record, then augment it from the model. */
  function ScoreOne(e: EmpCpd, ionization: Option<string>, model: seq<(string, real)>, ppm: Option<real>): (r: Result<EmpCpd>)
    ensures r.Failure? <==> ScoreEmpCpd(e, ionization).Failure?
    ensures r.Success? ==> r.value == e.(neutralMass := r.value.neutralMass, cpdScores := r.value.cpdScores)
  {
    var scored := ScoreEmpCpd(e, ionization);
    if scored.Failure? then Failure(scored.error) else Success(Augment(scored.value, model, ppm))
  }

  /** A scored record's compounds are listed once each, in key order. */
  lemma ScoreOneValid(e: EmpCpd, ionization: Option<string>, model: seq<(string, real)>, ppm: Option<real>)
    requires ScoreOne(e, ionization, model, ppm).Success?
    ensures Valid(ScoreOne(e, ionization, model, ppm).value.cpdScores)
  {
    var scored := ScoreEmpCpd(e, ionization).value;
    if !Falsy(e.neutralMass) {
      ScoreCpdIdentityValid(e);
    }
    var mass := scored.neutralMass.value;
    AddMissingValid(scored.cpdScores, MatchedCompounds(model, mass, MassTolerance(Ppm(ppm), mass)), ModelMatchScore);
  }

  /** `List_score_EmpiricalCompounds` over the records in order; the first
      singleton without features stops it. */
  function ScoreAll(records: seq<EmpCpd>, ionization: Option<string>, model: seq<(string, real)>, ppm: Option<real>): (r: Result<seq<EmpCpd>>)
    ensures r.Success? ==> |r.value| == |records|
  {
    MapResult(records, e => ScoreOne(e, ionization, model, ppm))
  }

  /** Scoring fails exactly when some record cannot be scored, and
      otherwise scores every record on its own: record `i` of the result
      is record `i` of the input, scored and augmented. */
  lemma ScoreAllSpec(records: seq<EmpCpd>, ionization: Option<string>, model: seq<(string, real)>, ppm: Option<real>)
    ensures var r := ScoreAll(records, ionization, model, ppm);
      && (r.Failure? <==> exists i | 0 <= i < |records| :: ScoreOne(records[i], ionization, model, ppm).Failure?)
      && (r.Success? ==> forall i | 0 <= i < |records| :: r.value[i] == ScoreOne(records[i], ionization, model, ppm).value)
  {
    MapResultSpec(records, e => ScoreOne(e, ionization, model, ppm));
  }

  /** Every record scored by `ScoreAll` lists its compounds once each. */
  lemma ScoreAllValid(records: seq<EmpCpd>, ionization: Option<string>, model: seq<(string, real)>, ppm: Option<real>)
    requires ScoreAll(records, ionization, model, ppm).Success?
    ensures forall i | 0 <= i < |records| :: Valid(ScoreAll(records, ionization, model, ppm).value[i].cpdScores)
  {
    ScoreAllSpec(records, ionization, model, ppm);
    forall i | 0 <= i < |records|
      ensures Valid(ScoreAll(records, ionization, model, ppm).value[i].cpdScores)
    {
      ScoreOneValid(records[i], ionization, model, ppm);
    }
  }

  // ---------------------------------------------------------------- index

  /** The identifiers of a pseudo spectrum's features, in order. */
  function FeatureIds(spectra: seq<Ms1Peak>): (ids: seq<string>)
    ensures |ids| == |spectra|
    ensures forall k | 0 <= k < |spectra| :: ids[k] == spectra[k].id
  {
    seq(|spectra|, k requires 0 <= k < |spectra| => spectra[k].id)
  }

  /** `for f in fs: d[f] = v`. */
  function PutAll(d: Dict<string, string>, fs: seq<string>, v: string): (r: Dict<string, string>)
    decreases |fs|
  {
    if fs == [] then d else Put(PutAll(d, fs[..|fs| - 1], v), fs[|fs| - 1], v)
  }

  /** Every listed key maps to `v`; every other key keeps its value. */
  lemma {:induction false} PutAllSpec(d: Dict<string, string>, fs: seq<string>, v: string, f: string)
    ensures var r := PutAll(d, fs, v);
      && (f in r.values <==> f in d.values || f in fs)
      && (f in fs ==> r.values[f] == v)
      && (f !in fs && f in d.values ==> r.values[f] == d.values[f])
    decreases |fs|
  {
    if fs != [] {
      var n := |fs| - 1;
      PutAllSpec(d, fs[..n], v, f);
      assert f in fs <==> f in fs[..n] || f == fs[n];
    }
  }

  /** `feature_to_EmpiricalCompounds`: each feature of each record, in
      record order, is assigned the record's interim identifier. */
  function FeatureIndex(records: seq<EmpCpd>): (r: Dict<string, string>)
    decreases |records|
  {
    if records == [] then Empty()
    else PutAll(FeatureIndex(records[..|records| - 1]), FeatureIds(records[|records| - 1].spectra), records[|records| - 1].interimId)
  }

  /** `records[i]` is the last record with feature `f`. */
  ghost predicate LastListing(records: seq<EmpCpd>, f: string, i: int) {
    && 0 <= i < |records|
    && f in FeatureIds(records[i].spectra)
    && forall j | i < j < |records| :: f !in FeatureIds(records[j].spectra)
  }

  /** A feature is indexed exactly when some record has it, and it points
      at the last such record: a feature shared by several records keeps
      only the last one. */
  lemma {:induction false} FeatureIndexSpec(records: seq<EmpCpd>, f: string)
    ensures f in FeatureIndex(records).values <==>
      exists i | 0 <= i < |records| :: f in FeatureIds(records[i].spectra)
    ensures f in FeatureIndex(records).values ==>
      exists i :: LastListing(records, f, i) && FeatureIndex(records).values[f] == records[i].interimId
    decreases |records|
  {
    if records != [] {
      var n := |records| - 1;
      var init := records[..n];
      var last := records[n];
      var prev := FeatureIndex(init);
      FeatureIndexSpec(init, f);
      PutAllSpec(prev, FeatureIds(last.spectra), last.interimId, f);
      assert forall i | 0 <= i < n :: records[i] == init[i];
      if f in FeatureIds(last.spectra) {
        assert LastListing(records, f, n);
      } else if f in prev.values {
        var i :| LastListing(init, f, i) && prev.values[f] == init[i].interimId;
        assert LastListing(records, f, i);
      }
    }
  }

  /** The interim identifiers listed under `c`, none when `c` is absent. */
  function Holding(d: Dict<CpdKey, seq<string>>, c: CpdKey): seq<string> {
    if c in d.values then d.values[c] else []
  }

  /** `for c in cs: d.setdefault(c, []); d[c] += [id]`. */
  function AppendTo(d: Dict<CpdKey, seq<string>>, cs: seq<CpdKey>, id: string): (r: Dict<CpdKey, seq<string>>)
    decreases |cs|
  {
    if cs == [] then d
    else Put(AppendTo(d, cs[..|cs| - 1], id), cs[|cs| - 1], Holding(AppendTo(d, cs[..|cs| - 1], id), cs[|cs| - 1]) + [id])
  }

  /** Appending under distinct compounds adds `id` once to the list of each
      of them and leaves the other lists alone. */
  lemma {:induction false} AppendToSpec(d: Dict<CpdKey, seq<string>>, cs: seq<CpdKey>, id: string, c: CpdKey)
    requires Distinct(cs)
    ensures c in AppendTo(d, cs, id).values <==> c in d.values || c in cs
    ensures Holding(AppendTo(d, cs, id), c) == Holding(d, c) + (if c in cs then [id] else [])
    decreases |cs|
  {
    if cs != [] {
      var n := |cs| - 1;
      AppendToSpec(d, cs[..n], id, c);
      assert c in cs <==> c in cs[..n] || c == cs[n];
      assert cs[n] !in cs[..n];
    }
  }

  /** The interim identifiers of the records listing `c` among their
      candidates, in record order. */
  function Holders(records: seq<EmpCpd>, c: CpdKey): (ids: seq<string>)
    ensures |ids| <= |records|
    decreases |records|
  {
    if records == [] then []
    else
      Holders(records[..|records| - 1], c)
        + (if c in records[|records| - 1].cpdScores.keys then [records[|records| - 1].interimId] else [])
  }

  /** `cpd2EmpiricalCompounds`: each candidate of each record, in record
      and key order, gets the record's interim identifier appended. */
  function CompoundIndex(records: seq<EmpCpd>): (r: Dict<CpdKey, seq<string>>)
    decreases |records|
  {
    if records == [] then Empty()
    else AppendTo(CompoundIndex(records[..|records| - 1]), records[|records| - 1].cpdScores.keys, records[|records| - 1].interimId)
  }

  /** A compound is indexed exactly when some record lists it. */
  lemma {:induction false} CompoundIndexKeys(records: seq<EmpCpd>, c: CpdKey)
    requires forall i | 0 <= i < |records| :: Distinct(records[i].cpdScores.keys)
    ensures c in CompoundIndex(records).values <==>
      exists i | 0 <= i < |records| :: c in records[i].cpdScores.keys
    decreases |records|
  {
    if records != [] {
      var n := |records| - 1;
      var init := records[..n];
      assert forall i | 0 <= i < n :: records[i] == init[i];
      CompoundIndexKeys(init, c);
      AppendToSpec(CompoundIndex(init), records[n].cpdScores.keys, records[n].interimId, c);
    }
  }

  /** The list of a compound holds the interim identifiers of exactly the
      records listing it, in order. */
  lemma {:induction false} CompoundIndexSpec(records: seq<EmpCpd>, c: CpdKey)
    requires forall i | 0 <= i < |records| :: Distinct(records[i].cpdScores.keys)
    ensures Holding(CompoundIndex(records), c) == Holders(records, c)
    decreases |records|
  {
    if records != [] {
      var n := |records| - 1;
      var init := records[..n];
      assert forall i | 0 <= i < n :: records[i] == init[i];
      CompoundIndexSpec(init, c);
      AppendToSpec(CompoundIndex(init), records[n].cpdScores.keys, records[n].interimId, c);
    }
  }

  /** `id` is among the holders of `c` exactly when a record with that
      interim identifier lists `c`. */
  lemma {:induction false} HoldersSpec(records: seq<EmpCpd>, c: CpdKey, id: string)
    ensures id in Holders(records, c) <==>
      exists i | 0 <= i < |records| :: c in records[i].cpdScores.keys && records[i].interimId == id
    decreases |records|
  {
    if records != [] {
      var n := |records| - 1;
      var init := records[..n];
      assert forall i | 0 <= i < n :: records[i] == init[i];
      HoldersSpec(init, c, id);
    }
  }

  /** The trios of one compound: one per feature, in feature order. */
  function FeatureTrios(spectra: seq<Ms1Peak>, id: string, c: CpdKey): (ts: seq<Trio>)
    ensures |ts| == |spectra|
    ensures forall k | 0 <= k < |spectra| :: ts[k] == Trio(spectra[k].id, id, c)
  {
    seq(|spectra|, k requires 0 <= k < |spectra| => Trio(spectra[k].id, id, c))
  }

  /** The trios of one record: for each candidate in key order, one per
      feature. */
  function CompoundTrios(spectra: seq<Ms1Peak>, id: string, cs: seq<CpdKey>): (ts: seq<Trio>)
    decreases |cs|
  {
    if cs == [] then []
    else CompoundTrios(spectra, id, cs[..|cs| - 1]) + FeatureTrios(spectra, id, cs[|cs| - 1])
  }

  /** A record's trios pair each of its features with each of its
      candidates, and nothing else. */
  lemma {:induction false} CompoundTriosSpec(spectra: seq<Ms1Peak>, id: string, cs: seq<CpdKey>, t: Trio)
    ensures t in CompoundTrios(spectra, id, cs) <==>
      t.empCpd == id && t.cpd in cs && t.feature in FeatureIds(spectra)
    decreases |cs|
  {
    if cs != [] {
      var n := |cs| - 1;
      CompoundTriosSpec(spectra, id, cs[..n], t);
      assert t.cpd in cs <==> t.cpd in cs[..n] || t.cpd == cs[n];
      var ids := FeatureIds(spectra);
      if t in FeatureTrios(spectra, id, cs[n]) {
        var k :| 0 <= k < |spectra| && FeatureTrios(spectra, id, cs[n])[k] == t;
        assert ids[k] == t.feature;
      }
      if t.empCpd == id && t.cpd == cs[n] && t.feature in ids {
        var k :| 0 <= k < |ids| && ids[k] == t.feature;
        assert FeatureTrios(spectra, id, cs[n])[k] == t;
      }
    }
  }

  /** There is one trio per feature and candidate. */
  lemma {:induction false} CompoundTriosLength(spectra: seq<Ms1Peak>, id: string, cs: seq<CpdKey>)
    ensures |CompoundTrios(spectra, id, cs)| == |cs| * |spectra|
    decreases |cs|
  {
    if cs != [] {
      var n := |cs| - 1;
      CompoundTriosLength(spectra, id, cs[..n]);
      assert |cs| * |spectra| == n * |spectra| + |spectra|;
    }
  }

  /** The trios of a record are ordered by candidate, then by feature: the
      trio at position `j * |spectra| + k` pairs feature `k` with candidate
      `j`. */
  lemma {:induction false} CompoundTriosAt(spectra: seq<Ms1Peak>, id: string, cs: seq<CpdKey>, j: nat, k: nat)
    requires j < |cs| && k < |spectra|
    ensures j * |spectra| + k < |CompoundTrios(spectra, id, cs)|
    ensures CompoundTrios(spectra, id, cs)[j * |spectra| + k] == Trio(spectra[k].id, id, cs[j])
    decreases |cs|
  {
    var n := |cs| - 1;
    var pre := CompoundTrios(spectra, id, cs[..n]);
    var last := FeatureTrios(spectra, id, cs[n]);
    assert CompoundTrios(spectra, id, cs) == pre + last;
    var i := j * |spectra| + k;
    if j < n {
      CompoundTriosAt(spectra, id, cs[..n], j, k);
      assert (pre + last)[i] == pre[i];
    } else {
      CompoundTriosLength(spectra, id, cs[..n]);
      assert i == |pre| + k;
      assert (pre + last)[i] == last[k];
    }
  }

  /** Record `e` gives trio `t`: its feature, its interim identifier and one
      of its candidates. */
  predicate Contributes(e: EmpCpd, t: Trio) {
    t.empCpd == e.interimId && t.cpd in e.cpdScores.keys && t.feature in FeatureIds(e.spectra)
  }

  /** `TrioList`: the trios of each record, in record order. */
  function TrioList(records: seq<EmpCpd>): (ts: seq<Trio>)
    decreases |records|
  {
    if records == [] then []
    else
      TrioList(records[..|records| - 1])
        + CompoundTrios(records[|records| - 1].spectra, records[|records| - 1].interimId, records[|records| - 1].cpdScores.keys)
  }

  /** A trio is listed exactly when some record gives it. */
  lemma {:induction false} TrioListSpec(records: seq<EmpCpd>, t: Trio)
    ensures t in TrioList(records) <==> exists i | 0 <= i < |records| :: Contributes(records[i], t)
    decreases |records|
  {
    if records != [] {
      var n := |records| - 1;
      var init := records[..n];
      var last := records[n];
      assert forall i | 0 <= i < n :: records[i] == init[i];
      TrioListSpec(init, t);
      CompoundTriosSpec(last.spectra, last.interimId, last.cpdScores.keys, t);
    }
  }

  /** The trios keep record order: the trios of two runs of records one
      after the other are those of each. */
  lemma {:induction false} TrioListAppend(a: seq<EmpCpd>, b: seq<EmpCpd>)
    ensures TrioList(a + b) == TrioList(a) + TrioList(b)
    decreases |b|
  {
    if b == [] {
      assert a + b == a;
    } else {
      var n := |b| - 1;
      var last := CompoundTrios(b[n].spectra, b[n].interimId, b[n].cpdScores.keys);
      TrioListAppend(a, b[..n]);
      assert (a + b)[..|a + b| - 1] == a + b[..n];
      assert (a + b)[|a + b| - 1] == b[n];
      var ta, tb := TrioList(a), TrioList(b[..n]);
      assert TrioList(a + b) == ta + tb + last;
      assert TrioList(b) == tb + last;
      TriosAssoc(ta, tb, last);
    }
  }

  lemma TriosAssoc(x: seq<Trio>, y: seq<Trio>, z: seq<Trio>)
    ensures x + y + z == x + (y + z)
  {
  }

  /** A single record gives its candidate-by-feature trios (ordered as
      `CompoundTriosAt` states). */
  lemma TrioListOne(e: EmpCpd)
    ensures TrioList([e]) == CompoundTrios(e.spectra, e.interimId, e.cpdScores.keys)
  {
    assert [e][..0] == [];
  }

  /** The three indexes `index_EmpCpd_Cpd` returns. */
  datatype Index = Index(
    featureToEmpCpd: Dict<string, string>,
    cpdToEmpCpds: Dict<CpdKey, seq<string>>,
    trios: seq<Trio>)

  /** `index_EmpCpd_Cpd` over the scored records in order. */
  function IndexEmpCpds(records: seq<EmpCpd>): Index {
    Index(FeatureIndex(records), CompoundIndex(records), TrioList(records))
  }

  // ------------------------------------------------------------ whole step

  /** The scoring and indexing of `DataMeetModel` on the empirical
      compounds of the user data, in dictionary order, with the index loop
      corrected to run over the records (see `IndexRecords`): score every
      record, then index the scored records. */
  function Meet(records: seq<EmpCpd>, ionization: Option<string>, model: seq<(string, real)>, ppm: Option<real>): (r: Result<Index>)
  {
    var scored :- ScoreAll(records, ionization, model, ppm);
    Success(IndexEmpCpds(scored))
  }

  /** The scoring and indexing of `DataMeetModel` as written, once the
      feature list of lines 116 and 120 is read from `ListOfUserFeatures`
      (as written that read fails first: see `DataMeetModelAsWritten`):
      the records are scored, then the index loop iterates the dictionary
      of scored records, keyed by interim identifier, and so meets the
      keys. Whatever the records, this succeeds only when there are none,
      and then every index is empty. */
  function MeetAsWritten(records: seq<EmpCpd>, ionization: Option<string>, model: seq<(string, real)>, ppm: Option<real>): (r: Result<Index>)
    ensures r.Success? <==> records == []
    ensures r.Success? ==> r.value.trios == [] && r.value.featureToEmpCpd.keys == []
  {
    var scored :- ScoreAll(records, ionization, model, ppm);
    ScoreAllLength(records, ionization, model, ppm);
    IndexAsWritten(seq(|scored|, i requires 0 <= i < |scored| => scored[i].interimId))
  }

  lemma ScoreAllLength(records: seq<EmpCpd>, ionization: Option<string>, model: seq<(string, real)>, ppm: Option<real>)
    requires ScoreAll(records, ionization, model, ppm).Success?
    ensures |ScoreAll(records, ionization, model, ppm).value| == |records|
  {
    MapResultSpec(records, e => ScoreOne(e, ionization, model, ppm));
  }

  /** With the corrected index, meeting the model fails exactly when some
      record is a singleton without features. */
  lemma MeetFailure(records: seq<EmpCpd>, ionization: Option<string>, model: seq<(string, real)>, ppm: Option<real>)
    ensures Meet(records, ionization, model, ppm).Failure? <==>
      exists i | 0 <= i < |records| :: Falsy(records[i].neutralMass) && |records[i].spectra| == 0
  {
    ScoreAllSpec(records, ionization, model, ppm);
  }

  /** Otherwise, with the corrected index, the trios are exactly those the
      scored records give. */
  lemma MeetTrios(records: seq<EmpCpd>, ionization: Option<string>, model: seq<(string, real)>, ppm: Option<real>, t: Trio)
    requires Meet(records, ionization, model, ppm).Success?
    ensures t in Meet(records, ionization, model, ppm).value.trios <==>
      exists i | 0 <= i < |records| && ScoreOne(records[i], ionization, model, ppm).Success? ::
        Contributes(ScoreOne(records[i], ionization, model, ppm).value, t)
  {
    ScoreAllSpec(records, ionization, model, ppm);
    var scored := ScoreAll(records, ionization, model, ppm).value;
    TrioListSpec(scored, t);
    if t in TrioList(scored) {
      var i :| 0 <= i < |scored| && Contributes(scored[i], t);
      assert ScoreOne(records[i], ionization, model, ppm).Success?;
    }
  }

  /** `index_EmpCpd_Cpd` as written: it loops over the scored records'
      dictionary itself, which yields its keys, the interim identifiers
      (strings), so the first `empCpd['MS1_pseudo_Spectra']` is a string
      indexed by a string and raises `TypeError`; only an empty dictionary
      gets through. */
  function IndexAsWritten(keys: seq<string>): (r: Result<Index>)
    ensures r.Success? <==> keys == []
    ensures r.Success? ==> r.value.trios == [] && r.value.featureToEmpCpd.keys == []
  {
    if keys == [] then Success(IndexEmpCpds([]))
    else Failure("TypeError: string indices must be integers")
  }

  /** `index_EmpCpd_Cpd` as intended: over the records of the dictionary, in
      key order. Its trios are exactly those the records give. */
  function IndexRecords(d: Dict<string, EmpCpd>): (r: Index)
    requires forall k | k in d.keys :: k in d.values
    ensures forall t :: t in r.trios <==>
      exists i | 0 <= i < |d.keys| :: Contributes(d.values[d.keys[i]], t)
  {
    var records := ValueList(d);
    TrioListAll(records);
    IndexEmpCpds(records)
  }

  /** `TrioListSpec` for every trio at once. */
  lemma TrioListAll(records: seq<EmpCpd>)
    ensures forall t :: t in TrioList(records) <==> exists i | 0 <= i < |records| :: Contributes(records[i], t)
  {
    forall t
      ensures t in TrioList(records) <==> exists i | 0 <= i < |records| :: Contributes(records[i], t)
    {
      TrioListSpec(records, t);
    }
  }

  /** One scored record is enough to tell the two apart: the loop as
      written fails, while the loop over the records gives the trio of its
      feature and compound. */
  lemma IndexAsWrittenFails()
    ensures var e := EmpCpd("E1", Some(180.0), [], [], [Ms1Peak("F1", 181.007276)], Dict([Some("C1")], map[Some("C1") := 0.6]));
      var d := Dict(["E1"], map["E1" := e]);
      && IndexAsWritten(d.keys).Failure?
      && Trio("F1", "E1", Some("C1")) in IndexRecords(d).trios
  {
    var e := EmpCpd("E1", Some(180.0), [], [], [Ms1Peak("F1", 181.007276)], Dict([Some("C1")], map[Some("C1") := 0.6]));
    assert FeatureIds(e.spectra) == ["F1"];
    assert Contributes(e, Trio("F1", "E1", Some("C1")));
  }

  // ------------------------------------------------------------ the constructor

  /** The reference features: `rowDict`, each feature under its `id` (a
      later feature with the same `id` replaces an earlier one), built from
      the feature list the user data holds. */
  function RowDict(fs: seq<UserData.Feature>): (r: Dict<string, UserData.Feature>)
    decreases |fs|
  {
    if fs == [] then Empty()
    else Put(RowDict(fs[..|fs| - 1]), fs[|fs| - 1].id, fs[|fs| - 1])
  }

  /** `features`: the `id` of every reference feature, in order. */
  function FeatureIdList(fs: seq<UserData.Feature>): (ids: seq<string>)
    ensures |ids| == |fs|
    ensures forall i | 0 <= i < |fs| :: ids[i] == fs[i].id
  {
    seq(|fs|, i requires 0 <= i < |fs| => fs[i].id)
  }

  /** `fs[i]` is the last feature whose `id` is `k`. */
  ghost predicate LastRow(fs: seq<UserData.Feature>, k: string, i: int) {
    && 0 <= i < |fs|
    && fs[i].id == k
    && forall j | i < j < |fs| :: fs[j].id != k
  }

  /** The row dictionary is keyed by exactly the listed feature
      identifiers, and each key holds the last feature with that
      identifier. */
  lemma {:induction false} RowDictSpec(fs: seq<UserData.Feature>, k: string)
    ensures k in RowDict(fs).values <==> k in FeatureIdList(fs)
    ensures k in RowDict(fs).values ==> exists i :: LastRow(fs, k, i) && RowDict(fs).values[k] == fs[i]
    decreases |fs|
  {
    if fs != [] {
      var n := |fs| - 1;
      var init := fs[..n];
      RowDictSpec(init, k);
      assert forall i | 0 <= i < n :: fs[i] == init[i];
      assert FeatureIdList(fs) == FeatureIdList(init) + [fs[n].id];
      if fs[n].id == k {
        assert LastRow(fs, k, n);
      } else if k in RowDict(init).values {
        var i :| LastRow(init, k, i) && RowDict(init).values[k] == init[i];
        assert LastRow(fs, k, i);
      }
    }
  }

  /** What the constructor leaves on the object: the row dictionary, the
      significant list, the reference identifiers and the three indexes. */
  datatype Network = Network(
    rowDict: Dict<string, UserData.Feature>,
    significant: seq<string>,
    features: seq<string>,
    index: Index)

  /** Lines 116 and 120 as written read `ListOfMassFeatures` from the user
      data, but `InputUserData` only ever sets `ListOfUserFeatures`, so the
      read raises `AttributeError` whatever the data holds. */
  function MassFeaturesAsWritten(u: UserData.InputData): (r: Result<seq<UserData.Feature>>)
    ensures r.Failure?
  {
    Failure("AttributeError: 'InputUserData' object has no attribute 'ListOfMassFeatures'")
  }

  /** `DataMeetModel(model, userData)` as written: the feature list is read
      before anything is scored, so the constructor fails on every input,
      even with no records (where `MeetAsWritten` alone would succeed). */
  function DataMeetModelAsWritten(u: UserData.InputData, records: seq<EmpCpd>, ionization: Option<string>, model: seq<(string, real)>, ppm: Option<real>): (r: Result<Network>)
    ensures r.Failure?
  {
    // nothing after line 116 runs
    Failure(MassFeaturesAsWritten(u).error)
  }

  /** `DataMeetModel(model, userData)` with lines 116 and 120 reading the
      user features and the index loop over the records: it fails exactly
      when `Meet` does; otherwise the row dictionary is keyed by exactly
      the reference identifiers, the significant list is the user data's,
      and the three indexes are those `Meet` builds from the scored
      records. */
  function DataMeetModel(u: UserData.InputData, records: seq<EmpCpd>, ionization: Option<string>, model: seq<(string, real)>, ppm: Option<real>): (r: Result<Network>)
    ensures r.Failure? <==>
      exists i | 0 <= i < |records| :: Falsy(records[i].neutralMass) && |records[i].spectra| == 0
    ensures r.Success? ==>
      && r.value.significant == u.inputFeatures
      && |r.value.features| == |u.features|
      && (forall i | 0 <= i < |u.features| :: r.value.features[i] == u.features[i].id)
      && (forall k :: k in r.value.rowDict.values <==> k in r.value.features)
      && Meet(records, ionization, model, ppm).Success?
      && r.value.index == Meet(records, ionization, model, ppm).value
  {
    MeetFailure(records, ionization, model, ppm);
    var index :- Meet(records, ionization, model, ppm);
    RowDictAll(u.features);
    Success(Network(RowDict(u.features), u.inputFeatures, FeatureIdList(u.features), index))
  }

  /** The trio list the corrected constructor leaves holds exactly the
      trios the scored records give. */
  lemma DataMeetModelTrios(u: UserData.InputData, records: seq<EmpCpd>, ionization: Option<string>, model: seq<(string, real)>, ppm: Option<real>, t: Trio)
    requires DataMeetModel(u, records, ionization, model, ppm).Success?
    ensures t in DataMeetModel(u, records, ionization, model, ppm).value.index.trios <==>
      exists i | 0 <= i < |records| && ScoreOne(records[i], ionization, model, ppm).Success? ::
        Contributes(ScoreOne(records[i], ionization, model, ppm).value, t)
  {
    MeetTrios(records, ionization, model, ppm, t);
  }

  /** `RowDictSpec` for every key at once. */
  lemma RowDictAll(fs: seq<UserData.Feature>)
    ensures forall k :: k in RowDict(fs).values <==> k in FeatureIdList(fs)
  {
    forall k
      ensures k in RowDict(fs).values <==> k in FeatureIdList(fs)
    {
      RowDictSpec(fs, k);
    }
  }

  /** User data with one feature and no records tells the two apart: the
      constructor as written fails, while the corrected one succeeds and
      files the feature under its identifier. */
  lemma DataMeetModelAsWrittenFails()
    ensures var f := UserData.Feature("row1_100.0_30.0", "row1_100.0_30.0", "F1", 100.0, 30.0, 0.01, 2.0);
      var u := UserData.InputData([], [f], 30.0, 100.0, 0.05, [true], ["F1"]);
      && DataMeetModelAsWritten(u, [], None, [], None).Failure?
      && MeetAsWritten([], None, [], None).Success?
      && DataMeetModel(u, [], None, [], None).Success?
      && DataMeetModel(u, [], None, [], None).value.rowDict.values["row1_100.0_30.0"] == f
  {
    var f := UserData.Feature("row1_100.0_30.0", "row1_100.0_30.0", "F1", 100.0, 30.0, 0.01, 2.0);
    assert [f][..0] == [];
  }
}

=== FILE: mmodule.dfy ===
/** One network module (`Mmodule` in modularAnalysis.py): a candidate
    subgraph is copied, shaved of dangling non-seed nodes, labelled, and
    scored by its Newman-Girvan modularity against the whole reference
    network. */
module Mmodule {
  import opened Graphs
  import opened Trios
  import Text
  import opened Dicts

  // -------------------------------------------------------------- shaving

  /** Non-seed nodes of degree exactly one: the ones a shaving round
      removes, all of them and no others. */
  function Excessive(g: Graph, seeds: set<NodeId>): (ex: set<NodeId>)
    ensures ex <= g.nodes
    ensures forall x | x in g.nodes && x !in seeds && Degree(g, x) == 1 :: x in ex
    ensures forall x | x in ex :: x !in seeds && Degree(g, x) == 1
    ensures ex !! seeds
  {
    set x | x in g.nodes && x !in seeds && Degree(g, x) == 1
  }

  /** No non-seed node of `g` hangs off the graph by a single edge. */
  ghost predicate Shaved(g: Graph, seeds: set<NodeId>) {
    forall x | x in g.nodes && x !in seeds :: Degree(g, x) != 1
  }

  lemma FewerNodes(g: Graph, ex: set<NodeId>)
    requires ex != {} && ex <= g.nodes
    ensures |g.nodes - ex| < |g.nodes|
  {
    var x :| x in ex;
    SubsetCardinality(g.nodes - ex, g.nodes - {x});
  }

  /** `Mmodule.shave`: remove every excessive node at once, recompute, and
      repeat until a round finds none. The result is a well-formed graph
      whose nodes and edges are those of `g`. */
  function Shave(g: Graph, seeds: set<NodeId>): (r: Graph)
    requires WellFormed(g)
    ensures WellFormed(r)
    ensures r.nodes <= g.nodes && r.edges <= g.edges
    decreases |g.nodes|
  {
    var ex := Excessive(g, seeds);
    if ex == {} then g
    else
      FewerNodes(g, ex);
      Shave(RemoveNodes(g, ex), seeds)
  }

  /** What shaving achieves: no excessive node is left, every seed node of
      `g` survives, and the result is the subgraph of `g` induced by the
      surviving nodes. */
  lemma {:induction false} ShaveSpec(g: Graph, seeds: set<NodeId>)
    requires WellFormed(g)
    ensures var r := Shave(g, seeds);
      && Shaved(r, seeds)
      && g.nodes * seeds <= r.nodes
      && r == InducedSubgraph(g, r.nodes)
    decreases |g.nodes|
  {
    var ex := Excessive(g, seeds);
    if ex == {} {
      assert g == InducedSubgraph(g, g.nodes);
    } else {
      FewerNodes(g, ex);
      var h := RemoveNodes(g, ex);
      ShaveSpec(h, seeds);
      var r := Shave(h, seeds);
      InducedTwice(g, g.nodes - ex, r.nodes);
      assert (g.nodes - ex) * r.nodes == r.nodes;
    }
  }

  /** Shaving removes only dangling nodes: every node of a set `core` in
      which each non-seed node has at least two neighbours inside `core`
      survives, since none of them ever falls to degree one. */
  lemma {:induction false} ShaveKeepsCore(g: Graph, seeds: set<NodeId>, core: set<NodeId>)
    requires WellFormed(g) && core <= g.nodes
    requires forall x | x in core && x !in seeds :: Degree(InducedSubgraph(g, core), x) >= 2
    ensures core <= Shave(g, seeds).nodes
    decreases |g.nodes|
  {
    var ex := Excessive(g, seeds);
    if ex != {} {
      forall x | x in core && x !in seeds
        ensures x !in ex
      {
        DegreeOfSubgraph(g, InducedSubgraph(g, core), x);
      }
      FewerNodes(g, ex);
      var h := RemoveNodes(g, ex);
      InducedTwice(g, g.nodes - ex, core);
      assert (g.nodes - ex) * core == core;
      ShaveKeepsCore(h, seeds, core);
    }
  }

  /** Shaving a shaved graph changes nothing: shaving reaches a fixed point. */
  lemma ShaveIdempotent(g: Graph, seeds: set<NodeId>)
    requires WellFormed(g)
    ensures Shave(Shave(g, seeds), seeds) == Shave(g, seeds)
  {
    var r := Shave(g, seeds);
    ShaveSpec(g, seeds);
    assert Excessive(r, seeds) == {};
  }

  // ------------------------------------------------------------- labelling

  /** `Mmodule.make_nodestr`: the node identifiers in increasing order,
      concatenated. */
  function Label(nodes: set<NodeId>): string
  {
    Text.Concat(Text.SortedSeq(nodes))
  }

  /** The label depends only on the node set, and when all identifiers have
      the same length (as database accessions such as `C00031` or
      `HMDB0000195` do) it determines the node set. */
  lemma LabelDeterminesFixedWidthNodes(a: set<NodeId>, b: set<NodeId>, k: nat)
    requires k > 0
    requires forall x | x in a :: |x| == k
    requires forall x | x in b :: |x| == k
    ensures Label(a) == Label(b) <==> a == b
  {
    if Label(a) == Label(b) {
      SameListing(a, b, k);
    }
  }

  /** Equal labels of fixed-width identifiers come from equal listings. */
  lemma SameListing(a: set<NodeId>, b: set<NodeId>, k: nat)
    requires k > 0
    requires forall x | x in a :: |x| == k
    requires forall x | x in b :: |x| == k
    requires Label(a) == Label(b)
    ensures a == b
  {
    ListingWidth(a, k);
    ListingWidth(b, k);
    Text.ConcatInjective(Text.SortedSeq(a), Text.SortedSeq(b), k);
    SameSortedSeq(a, b);
  }

  lemma ListingWidth(s: set<NodeId>, k: nat)
    requires forall x | x in s :: |x| == k
    ensures forall i | 0 <= i < |Text.SortedSeq(s)| :: |Text.SortedSeq(s)[i]| == k
  {
    var xs := Text.SortedSeq(s);
    assert forall i | 0 <= i < |xs| :: xs[i] in s;
  }

  lemma SameSortedSeq(a: set<NodeId>, b: set<NodeId>)
    requires Text.SortedSeq(a) == Text.SortedSeq(b)
    ensures a == b
  {
    forall x
      ensures x in a <==> x in b
    {
      assert x in a <==> x in Text.SortedSeq(a);
    }
  }

  /** The label of a node set is the concatenation of any strictly sorted
      listing of it. */
  lemma LabelOfListing(xs: seq<NodeId>, nodes: set<NodeId>)
    requires Text.StrictlySorted(xs)
    requires forall x :: x in xs <==> x in nodes
    ensures Label(nodes) == Text.Concat(xs)
  {
    Text.SortedUnique(Text.SortedSeq(nodes), xs);
  }

  lemma SortedFour(xs: seq<string>)
    requires |xs| == 4
    requires Text.LexLess(xs[0], xs[1]) && Text.LexLess(xs[1], xs[2]) && Text.LexLess(xs[2], xs[3])
    ensures Text.StrictlySorted(xs)
  {
    Text.LexLessTransitive(xs[0], xs[1], xs[2]);
    Text.LexLessTransitive(xs[1], xs[2], xs[3]);
    Text.LexLessTransitive(xs[0], xs[2], xs[3]);
  }

  lemma LabelOfFour(xs: seq<NodeId>, nodes: set<NodeId>)
    requires |xs| == 4
    requires Text.LexLess(xs[0], xs[1]) && Text.LexLess(xs[1], xs[2]) && Text.LexLess(xs[2], xs[3])
    requires forall x :: x in xs <==> x in nodes
    ensures Label(nodes) == xs[0] + xs[1] + xs[2] + xs[3]
  {
    SortedFour(xs);
    LabelOfListing(xs, nodes);
    ConcatFour(xs);
  }

  lemma ConcatFour(xs: seq<string>)
    requires |xs| == 4
    ensures Text.Concat(xs) == xs[0] + xs[1] + xs[2] + xs[3]
  {
    assert Text.Concat(xs[3..]) == xs[3] + Text.Concat([]);
    assert Text.Concat(xs[2..]) == xs[2] + Text.Concat(xs[3..]);
    assert Text.Concat(xs[1..]) == xs[1] + Text.Concat(xs[2..]);
  }

  lemma LabelOfFirstExample()
    ensures Label({"A", "BC", "X", "Y"}) == "A" + "BC" + "X" + "Y"
  {
    var xs := ["A", "BC", "X", "Y"];
    assert Text.LexLess(xs[0], xs[1]) && Text.LexLess(xs[1], xs[2]) && Text.LexLess(xs[2], xs[3]);
    assert forall x :: x in xs <==> x in {"A", "BC", "X", "Y"};
    LabelOfFour(xs, {"A", "BC", "X", "Y"});
  }

  lemma LabelOfSecondExample()
    ensures Label({"AB", "C", "X", "Y"}) == "AB" + "C" + "X" + "Y"
  {
    var xs := ["AB", "C", "X", "Y"];
    assert Text.LexLess(xs[0], xs[1]) && Text.LexLess(xs[1], xs[2]) && Text.LexLess(xs[2], xs[3]);
    assert forall x :: x in xs <==> x in {"AB", "C", "X", "Y"};
    LabelOfFour(xs, {"AB", "C", "X", "Y"});
  }

  lemma SameConcatenation()
    ensures "A" + "BC" + "X" + "Y" == "AB" + "C" + "X" + "Y"
  {
  }

  lemma DifferentNodeSets()
    ensures {"A", "BC", "X", "Y"} != {"AB", "C", "X", "Y"}
  {
    assert "A" != "AB" by { assert |"A"| != |"AB"|; }
    assert "A" != "C" && "A" != "X" && "A" != "Y" by {
      assert "A"[0] != "C"[0] && "A"[0] != "X"[0] && "A"[0] != "Y"[0];
    }
    assert "A" in {"A", "BC", "X", "Y"};
  }

  /** With identifiers of different lengths two different node sets can
      share a label, so deduplication by label can merge distinct modules. */
  lemma LabelCollision()
    ensures Label({"A", "BC", "X", "Y"}) == Label({"AB", "C", "X", "Y"})
    ensures {"A", "BC", "X", "Y"} != {"AB", "C", "X", "Y"}
  {
    LabelOfFirstExample();
    LabelOfSecondExample();
    SameConcatenation();
    DifferentNodeSets();
  }

  // ---------------------------------------------------------- seed groups

  /** `Mmodule.get_num_EmpCpd`: the number of distinct empirical compounds
      among the trios whose compound survives in the module graph. */
  function NumEmpCpd(g: Graph, trios: seq<Trio>): nat {
    |GroupsIn(trios, g.nodes)|
  }

  /** A module never counts more seed groups than the trio list has. */
  lemma NumEmpCpdBound(g: Graph, trios: seq<Trio>)
    ensures NumEmpCpd(g, trios) <= |Groups(trios)|
  {
    SubsetCardinality(GroupsIn(trios, g.nodes), Groups(trios));
  }

  /** A module with more nodes counts at least as many seed groups. */
  lemma NumEmpCpdMonotone(g: Graph, h: Graph, trios: seq<Trio>)
    requires g.nodes <= h.nodes
    ensures NumEmpCpd(g, trios) <= NumEmpCpd(h, trios)
  {
    SubsetCardinality(GroupsIn(trios, g.nodes), GroupsIn(trios, h.nodes));
  }

  // ------------------------------------------------------------ modularity

  function D(ref: Graph, x: NodeId): int {
    Degree(ref, x)
  }

  /** Inner loop of `compute_modularity`: the sum over `jj` in `ys`,
      `jj != x`, of `deg(x) * deg(jj)` in the reference network. */
  function RowSum(ref: Graph, x: NodeId, ys: seq<NodeId>): int {
    if |ys| == 0 then 0
    else (if x != ys[0] then D(ref, x) * D(ref, ys[0]) else 0) + RowSum(ref, x, ys[1..])
  }

  /** Both loops of `compute_modularity`: the sum over ordered pairs of
      distinct nodes. */
  function PairSum(ref: Graph, xs: seq<NodeId>, ys: seq<NodeId>): int {
    if |xs| == 0 then 0 else RowSum(ref, xs[0], ys) + PairSum(ref, xs[1..], ys)
  }

  function DegreeSum(ref: Graph, xs: seq<NodeId>): int {
    if |xs| == 0 then 0 else D(ref, xs[0]) + DegreeSum(ref, xs[1..])
  }

  function DegreeSquareSum(ref: Graph, xs: seq<NodeId>): int {
    if |xs| == 0 then 0 else D(ref, xs[0]) * D(ref, xs[0]) + DegreeSquareSum(ref, xs[1..])
  }

  lemma {:induction false} RowSumClosedForm(ref: Graph, x: NodeId, ys: seq<NodeId>)
    requires Distinct(ys)
    ensures RowSum(ref, x, ys) ==
      D(ref, x) * DegreeSum(ref, ys) - (if x in ys then D(ref, x) * D(ref, x) else 0)
  {
    if |ys| > 0 {
      var rest := ys[1..];
      RowSumClosedForm(ref, x, rest);
      assert ys == [ys[0]] + rest;
      var a, b, t := D(ref, x), D(ref, ys[0]), DegreeSum(ref, rest);
      assert DegreeSum(ref, ys) == b + t;
      assert a * (b + t) == a * b + a * t;
      if x == ys[0] {
        assert x !in rest;
      } else {
        assert x in ys <==> x in rest;
      }
    }
  }

  /** The double loop over ordered pairs equals (sum of degrees)^2 minus the
      sum of squared degrees, when `xs` lists distinct nodes of `ys`. */
  lemma {:induction false} PairSumClosedForm(ref: Graph, xs: seq<NodeId>, ys: seq<NodeId>)
    requires Distinct(ys)
    requires forall i | 0 <= i < |xs| :: xs[i] in ys
    ensures PairSum(ref, xs, ys) ==
      DegreeSum(ref, xs) * DegreeSum(ref, ys) - DegreeSquareSum(ref, xs)
  {
    if |xs| > 0 {
      RowSumClosedForm(ref, xs[0], ys);
      PairSumClosedForm(ref, xs[1..], ys);
      var a := D(ref, xs[0]);
      var s := DegreeSum(ref, ys);
      var t := DegreeSum(ref, xs[1..]);
      var q := DegreeSquareSum(ref, xs[1..]);
      assert PairSum(ref, xs, ys) == RowSum(ref, xs[0], ys) + PairSum(ref, xs[1..], ys);
      assert DegreeSum(ref, xs) == a + t;
      assert DegreeSquareSum(ref, xs) == a * a + q;
      RowPlusRest(a, s, t, q);
    }
  }

  /** The algebra of one step of `PairSumClosedForm`. */
  lemma RowPlusRest(a: int, s: int, t: int, q: int)
    ensures (a * s - a * a) + (t * s - q) == (a + t) * s - (a * a + q)
  {
    assert (a + t) * s == a * s + t * s;
  }

  lemma {:induction false} PairSumNonNegative(ref: Graph, xs: seq<NodeId>, ys: seq<NodeId>)
    ensures PairSum(ref, xs, ys) >= 0
  {
    if |xs| > 0 {
      RowSumNonNegative(ref, xs[0], ys);
      PairSumNonNegative(ref, xs[1..], ys);
    }
  }

  lemma {:induction false} RowSumNonNegative(ref: Graph, x: NodeId, ys: seq<NodeId>)
    ensures RowSum(ref, x, ys) >= 0
  {
    if |ys| > 0 {
      RowSumNonNegative(ref, x, ys[1..]);
      assert D(ref, x) * D(ref, ys[0]) >= 0;
    }
  }

  /** A strictly sorted listing has no repeated identifier. */
  lemma SortedIsDistinct(xs: seq<NodeId>)
    requires Text.StrictlySorted(xs)
    ensures Distinct(xs)
  {
    forall i, j | 0 <= i < j < |xs|
      ensures xs[i] != xs[j]
    {
      Text.LexLessIrreflexive(xs[i]);
    }
  }

  /** The module's nodes in the order the double loop visits them. */
  function NodeList(g: Graph): seq<NodeId> {
    Text.SortedSeq(g.nodes)
  }

  /** The node list holds every node of the module exactly once. */
  lemma NodeListSpec(g: Graph)
    ensures var ns := NodeList(g);
      && Distinct(ns)
      && (forall x :: x in ns <==> x in g.nodes)
      && |ns| == |g.nodes|
  {
    SortedIsDistinct(NodeList(g));
  }

  /** The expected number of module edges under the degree-preserving null
      model: the pair sum divided by four times the reference edge count. */
  function ExpectedEdges(ref: Graph, g: Graph): (x: real)
    requires |ref.edges| > 0
    ensures x >= 0.0
  {
    var ns := NodeList(g);
    PairSumNonNegative(ref, ns, ns);
    (PairSum(ref, ns, ns) as real) / (4.0 * (|ref.edges| as real))
  }

  /** `Mmodule.compute_modularity`: Q = (module edges - expected) / m, with
      m the reference network's edge count. */
  function Modularity(ref: Graph, g: Graph): real
    requires |ref.edges| > 0
  {
    (|g.edges| as real - ExpectedEdges(ref, g)) / (|ref.edges| as real)
  }

  /** Q never exceeds the module's share of the reference edges (it may be
      negative). */
  lemma ModularityBound(ref: Graph, g: Graph)
    requires |ref.edges| > 0
    ensures Modularity(ref, g) <= (|g.edges| as real) / (|ref.edges| as real)
  {
    var m := |ref.edges| as real;
    var e := ExpectedEdges(ref, g);
    assert (|g.edges| as real - e) / m <= (|g.edges| as real) / m;
  }

  /** The expected edge count in closed form: with S the sum of the
      reference degrees of the module's nodes and S2 the sum of their
      squares, it is (S*S - S2) / 4m. */
  lemma ExpectedEdgesClosedForm(ref: Graph, g: Graph)
    requires |ref.edges| > 0
    ensures ExpectedEdges(ref, g)
      == ((DegreeSum(ref, NodeList(g)) * DegreeSum(ref, NodeList(g)) - DegreeSquareSum(ref, NodeList(g))) as real)
         / (4.0 * (|ref.edges| as real))
  {
    NodeListSpec(g);
    PairQuotient(ref, NodeList(g), 4.0 * (|ref.edges| as real));
    assert ExpectedEdges(ref, g) == (PairSum(ref, NodeList(g), NodeList(g)) as real) / (4.0 * (|ref.edges| as real));
  }

  /** The pair sum of a list of distinct nodes, divided by `d`, in closed
      form. */
  lemma PairQuotient(ref: Graph, ns: seq<NodeId>, d: real)
    requires Distinct(ns) && d != 0.0
    ensures (PairSum(ref, ns, ns) as real) / d
      == ((DegreeSum(ref, ns) * DegreeSum(ref, ns) - DegreeSquareSum(ref, ns)) as real) / d
  {
    PairSumClosedForm(ref, ns, ns);
  }

  /** Q in closed form: Q = (edges - (S*S - S2) / 4m) / m. */
  lemma ModularityClosedForm(ref: Graph, g: Graph)
    requires |ref.edges| > 0
    ensures var ns := NodeList(g);
      var s := DegreeSum(ref, ns);
      var m := |ref.edges| as real;
      Modularity(ref, g)
        == (|g.edges| as real - ((s * s - DegreeSquareSum(ref, ns)) as real) / (4.0 * m)) / m
  {
    ExpectedEdgesClosedForm(ref, g);
  }

  // -------------------------------------------------------- activity score

  /** `Mmodule.activity_score`:
      sqrt(N_seeds / Nm) * Q * (Ns / Nm) * 100, where N_seeds is the length
      of the whole trio list (duplicates included), Nm the module's node
      count and Ns its seed-group count; 0 for an empty module. The square
      root is supplied by the caller. */
  function ActivityScore(ref: Graph, g: Graph, trios: seq<Trio>, sqrt: real -> real): real
    requires g.nodes == {} || |ref.edges| > 0
  {
    if |g.nodes| > 0 then
      Score(sqrt((|trios| as real) / (|g.nodes| as real)),
            Modularity(ref, g),
            (NumEmpCpd(g, trios) as real) / (|g.nodes| as real))
    else
      0.0
  }

  /** The product `root * q * density * 100` of the score. */
  function Score(root: real, q: real, density: real): real {
    root * q * density * 100.0
  }

  /** The activity score is 0 for an empty module and for one without seed
      groups; when the root and Ns are positive it has the sign of Q. */
  lemma ActivityScoreSign(ref: Graph, g: Graph, trios: seq<Trio>, sqrt: real -> real)
    requires g.nodes == {} || |ref.edges| > 0
    ensures var a := ActivityScore(ref, g, trios, sqrt);
      && (g.nodes == {} ==> a == 0.0)
      && (NumEmpCpd(g, trios) == 0 ==> a == 0.0)
      && ((&& g.nodes != {} && NumEmpCpd(g, trios) > 0
           && sqrt((|trios| as real) / (|g.nodes| as real)) > 0.0) ==>
          && (a > 0.0 <==> Modularity(ref, g) > 0.0)
          && (a < 0.0 <==> Modularity(ref, g) < 0.0))
  {
    if |g.nodes| > 0 {
      var nm := |g.nodes| as real;
      var root := sqrt((|trios| as real) / nm);
      var q := Modularity(ref, g);
      var density := (NumEmpCpd(g, trios) as real) / nm;
      assert ActivityScore(ref, g, trios, sqrt) == Score(root, q, density);
      DensitySign(NumEmpCpd(g, trios), nm);
      ScoreSign(root, q, density);
    }
  }

  lemma DensitySign(n: nat, nm: real)
    requires nm > 0.0
    ensures n == 0 ==> (n as real) / nm == 0.0
    ensures n > 0 ==> (n as real) / nm > 0.0
  {
  }

  /** The score vanishes with the density and, when the root and the density
      are positive, has the sign of `q`. */
  lemma ScoreSign(root: real, q: real, density: real)
    ensures density == 0.0 ==> Score(root, q, density) == 0.0
    ensures root > 0.0 && density > 0.0 ==>
      && (Score(root, q, density) > 0.0 <==> q > 0.0)
      && (Score(root, q, density) < 0.0 <==> q < 0.0)
  {
    var c := root * density * 100.0;
    assert Score(root, q, density) == c * q;
    if root > 0.0 && density > 0.0 {
      assert c > 0.0;
    }
  }

  // ---------------------------------------------------------------- module

  /** A constructed module. `nSeeds` is `N_seeds`, the length of the trio
      list the search was seeded with. */
  datatype Module = Module(graph: Graph, nodestr: string, nSeeds: nat, numEmpCpd: nat, score: real)

  /** What construction guarantees about a module for a trio list: its
      graph is shaved against the trio compounds, its label is made from its
      nodes, and it records the length of the trio list. */
  ghost predicate Built(m: Module, trios: seq<Trio>) {
    && Shaved(m.graph, SeedSet(trios))
    && m.nodestr == Label(m.graph.nodes)
    && m.nSeeds == |trios|
  }

  /** `Mmodule.__init__`: copy, shave against the trio compounds, label,
      count seed groups and score. The module's graph is a well-formed
      subgraph of the candidate. */
  function MakeModule(ref: Graph, sub: Graph, trios: seq<Trio>, sqrt: real -> real): (m: Module)
    requires WellFormed(sub)
    requires sub.nodes == {} || |ref.edges| > 0
    ensures WellFormed(m.graph)
    ensures m.graph.nodes <= sub.nodes && m.graph.edges <= sub.edges
  {
    var g := Shave(sub, SeedSet(trios));
    Module(g, Label(g.nodes), |trios|, NumEmpCpd(g, trios), ActivityScore(ref, g, trios, sqrt))
  }

  /** The rest of what `Mmodule.__init__` establishes: the module is built
      for the trio list, keeps every trio compound of the candidate, is the
      subgraph the candidate induces on its surviving nodes, counts the seed
      groups it contains, and scores 0 when shaving leaves nothing. */
  lemma MakeModuleBuilt(ref: Graph, sub: Graph, trios: seq<Trio>, sqrt: real -> real)
    requires WellFormed(sub)
    requires sub.nodes == {} || |ref.edges| > 0
    ensures var m := MakeModule(ref, sub, trios, sqrt);
      && Built(m, trios)
      && sub.nodes * SeedSet(trios) <= m.graph.nodes
      && m.graph == InducedSubgraph(sub, m.graph.nodes)
      && m.numEmpCpd == |GroupsIn(trios, m.graph.nodes)| <= |Groups(trios)|
      && (m.graph.nodes == {} ==> m.score == 0.0)
  {
    var g := Shave(sub, SeedSet(trios));
    ShaveSpec(sub, SeedSet(trios));
    NumEmpCpdBound(g, trios);
    ActivityScoreSign(ref, g, trios, sqrt);
  }
}

=== FILE: ms2data.dfy ===
/** The MS2 helpers: cleaning the fragment spectra of an mzML run, keeping
    the largest spectra and peaks, choosing the most intense spectrum,
    reading an asari feature table, and matching spectra to features by
    precursor mass and retention time, merged over several runs. */
module Ms2Data {
  import opened Wrappers
  import opened Dicts
  import Text
  import Sorting

  /** `extract_ms2_form_file`'s default intensity floor. */
  const MinIntensity: real := 1000.0
  /** How many spectra and peaks the top-n selections keep by default. */
  const TopSpectraCount: int := 5
  const TopPeaksCount: int := 20
  /** The default retention-time tolerance, in seconds. */
  const RtTolerance: real := 30.0
  /** Columns of an asari table before the sample columns. */
  const AsariFixedColumns: int := 11

  datatype Peak = Peak(mz: real, intensity: real)

  /** A cleaned MS2 spectrum. */
  datatype Spectrum = Spectrum(precursorMz: real, rtime: real, peaks: seq<Peak>)

  /** A spectrum as the mzML reader presents it: its MS level, the m/z of
      its first selected precursor (possibly missing), its scan time in
      minutes and its centroided peaks. */
  datatype Scan = Scan(msLevel: int, precursorMz: Option<real>, scanMinutes: real, peaks: seq<Peak>)

  // ------------------------------------------------------------- cleaning

  /** A fragment peak is kept when it is intense enough and lies more than
      1 below the precursor (which excludes the precursor ion itself). */
  predicate KeepPeak(p: Peak, precursorMz: real, minIntensity: real) {
    p.intensity >= minIntensity && p.mz < precursorMz - 1.0
  }

  /** The peak list comprehension of `extract_ms2_form_file`. */
  function CleanPeaks(peaks: seq<Peak>, precursorMz: real, minIntensity: real): (r: seq<Peak>)
    ensures forall k | 0 <= k < |r| :: KeepPeak(r[k], precursorMz, minIntensity)
  {
    Filter(peaks, p => KeepPeak(p, precursorMz, minIntensity))
  }

  /** The loop body of `extract_ms2_form_file`: an MS2 scan with a
      precursor and at least one kept peak becomes a spectrum, with its
      scan time in seconds; any other scan is skipped. */
  function CleanScan(s: Scan, minIntensity: real): (r: Option<Spectrum>)
    ensures r.Some? ==> r.value.peaks != []
  {
    if s.msLevel != 2 || s.precursorMz.None? then None
    else if CleanPeaks(s.peaks, s.precursorMz.value, minIntensity) == [] then None
    else Some(Spectrum(s.precursorMz.value, s.scanMinutes * 60.0, CleanPeaks(s.peaks, s.precursorMz.value, minIntensity)))
  }

  /** `extract_ms2_form_file` on the scans of one run. */
  function ExtractSpectra(scans: seq<Scan>, minIntensity: real): (r: seq<Spectrum>)
    ensures |r| <= |scans|
  {
    FilterMap(scans, s => CleanScan(s, minIntensity))
  }

  /** The spectra extracted are exactly those of the MS2 scans with a
      precursor, each holding the peaks of its scan that pass the filter
      and at least one of them. */
  lemma ExtractSpectraSpec(scans: seq<Scan>, minIntensity: real, sp: Spectrum)
    ensures sp in ExtractSpectra(scans, minIntensity) <==>
      exists i | 0 <= i < |scans| ::
        && scans[i].msLevel == 2 && scans[i].precursorMz == Some(sp.precursorMz)
        && sp.rtime == scans[i].scanMinutes * 60.0
        && sp.peaks == CleanPeaks(scans[i].peaks, sp.precursorMz, minIntensity)
        && sp.peaks != []
  {
    FilterMapSpec(scans, s => CleanScan(s, minIntensity));
  }

  /** The spectra come out in scan order: extracting from two runs of scans
      one after the other is extracting from each, and a single scan gives
      its spectrum exactly when it has one. */
  lemma ExtractSpectraInOrder(a: seq<Scan>, b: seq<Scan>, minIntensity: real)
    ensures ExtractSpectra(a + b, minIntensity) == ExtractSpectra(a, minIntensity) + ExtractSpectra(b, minIntensity)
    ensures forall s ::
      ExtractSpectra([s], minIntensity) == (if CleanScan(s, minIntensity).Some? then [CleanScan(s, minIntensity).value] else [])
  {
    FilterMapAppend(a, b, s => CleanScan(s, minIntensity));
    forall s
      ensures ExtractSpectra([s], minIntensity) == (if CleanScan(s, minIntensity).Some? then [CleanScan(s, minIntensity).value] else [])
    {
      FilterMapOne(s, s => CleanScan(s, minIntensity));
    }
  }

  /** A peak survives exactly when it is in the scan and passes the
      filter, as often as it occurs in the scan. */
  lemma CleanPeaksSpec(peaks: seq<Peak>, precursorMz: real, minIntensity: real)
    ensures forall p :: p in CleanPeaks(peaks, precursorMz, minIntensity) <==>
      p in peaks && KeepPeak(p, precursorMz, minIntensity)
    ensures forall p ::
      multiset(CleanPeaks(peaks, precursorMz, minIntensity))[p] == (if KeepPeak(p, precursorMz, minIntensity) then multiset(peaks)[p] else 0)
  {
    FilterSpec(peaks, p => KeepPeak(p, precursorMz, minIntensity));
  }

  /** The peaks kept stay in scan order: filtering two runs of peaks one
      after the other is filtering each, and a single peak is kept exactly
      when it passes. */
  lemma CleanPeaksInOrder(a: seq<Peak>, b: seq<Peak>, precursorMz: real, minIntensity: real)
    ensures CleanPeaks(a + b, precursorMz, minIntensity) ==
      CleanPeaks(a, precursorMz, minIntensity) + CleanPeaks(b, precursorMz, minIntensity)
    ensures forall p ::
      CleanPeaks([p], precursorMz, minIntensity) == (if KeepPeak(p, precursorMz, minIntensity) then [p] else [])
  {
    FilterAppend(a, b, p => KeepPeak(p, precursorMz, minIntensity));
    forall p
      ensures CleanPeaks([p], precursorMz, minIntensity) == if KeepPeak(p, precursorMz, minIntensity) then [p] else []
    {
      FilterOne(p, p => KeepPeak(p, precursorMz, minIntensity));
    }
  }

  // ---------------------------------------------------------------- top n

  function PeakCount(s: Spectrum): real {
    |s.peaks| as real
  }

  function Intensity(p: Peak): real {
    p.intensity
  }

  /** `get_top_n_ms2_spectra`: the input itself when it has at most `n`
      spectra, otherwise the `n` spectra with the most peaks, most first;
      among spectra with as many peaks, the earliest are kept, since the
      sort is stable. */
  function TopSpectra(spectra: seq<Spectrum>, n: int): (r: seq<Spectrum>)
    ensures |spectra| <= n ==> r == spectra
    ensures 0 <= n < |spectra| ==> |r| == n && Sorting.DescendingBy(r, PeakCount)
    ensures multiset(r) <= multiset(spectra)
    ensures forall v :: Sorting.WithKey(r, PeakCount, v) <= Sorting.WithKey(spectra, PeakCount, v)
  {
    Sorting.TopNStable(spectra, n, PeakCount);
    Sorting.TopN(spectra, n, PeakCount)
  }

  /** A spectrum kept has at least as many peaks as any spectrum dropped. */
  lemma TopSpectraKeepsLargest(spectra: seq<Spectrum>, n: int)
    requires n < |spectra|
    ensures var r := TopSpectra(spectra, n);
      forall a, b | a in r && b in multiset(spectra) - multiset(r) :: |b.peaks| <= |a.peaks|
  {
    Sorting.TopNKeepsLargest(spectra, n, PeakCount);
  }

  /** `get_top_n_peaks`: the same rule on the intensity of peaks, the
      earliest of equally intense peaks kept. */
  function TopPeaks(peaks: seq<Peak>, n: int): (r: seq<Peak>)
    ensures |peaks| <= n ==> r == peaks
    ensures 0 <= n < |peaks| ==> |r| == n && Sorting.DescendingBy(r, Intensity)
    ensures multiset(r) <= multiset(peaks)
    ensures forall v :: Sorting.WithKey(r, Intensity, v) <= Sorting.WithKey(peaks, Intensity, v)
  {
    Sorting.TopNStable(peaks, n, Intensity);
    Sorting.TopN(peaks, n, Intensity)
  }

  /** A peak kept is at least as intense as any peak dropped. */
  lemma TopPeaksKeepsLargest(peaks: seq<Peak>, n: int)
    requires n < |peaks|
    ensures var r := TopPeaks(peaks, n);
      forall a, b | a in r && b in multiset(peaks) - multiset(r) :: b.intensity <= a.intensity
  {
    Sorting.TopNKeepsLargest(peaks, n, Intensity);
  }

  // --------------------------------------------------------- best spectrum

  /** `sum(p[1] for p in peaks)`. */
  function SumIntensity(peaks: seq<Peak>): real
    decreases |peaks|
  {
    if peaks == [] then 0.0 else SumIntensity(peaks[..|peaks| - 1]) + peaks[|peaks| - 1].intensity
  }

  function TotalIntensity(s: Spectrum): real {
    SumIntensity(s.peaks)
  }

  /** `get_best_ms2_spectrum`: `None` for no spectra, otherwise the head of
      the spectra sorted by total intensity, highest first. */
  function BestSpectrum(spectra: seq<Spectrum>): (r: Option<Spectrum>)
    ensures r.None? <==> spectra == []
  {
    if spectra == [] then None
    else Some(Sorting.SortDescendingBy(spectra, TotalIntensity)[0])
  }

  /** The best spectrum is the first one whose total intensity no other
      exceeds. */
  lemma BestSpectrumSpec(spectra: seq<Spectrum>)
    requires spectra != []
    ensures var b := BestSpectrum(spectra).value;
      exists i | 0 <= i < |spectra| ::
        && spectra[i] == b
        && (forall j | 0 <= j < |spectra| :: TotalIntensity(spectra[j]) <= TotalIntensity(b))
        && (forall j | 0 <= j < i :: TotalIntensity(spectra[j]) < TotalIntensity(b))
  {
    var i := Sorting.FirstMaxIndex(spectra, TotalIntensity);
    assert spectra[i] == BestSpectrum(spectra).value;
  }

  /** Of two spectra the more intense is best, the first on a tie. */
  lemma BestOfTwo(a: Spectrum, b: Spectrum)
    ensures BestSpectrum([a, b]) == Some(if TotalIntensity(b) > TotalIntensity(a) then b else a)
  {
    BestSpectrumSpec([a, b]);
  }

  // ----------------------------------------------------------- asari table

  /** A row of an asari feature table; the last six columns are kept as
      text, as the table reader does. */
  datatype AsariFeature = AsariFeature(
    idNumber: string,
    id: string,
    mz: real,
    rtime: real,
    apex: real,
    leftBase: real,
    rightBase: real,
    parentMasstrackId: string,
    peakArea: string,
    cSelectivity: string,
    goodnessFitting: string,
    snr: string,
    detectionCounts: string)

  /** `float(a[c])`: an `IndexError` when the row is too short, a
      `ValueError` when the column does not parse. */
  function Column(a: seq<string>, c: nat, parseFloat: string -> Option<real>): (r: Result<real>)
    ensures r.Success? <==> c < |a| && parseFloat(a[c]).Some?
    ensures r.Success? ==> r.value == parseFloat(a[c]).value
  {
    if c >= |a| then Failure("IndexError: list index out of range")
    else if parseFloat(a[c]).None? then Failure("ValueError: could not convert string to float")
    else Success(parseFloat(a[c]).value)
  }

  /** The fields of one non-blank data line, split on tabs. The line parses
      exactly when it has the eleven fixed columns and the four numeric ones,
      columns 1 to 4, parse; `id` and `id_number` are both column 0, the
      apex is the retention time, and the text columns 5 to 10 are kept as
      they are. */
  function AsariFields(a: seq<string>, parseFloat: string -> Option<real>): (r: Result<AsariFeature>)
    ensures r.Success? <==> |a| >= AsariFixedColumns && forall c | 1 <= c <= 4 :: parseFloat(a[c]).Some?
    ensures r.Success? ==>
      && r.value.id == r.value.idNumber == a[0]
      && r.value.mz == parseFloat(a[1]).value
      && r.value.rtime == r.value.apex == parseFloat(a[2]).value
      && r.value.leftBase == parseFloat(a[3]).value
      && r.value.rightBase == parseFloat(a[4]).value
      && r.value.parentMasstrackId == a[5] && r.value.detectionCounts == a[10]
  {
    var mz :- Column(a, 1, parseFloat);
    var rt :- Column(a, 2, parseFloat);
    var left :- Column(a, 3, parseFloat);
    var right :- Column(a, 4, parseFloat);
    if |a| < AsariFixedColumns then Failure("IndexError: list index out of range")
    else Success(AsariFeature(a[0], a[0], mz, rt, rt, left, right, a[5], a[6], a[7], a[8], a[9], a[10]))
  }

  /** The loop body of `read_features_from_asari_table`: blank lines are
      skipped, any other is split on tabs and parsed. */
  function AsariLine(line: string, parseFloat: string -> Option<real>): (r: Result<Option<AsariFeature>>)
    ensures Text.Strip(line) == "" <==> r == Success(None)
  {
    if Text.Strip(line) == "" then Success(None)
    else
      var f :- AsariFields(Text.Split(line, '\t'), parseFloat);
      Success(Some(f))
  }

  /** The data lines of an asari table, in order; the first line that
      does not parse stops the reading. */
  function AsariRows(rows: seq<string>, parseFloat: string -> Option<real>): (r: Result<seq<AsariFeature>>)
    ensures r.Success? ==> |r.value| <= |rows|
  {
    CollectResults(rows, (i, line) => AsariLine(line, parseFloat))
  }

  /** The rows read when each of them does, and then give exactly the
      features of their non-blank lines. */
  lemma AsariRowsSpec(rows: seq<string>, parseFloat: string -> Option<real>)
    ensures AsariRows(rows, parseFloat).Success? <==>
      forall i | 0 <= i < |rows| :: AsariLine(rows[i], parseFloat).Success?
    ensures AsariRows(rows, parseFloat).Success? ==>
      forall f :: f in AsariRows(rows, parseFloat).value <==>
        exists i | 0 <= i < |rows| :: AsariLine(rows[i], parseFloat) == Success(Some(f))
  {
    CollectResultsSpec(rows, (i, line) => AsariLine(line, parseFloat));
  }

  /** `read_features_from_asari_table` on the lines of the table: the
      number of sample columns, the header's column count less eleven, and
      the features of the other lines. A text without lines fails. */
  function ReadAsariTable(lines: seq<string>, parseFloat: string -> Option<real>): (r: Result<(int, seq<AsariFeature>)>)
    ensures r.Success? <==> lines != [] && AsariRows(lines[1..], parseFloat).Success?
    ensures r.Success? ==>
      && r.value.0 == |Text.Split(lines[0], '\t')| - AsariFixedColumns
      && r.value.1 == AsariRows(lines[1..], parseFloat).value
  {
    if lines == [] then Failure("IndexError: list index out of range")
    else
      var fs :- AsariRows(lines[1..], parseFloat);
      Success((|Text.Split(lines[0], '\t')| - AsariFixedColumns, fs))
  }

  // ------------------------------------------------------------ matching

  /** A pair from the mass mapping: a feature index and a spectrum index
      whose m/z values agree within the ppm tolerance. The mapping itself
      (`complete_mass_paired_mapping`) is computed outside this model. */
  datatype Pair = Pair(feature: nat, spectrum: nat)

  /** Every pair points at an existing feature and spectrum. */
  ghost predicate PairsWithin(pairs: seq<Pair>, features: nat, spectra: nat) {
    forall i | 0 <= i < |pairs| :: pairs[i].feature < features && pairs[i].spectrum < spectra
  }

  function Abs(x: real): real {
    if x < 0.0 then -x else x
  }

  /** The retention times of a pair's feature and spectrum differ by at
      most `rtTol` seconds. */
  predicate RtClose(features: seq<AsariFeature>, spectra: seq<Spectrum>, p: Pair, rtTol: real) {
    p.feature < |features| && p.spectrum < |spectra|
    && Abs(features[p.feature].rtime - spectra[p.spectrum].rtime) <= rtTol
  }

  /** The `matched` comprehension of `get_matched_ms2_ms1`. */
  function RtFiltered(features: seq<AsariFeature>, spectra: seq<Spectrum>, pairs: seq<Pair>, rtTol: real): (r: seq<Pair>)
    ensures forall i | 0 <= i < |r| :: RtClose(features, spectra, r[i], rtTol)
  {
    Filter(pairs, p => RtClose(features, spectra, p, rtTol))
  }

  /** A pair is kept exactly when it is one of the mapping's pairs and its
      retention times are close, as often as the mapping gives it. */
  lemma RtFilteredSpec(features: seq<AsariFeature>, spectra: seq<Spectrum>, pairs: seq<Pair>, rtTol: real)
    ensures forall p :: p in RtFiltered(features, spectra, pairs, rtTol) <==>
      p in pairs && RtClose(features, spectra, p, rtTol)
    ensures forall p ::
      multiset(RtFiltered(features, spectra, pairs, rtTol))[p] == (if RtClose(features, spectra, p, rtTol) then multiset(pairs)[p] else 0)
  {
    FilterSpec(pairs, p => RtClose(features, spectra, p, rtTol));
  }

  /** The pairs kept stay in the mapping's order: filtering two runs of
      pairs one after the other is filtering each, and a single pair is
      kept exactly when its retention times are close. */
  lemma RtFilteredInOrder(features: seq<AsariFeature>, spectra: seq<Spectrum>, a: seq<Pair>, b: seq<Pair>, rtTol: real)
    ensures RtFiltered(features, spectra, a + b, rtTol) ==
      RtFiltered(features, spectra, a, rtTol) + RtFiltered(features, spectra, b, rtTol)
    ensures forall p ::
      RtFiltered(features, spectra, [p], rtTol) == (if RtClose(features, spectra, p, rtTol) then [p] else [])
  {
    FilterAppend(a, b, p => RtClose(features, spectra, p, rtTol));
    forall p
      ensures RtFiltered(features, spectra, [p], rtTol) == if RtClose(features, spectra, p, rtTol) then [p] else []
    {
      FilterOne(p, p => RtClose(features, spectra, p, rtTol));
    }
  }

  /** Every pair's spectrum index is in range. */
  ghost predicate SpectraWithin(pairs: seq<Pair>, spectra: nat) {
    forall i | 0 <= i < |pairs| :: pairs[i].spectrum < spectra
  }

  /** The spectra paired with feature `k`, in the order of the pairs: the
      reference for what the grouping collects. */
  function SpectraFor(pairs: seq<Pair>, k: nat, spectra: seq<Spectrum>): seq<Spectrum>
    requires SpectraWithin(pairs, |spectra|)
    decreases |pairs|
  {
    if pairs == [] then []
    else
      var n := |pairs| - 1;
      SpectraFor(pairs[..n], k, spectra) + (if pairs[n].feature == k then [spectra[pairs[n].spectrum]] else [])
  }

  /** The spectra grouped so far for feature `k`, none when it has no
      entry. */
  function GroupOf(d: Dict<nat, seq<Spectrum>>, k: nat): seq<Spectrum> {
    if k in d.values then d.values[k] else []
  }

  /** The first loop of `get_matched_ms2_ms1`: the spectra of each paired
      feature, appended in the order of the pairs, features keyed in the
      order they first appear. */
  function Group(pairs: seq<Pair>, spectra: seq<Spectrum>): (d: Dict<nat, seq<Spectrum>>)
    requires SpectraWithin(pairs, |spectra|)
    ensures forall k | k in d.values :: d.values[k] != []
    decreases |pairs|
  {
    if pairs == [] then Empty()
    else
      var n := |pairs| - 1;
      var d := Group(pairs[..n], spectra);
      Put(d, pairs[n].feature, GroupOf(d, pairs[n].feature) + [spectra[pairs[n].spectrum]])
  }

  /** The spectra of one run paired with feature `k` by the mass mapping
      and close to it in retention time, in the order of the pairs. */
  function Paired(features: seq<AsariFeature>, spectra: seq<Spectrum>, pairs: seq<Pair>, rtTol: real, k: nat): seq<Spectrum> {
    SpectraFor(RtFiltered(features, spectra, pairs, rtTol), k, spectra)
  }

  /** Grouping keeps a well-formed dictionary whose keys are exactly the
      features of the pairs, each holding precisely the spectra paired
      with it, in order. */
  lemma {:induction false} GroupSpec(pairs: seq<Pair>, spectra: seq<Spectrum>)
    requires SpectraWithin(pairs, |spectra|)
    ensures Valid(Group(pairs, spectra))
    ensures forall k :: GroupOf(Group(pairs, spectra), k) == SpectraFor(pairs, k, spectra)
    decreases |pairs|
  {
    if pairs != [] {
      var n := |pairs| - 1;
      var init := pairs[..n];
      GroupSpec(init, spectra);
      var d := Group(init, spectra);
      PutValid(d, pairs[n].feature, GroupOf(d, pairs[n].feature) + [spectra[pairs[n].spectrum]]);
    }
  }

  /** The grouping's keys are exactly the features of the pairs. */
  lemma {:induction false} GroupKeys(pairs: seq<Pair>, spectra: seq<Spectrum>)
    requires SpectraWithin(pairs, |spectra|)
    ensures forall k :: k in Group(pairs, spectra).values <==> exists i | 0 <= i < |pairs| :: pairs[i].feature == k
    decreases |pairs|
  {
    if pairs != [] {
      var n := |pairs| - 1;
      var init := pairs[..n];
      GroupKeys(init, spectra);
      forall k
        ensures k in Group(pairs, spectra).values <==> exists i | 0 <= i < |pairs| :: pairs[i].feature == k
      {
        if k != pairs[n].feature && k in Group(pairs, spectra).values {
          var i :| 0 <= i < n && init[i].feature == k;
          assert pairs[i].feature == k;
        }
        if exists i | 0 <= i < |pairs| :: pairs[i].feature == k {
          var i :| 0 <= i < |pairs| && pairs[i].feature == k;
          if i < n {
            assert init[i].feature == k;
          }
        }
      }
    }
  }

  /** One entry of `get_matched_ms2_ms1`'s result: the feature's `id`, its
      best spectrum and the number of spectra paired with it. */
  datatype Match = Match(featureId: string, best: Spectrum, count: nat)

  /** The entry for a grouped feature. */
  function MatchOf(features: seq<AsariFeature>, k: nat, group: seq<Spectrum>): Match
    requires k < |features| && group != []
  {
    Match(features[k].id, BestSpectrum(group).value, |group|)
  }

  /** The final loop of `get_matched_ms2_ms1`: one entry per key of the
      grouping, in key order. */
  function Entries(features: seq<AsariFeature>, d: Dict<nat, seq<Spectrum>>): (r: seq<Match>)
    requires forall k | k in d.keys :: k < |features| && k in d.values && d.values[k] != []
    ensures |r| == |d.keys|
    ensures forall i | 0 <= i < |r| :: r[i] == MatchOf(features, d.keys[i], d.values[d.keys[i]])
  {
    seq(|d.keys|, i requires 0 <= i < |d.keys| => MatchOf(features, d.keys[i], d.values[d.keys[i]]))
  }

  /** `get_matched_ms2_ms1` for one run's spectra, given the pairs of the
      mass mapping: the pairs with close retention times are grouped by
      feature, and each feature gives its best spectrum and the group's
      size, in the order the features first appear. */
  function GetMatched(features: seq<AsariFeature>, spectra: seq<Spectrum>, pairs: seq<Pair>, rtTol: real): (r: seq<Match>)
    requires PairsWithin(pairs, |features|, |spectra|)
  {
    Grouped(features, spectra, RtFiltered(features, spectra, pairs, rtTol))
  }

  /** The grouping and final loop of `get_matched_ms2_ms1`, on the pairs
      that passed the retention time filter. */
  function Grouped(features: seq<AsariFeature>, spectra: seq<Spectrum>, kept: seq<Pair>): (r: seq<Match>)
    requires PairsWithin(kept, |features|, |spectra|)
  {
    GroupDefined(features, spectra, kept);
    Entries(features, Group(kept, spectra))
  }

  /** Every key of the grouping is a feature index with a non-empty group. */
  lemma GroupDefined(features: seq<AsariFeature>, spectra: seq<Spectrum>, kept: seq<Pair>)
    requires PairsWithin(kept, |features|, |spectra|)
    ensures forall k | k in Group(kept, spectra).keys ::
      k < |features| && k in Group(kept, spectra).values && Group(kept, spectra).values[k] != []
  {
    GroupSpec(kept, spectra);
    GroupKeys(kept, spectra);
    var d := Group(kept, spectra);
    assert forall k | k in d.keys :: exists w | 0 <= w < |kept| :: kept[w].feature == k;
  }

  /** When the grouping holds exactly the non-empty groups of `group`, the
      entries are exactly one per such feature. */
  lemma {:induction false} EntriesSpec(features: seq<AsariFeature>, d: Dict<nat, seq<Spectrum>>, group: nat -> seq<Spectrum>)
    requires Valid(d)
    requires forall k: nat :: k in d.values <==> k < |features| && group(k) != []
    requires forall k | k in d.values :: d.values[k] == group(k)
    ensures forall m :: m in Entries(features, d) <==>
      exists k | 0 <= k < |features| && group(k) != [] :: m == MatchOf(features, k, group(k))
  {
    var r := Entries(features, d);
    forall m | exists k | 0 <= k < |features| && group(k) != [] :: m == MatchOf(features, k, group(k))
      ensures m in r
    {
      var k :| 0 <= k < |features| && group(k) != [] && m == MatchOf(features, k, group(k));
      var i :| 0 <= i < |d.keys| && d.keys[i] == k;
      assert r[i] == m;
    }
  }

  /** The entries are exactly one per feature with at least one pair of
      close retention time: its best spectrum among those paired with it,
      and how many there are. */
  lemma GetMatchedSpec(features: seq<AsariFeature>, spectra: seq<Spectrum>, pairs: seq<Pair>, rtTol: real)
    requires PairsWithin(pairs, |features|, |spectra|)
    ensures forall m :: m in GetMatched(features, spectra, pairs, rtTol) <==>
      exists k | 0 <= k < |features| && Paired(features, spectra, pairs, rtTol, k) != [] ::
        m == MatchOf(features, k, Paired(features, spectra, pairs, rtTol, k))
  {
    var kept := RtFiltered(features, spectra, pairs, rtTol);
    GroupDefined(features, spectra, kept);
    var d := Group(kept, spectra);
    var r := GetMatched(features, spectra, pairs, rtTol);
    assert r == Entries(features, d);
    GroupSpec(kept, spectra);
    GroupKeys(kept, spectra);
    forall k: nat
      ensures k in d.values <==> k < |features| && SpectraFor(kept, k, spectra) != []
    {
      assert GroupOf(d, k) == SpectraFor(kept, k, spectra);
      if k in d.values {
        var w :| 0 <= w < |kept| && kept[w].feature == k;
      }
    }
    var group := (k: nat) => SpectraFor(kept, k, spectra);
    EntriesSpec(features, d, group);
    forall m | m in r
      ensures exists k | 0 <= k < |features| && SpectraFor(kept, k, spectra) != [] ::
          m == MatchOf(features, k, SpectraFor(kept, k, spectra))
    {
      var k :| 0 <= k < |features| && group(k) != [] && m == MatchOf(features, k, group(k));
      assert group(k) == SpectraFor(kept, k, spectra);
    }
    forall m | exists k | 0 <= k < |features| && SpectraFor(kept, k, spectra) != [] ::
          m == MatchOf(features, k, SpectraFor(kept, k, spectra))
      ensures m in r
    {
      var k :| 0 <= k < |features| && SpectraFor(kept, k, spectra) != [] && m == MatchOf(features, k, SpectraFor(kept, k, spectra));
      assert group(k) == SpectraFor(kept, k, spectra);
    }
    assert forall k: nat :: Paired(features, spectra, pairs, rtTol, k) == SpectraFor(kept, k, spectra);
  }

  // --------------------------------------------------------------- merging

  /** A feature's entry in the merged record: its best spectrum so far and
      the number of spectra matched to it over all runs. */
  datatype Hit = Hit(best: Spectrum, count: nat)

  /** `get_best_ms2_spectrum([a, b])`: the more intense of two spectra,
      `a` on a tie. */
  function Better(a: Spectrum, b: Spectrum): (r: Spectrum)
    ensures TotalIntensity(a) <= TotalIntensity(r) && TotalIntensity(b) <= TotalIntensity(r)
  {
    if TotalIntensity(b) > TotalIntensity(a) then b else a
  }

  /** `Better` is `get_best_ms2_spectrum` on the two spectra. */
  lemma BetterIsBest(a: Spectrum, b: Spectrum)
    ensures Better(a, b) == BestSpectrum([a, b]).value
  {
    BestOfTwo(a, b);
  }

  /** One step of the merge loop of `match_ms2files_to_features`: a new
      feature id is stored as it comes; a known one adds the counts and
      keeps the better of the two spectra. */
  function MergeOne(master: Dict<string, Hit>, m: Match): (r: Dict<string, Hit>)
    ensures forall id :: id in r.values <==> id in master.values || id == m.featureId
  {
    if m.featureId !in master.values then Put(master, m.featureId, Hit(m.best, m.count))
    else
      var prev := master.values[m.featureId];
      Put(master, m.featureId, Hit(Better(prev.best, m.best), prev.count + m.count))
  }

  /** The merge loop over a run's matches. */
  function MergeAll(master: Dict<string, Hit>, ms: seq<Match>): (r: Dict<string, Hit>)
    decreases |ms|
  {
    if ms == [] then master
    else MergeOne(MergeAll(master, ms[..|ms| - 1]), ms[|ms| - 1])
  }

  /** The count stored for `id`, zero when it has none. */
  function CountOf(master: Dict<string, Hit>, id: string): nat {
    if id in master.values then master.values[id].count else 0
  }

  /** The counts of the matches for `id`, added up. */
  function CountFor(ms: seq<Match>, id: string): nat
    decreases |ms|
  {
    if ms == [] then 0
    else CountFor(ms[..|ms| - 1], id) + (if ms[|ms| - 1].featureId == id then ms[|ms| - 1].count else 0)
  }

  /** One merge step keeps the record well formed, adds the match's count
      to its feature's, leaves the other features alone, and stores the
      better spectrum. */
  lemma MergeOneSpec(master: Dict<string, Hit>, m: Match)
    requires Valid(master)
    ensures var r := MergeOne(master, m);
      && Valid(r)
      && (forall id :: CountOf(r, id) == CountOf(master, id) + (if id == m.featureId then m.count else 0))
      && (forall id | id in master.values && id != m.featureId :: r.values[id] == master.values[id])
      && r.values[m.featureId].best ==
           (if m.featureId in master.values then Better(master.values[m.featureId].best, m.best) else m.best)
  {
    if m.featureId in master.values {
      var prev := master.values[m.featureId];
      PutValid(master, m.featureId, Hit(Better(prev.best, m.best), prev.count + m.count));
    } else {
      PutValid(master, m.featureId, Hit(m.best, m.count));
    }
  }

  /** Merging keeps the record well formed. */
  lemma {:induction false} MergeAllValid(master: Dict<string, Hit>, ms: seq<Match>)
    requires Valid(master)
    ensures Valid(MergeAll(master, ms))
    decreases |ms|
  {
    if ms != [] {
      var n := |ms| - 1;
      MergeAllValid(master, ms[..n]);
      MergeOneSpec(MergeAll(master, ms[..n]), ms[n]);
    }
  }

  /** Some match is for feature `id`. */
  ghost predicate HasMatch(ms: seq<Match>, id: string) {
    exists i | 0 <= i < |ms| :: ms[i].featureId == id
  }

  lemma HasMatchSnoc(ms: seq<Match>, id: string)
    requires ms != []
    ensures HasMatch(ms, id) <==> HasMatch(ms[..|ms| - 1], id) || ms[|ms| - 1].featureId == id
  {
    var n := |ms| - 1;
    if HasMatch(ms, id) && ms[n].featureId != id {
      var i :| 0 <= i < |ms| && ms[i].featureId == id;
      assert ms[..n][i] == ms[i];
    }
    if HasMatch(ms[..n], id) {
      var i :| 0 <= i < n && ms[..n][i].featureId == id;
      assert ms[i] == ms[..n][i];
    }
  }

  /** A feature id is present after merging exactly when it was before or
      some match has it. */
  lemma {:induction false} MergeAllKeys(master: Dict<string, Hit>, ms: seq<Match>)
    ensures forall id :: id in MergeAll(master, ms).values <==> id in master.values || HasMatch(ms, id)
    decreases |ms|
  {
    if ms != [] {
      var n := |ms| - 1;
      MergeAllKeys(master, ms[..n]);
      forall id
        ensures id in MergeAll(master, ms).values <==> id in master.values || HasMatch(ms, id)
      {
        HasMatchSnoc(ms, id);
      }
    }
  }

  /** Each feature's count is its stored count plus the counts of its
      matches. */
  lemma {:induction false} MergeAllCounts(master: Dict<string, Hit>, ms: seq<Match>)
    requires Valid(master)
    ensures forall id :: CountOf(MergeAll(master, ms), id) == CountOf(master, id) + CountFor(ms, id)
    decreases |ms|
  {
    if ms != [] {
      var n := |ms| - 1;
      MergeAllCounts(master, ms[..n]);
      MergeAllValid(master, ms[..n]);
      MergeOneSpec(MergeAll(master, ms[..n]), ms[n]);
    }
  }

  /** `s` is the stored spectrum for `id` or one matched to it. */
  ghost predicate Candidate(master: Dict<string, Hit>, ms: seq<Match>, id: string, s: Spectrum) {
    (id in master.values && master.values[id].best == s)
    || exists i | 0 <= i < |ms| :: ms[i].featureId == id && ms[i].best == s
  }

  /** Each feature's spectrum is one of its candidates. */
  lemma {:induction false} MergeAllCandidate(master: Dict<string, Hit>, ms: seq<Match>)
    requires Valid(master)
    ensures
      forall id | id in MergeAll(master, ms).values :: Candidate(master, ms, id, MergeAll(master, ms).values[id].best)
    decreases |ms|
  {
    if ms != [] {
      var n := |ms| - 1;
      var init, m := ms[..n], ms[n];
      MergeAllCandidate(master, init);
      MergeAllValid(master, init);
      var d := MergeAll(master, init);
      MergeOneSpec(d, m);
      var r := MergeAll(master, ms);
      assert r == MergeOne(d, m);
      forall id | id in r.values
        ensures Candidate(master, ms, id, r.values[id].best)
      {
        if r.values[id].best == m.best && id == m.featureId {
          assert ms[n].featureId == id;
        } else {
          assert id in d.values;
          assert r.values[id].best == d.values[id].best;
          assert Candidate(master, init, id, d.values[id].best);
          if !(id in master.values && master.values[id].best == d.values[id].best) {
            var i :| 0 <= i < n && init[i].featureId == id && init[i].best == d.values[id].best;
            assert ms[i] == init[i];
          }
        }
      }
    }
  }

  /** A merge step never lowers a stored spectrum's total intensity, and
      the match's feature ends with a spectrum at least as intense as the
      match's. */
  lemma MergeOneGrows(master: Dict<string, Hit>, m: Match)
    ensures forall id | id in master.values ::
      TotalIntensity(master.values[id].best) <= TotalIntensity(MergeOne(master, m).values[id].best)
    ensures TotalIntensity(m.best) <= TotalIntensity(MergeOne(master, m).values[m.featureId].best)
  {
    forall id | id in master.values
      ensures TotalIntensity(master.values[id].best) <= TotalIntensity(MergeOne(master, m).values[id].best)
    {
      MergeOneKeeps(master, m, id);
    }
  }

  /** The stored spectrum of `id` after a step is at least as intense. */
  lemma MergeOneKeeps(master: Dict<string, Hit>, m: Match, id: string)
    requires id in master.values
    ensures TotalIntensity(master.values[id].best) <= TotalIntensity(MergeOne(master, m).values[id].best)
  {
  }

  /** Each feature's spectrum is at least as intense in total as its
      stored one. */
  lemma {:induction false} MergeAllKeepsStored(master: Dict<string, Hit>, ms: seq<Match>)
    ensures forall id | id in master.values :: id in MergeAll(master, ms).values
    ensures forall id | id in master.values ::
      TotalIntensity(master.values[id].best) <= TotalIntensity(MergeAll(master, ms).values[id].best)
    decreases |ms|
  {
    if ms != [] {
      var n := |ms| - 1;
      MergeAllKeepsStored(master, ms[..n]);
      MergeAllKeys(master, ms[..n]);
      MergeOneGrows(MergeAll(master, ms[..n]), ms[n]);
    }
  }

  /** Each feature's spectrum is at least as intense in total as every
      spectrum matched to it. */
  lemma {:induction false} MergeAllKeepsMatched(master: Dict<string, Hit>, ms: seq<Match>)
    ensures forall i | 0 <= i < |ms| :: ms[i].featureId in MergeAll(master, ms).values
    ensures forall i | 0 <= i < |ms| ::
      TotalIntensity(ms[i].best) <= TotalIntensity(MergeAll(master, ms).values[ms[i].featureId].best)
    decreases |ms|
  {
    if ms != [] {
      var n := |ms| - 1;
      var init, m := ms[..n], ms[n];
      var d := MergeAll(master, init);
      var r := MergeAll(master, ms);
      MergeAllKeepsMatched(master, init);
      MergeOneGrows(d, m);
      assert r == MergeOne(d, m);
      forall i | 0 <= i < |ms|
        ensures ms[i].featureId in r.values
        ensures TotalIntensity(ms[i].best) <= TotalIntensity(r.values[ms[i].featureId].best)
      {
        if i < n {
          assert ms[i] == init[i];
          var id := init[i].featureId;
          assert TotalIntensity(init[i].best) <= TotalIntensity(d.values[id].best);
          MergeOneKeeps(d, m, id);
        }
      }
    }
  }

  /** Merging two lists of matches is merging the first, then the
      second. */
  lemma {:induction false} MergeAllAppend(master: Dict<string, Hit>, a: seq<Match>, b: seq<Match>)
    ensures MergeAll(master, a + b) == MergeAll(MergeAll(master, a), b)
    decreases |b|
  {
    if b != [] {
      var n := |b| - 1;
      MergeAllAppend(master, a, b[..n]);
      assert (a + b)[..|a + b| - 1] == a + b[..n];
      assert (a + b)[|a + b| - 1] == b[n];
    } else {
      assert a + b == a;
    }
  }

  // ------------------------------------------------------------ all runs

  /** The pairs the mass mapping returns point at existing features and
      spectra, whatever the m/z lists. The mapping stands for
      `complete_mass_paired_mapping` with the ppm tolerance fixed. */
  ghost predicate MappingWithin(mapping: (seq<real>, seq<real>) -> seq<Pair>) {
    forall a: seq<real>, b: seq<real> :: PairsWithin(mapping(a, b), |a|, |b|)
  }

  /** `[f['mz'] for f in LCMS1_features]`. */
  function FeatureMzs(features: seq<AsariFeature>): (r: seq<real>)
    ensures |r| == |features|
  {
    seq(|features|, i requires 0 <= i < |features| => features[i].mz)
  }

  /** `[f['precursor_mz'] for f in list_ms2_spectra]`. */
  function PrecursorMzs(spectra: seq<Spectrum>): (r: seq<real>)
    ensures |r| == |spectra|
  {
    seq(|spectra|, i requires 0 <= i < |spectra| => spectra[i].precursorMz)
  }

  /** The matches of one run: its spectra are extracted with the default
      intensity floor, paired with the features by mass, and matched. */
  function RunMatches(features: seq<AsariFeature>, scans: seq<Scan>,
                      mapping: (seq<real>, seq<real>) -> seq<Pair>, rtTol: real): seq<Match>
    requires MappingWithin(mapping)
  {
    var spectra := ExtractSpectra(scans, MinIntensity);
    GetMatched(features, spectra, mapping(FeatureMzs(features), PrecursorMzs(spectra)), rtTol)
  }

  /** The matches of all runs, run after run. */
  function AllMatches(features: seq<AsariFeature>, runs: seq<seq<Scan>>,
                      mapping: (seq<real>, seq<real>) -> seq<Pair>, rtTol: real): seq<Match>
    requires MappingWithin(mapping)
    decreases |runs|
  {
    if runs == [] then []
    else AllMatches(features, runs[..|runs| - 1], mapping, rtTol) + RunMatches(features, runs[|runs| - 1], mapping, rtTol)
  }

  /** The file loop of `match_ms2files_to_features`: the record starts
      empty and each run's matches are merged into it. */
  function MergeRuns(features: seq<AsariFeature>, runs: seq<seq<Scan>>,
                     mapping: (seq<real>, seq<real>) -> seq<Pair>, rtTol: real): (r: Dict<string, Hit>)
    requires MappingWithin(mapping)
    decreases |runs|
  {
    if runs == [] then Empty()
    else MergeAll(MergeRuns(features, runs[..|runs| - 1], mapping, rtTol), RunMatches(features, runs[|runs| - 1], mapping, rtTol))
  }

  /** Merging run by run is merging all the runs' matches at once. */
  lemma {:induction false} MergeRunsAll(features: seq<AsariFeature>, runs: seq<seq<Scan>>,
                                        mapping: (seq<real>, seq<real>) -> seq<Pair>, rtTol: real)
    requires MappingWithin(mapping)
    ensures MergeRuns(features, runs, mapping, rtTol) == MergeAll(Empty(), AllMatches(features, runs, mapping, rtTol))
    decreases |runs|
  {
    if runs != [] {
      var n := |runs| - 1;
      MergeRunsAll(features, runs[..n], mapping, rtTol);
      MergeAllAppend(Empty(), AllMatches(features, runs[..n], mapping, rtTol), RunMatches(features, runs[n], mapping, rtTol));
    }
  }

  // ----------------------------------------------------------------- trim

  /** `len()` of a spectrum record: the dictionary has the three keys
      `precursor_mz`, `rtime` and `peaks`. */
  const RecordLength: int := 3

  /** The trim loop of `match_ms2files_to_features` as written: it passes
      the whole spectrum record, not its peak list, to `get_top_n_peaks`,
      whose length test then sees `RecordLength`, at most 20, and returns
      the record unchanged. */
  function TrimAsWritten(s: Spectrum): (r: Spectrum)
    ensures RecordLength <= TopPeaksCount ==> r == s
  {
    if RecordLength <= TopPeaksCount then s
    else s.(peaks := TopPeaks(s.peaks, TopPeaksCount))
  }

  /** The trim as intended: the spectrum keeps its 20 most intense
      peaks. */
  function Trim(s: Spectrum): (r: Spectrum)
    ensures r.precursorMz == s.precursorMz && r.rtime == s.rtime
    ensures |r.peaks| <= TopPeaksCount
    ensures multiset(r.peaks) <= multiset(s.peaks)
    ensures |s.peaks| <= TopPeaksCount ==> r == s
    ensures TopPeaksCount < |s.peaks| ==> |r.peaks| == TopPeaksCount && Sorting.DescendingBy(r.peaks, Intensity)
    ensures forall v :: Sorting.WithKey(r.peaks, Intensity, v) <= Sorting.WithKey(s.peaks, Intensity, v)
  {
    s.(peaks := TopPeaks(s.peaks, TopPeaksCount))
  }

  /** A trimmed spectrum keeps every peak at least as intense as any it
      drops. */
  lemma TrimKeepsLargest(s: Spectrum)
    ensures forall a, b | a in Trim(s).peaks && b in multiset(s.peaks) - multiset(Trim(s).peaks) ::
      b.intensity <= a.intensity
  {
    if TopPeaksCount < |s.peaks| {
      TopPeaksKeepsLargest(s.peaks, TopPeaksCount);
    }
  }

  /** A spectrum of 21 peaks comes out of the trim as written with all 21,
      where the intended trim keeps 20. */
  lemma TrimAsWrittenKeepsAll()
    ensures var s := Spectrum(200.0, 60.0, seq(21, i => Peak(i as real, 1000.0)));
      |TrimAsWritten(s).peaks| == 21 > TopPeaksCount && |Trim(s).peaks| == TopPeaksCount
  {
  }

  /** The trim loop of `match_ms2files_to_features` as written, over every
      entry of the record: each entry is reassigned in place, so the keys
      keep their order, and since the length test sees the record's three
      keys, every entry comes back unchanged. */
  function TrimAllAsWritten(master: Dict<string, Hit>): (r: Dict<string, Hit>)
    ensures r == master
  {
    Dict(master.keys, map id | id in master.values :: Hit(TrimAsWritten(master.values[id].best), master.values[id].count))
  }

  /** The intended trim of every entry of the record: each spectrum keeps
      its 20 most intense peaks, and keys and counts are unchanged. */
  function TrimAll(master: Dict<string, Hit>): (r: Dict<string, Hit>)
    ensures r.keys == master.keys
    ensures forall id :: id in r.values <==> id in master.values
    ensures forall id | id in r.values :: r.values[id].count == master.values[id].count
    ensures forall id | id in r.values :: r.values[id].best == Trim(master.values[id].best)
  {
    Dict(master.keys, map id | id in master.values :: Hit(Trim(master.values[id].best), master.values[id].count))
  }

  /** `match_ms2files_to_features` as written: the asari table is read, and
      every run's spectra are matched to its features and merged. The trim
      loop leaves every entry as it is, so the record returned is the
      merged record itself. It fails exactly when the table cannot be
      read. */
  function MatchMs2FilesToFeatures(lines: seq<string>, parseFloat: string -> Option<real>, runs: seq<seq<Scan>>,
                                   mapping: (seq<real>, seq<real>) -> seq<Pair>, rtTol: real): (r: Result<Dict<string, Hit>>)
    requires MappingWithin(mapping)
    ensures r.Success? <==> ReadAsariTable(lines, parseFloat).Success?
    ensures r.Success? ==> r.value == MergeRuns(ReadAsariTable(lines, parseFloat).value.1, runs, mapping, rtTol)
  {
    var table :- ReadAsariTable(lines, parseFloat);
    Success(TrimAllAsWritten(MergeRuns(table.1, runs, mapping, rtTol)))
  }

  /** `match_ms2files_to_features` as intended: as written, but each entry's
      spectrum is trimmed to its 20 most intense peaks. It fails exactly
      when the table cannot be read. */
  function MatchMs2FilesIntended(lines: seq<string>, parseFloat: string -> Option<real>, runs: seq<seq<Scan>>,
                                 mapping: (seq<real>, seq<real>) -> seq<Pair>, rtTol: real): (r: Result<Dict<string, Hit>>)
    requires MappingWithin(mapping)
    ensures r.Success? <==> ReadAsariTable(lines, parseFloat).Success?
    ensures r.Success? ==> r.value == TrimAll(MergeRuns(ReadAsariTable(lines, parseFloat).value.1, runs, mapping, rtTol))
  {
    var table :- ReadAsariTable(lines, parseFloat);
    Success(TrimAll(MergeRuns(table.1, runs, mapping, rtTol)))
  }

  /** A feature's spectrum is one of the spectra matched to it with the
      highest total intensity. */
  ghost predicate BestMatched(ms: seq<Match>, id: string, s: Spectrum) {
    exists i | 0 <= i < |ms| ::
      && ms[i].featureId == id && ms[i].best == s
      && forall j | 0 <= j < |ms| && ms[j].featureId == id :: TotalIntensity(ms[j].best) <= TotalIntensity(s)
  }

  /** Merging matches into an empty record gives one entry per feature id
      matched, holding the sum of its counts and a most intense spectrum
      matched to it. */
  lemma MergeFromEmpty(ms: seq<Match>)
    ensures Valid(MergeAll(Empty(), ms))
    ensures forall id :: id in MergeAll(Empty(), ms).values <==> HasMatch(ms, id)
    ensures forall id | id in MergeAll(Empty(), ms).values ::
      && MergeAll(Empty(), ms).values[id].count == CountFor(ms, id)
      && BestMatched(ms, id, MergeAll(Empty(), ms).values[id].best)
  {
    var e: Dict<string, Hit> := Empty();
    var d := MergeAll(e, ms);
    MergeAllValid(e, ms);
    MergeAllKeys(e, ms);
    MergeAllCounts(e, ms);
    MergeAllCandidate(e, ms);
    MergeAllKeepsMatched(e, ms);
    forall id | id in d.values
      ensures d.values[id].count == CountFor(ms, id)
      ensures BestMatched(ms, id, d.values[id].best)
    {
      assert CountOf(e, id) == 0;
      assert d.values[id].count == CountOf(d, id) == CountFor(ms, id);
      assert Candidate(e, ms, id, d.values[id].best);
      var i :| 0 <= i < |ms| && ms[i].featureId == id && ms[i].best == d.values[id].best;
    }
  }

  /** The record of all runs has one entry per feature id matched in some
      run; its count is the number of spectra matched to that id over all
      runs; and its spectrum is one matched to the id with the highest
      total intensity among them, untrimmed. */
  lemma MergedRecordSpec(features: seq<AsariFeature>, runs: seq<seq<Scan>>,
                         mapping: (seq<real>, seq<real>) -> seq<Pair>, rtTol: real)
    requires MappingWithin(mapping)
    ensures var ms := AllMatches(features, runs, mapping, rtTol);
      var r := MergeRuns(features, runs, mapping, rtTol);
      && (forall id :: id in r.values <==> HasMatch(ms, id))
      && (forall id | id in r.values :: r.values[id].count == CountFor(ms, id))
      && (forall id | id in r.values :: BestMatched(ms, id, r.values[id].best))
  {
    var ms := AllMatches(features, runs, mapping, rtTol);
    MergeRunsAll(features, runs, mapping, rtTol);
    MergeFromEmpty(ms);
  }

  /** Under the intended trim, each entry's spectrum is the trimmed form of
      a most intense spectrum matched to it; keys and counts are as in the
      merged record. */
  lemma IntendedRecordSpec(features: seq<AsariFeature>, runs: seq<seq<Scan>>,
                           mapping: (seq<real>, seq<real>) -> seq<Pair>, rtTol: real)
    requires MappingWithin(mapping)
    ensures var ms := AllMatches(features, runs, mapping, rtTol);
      var r := TrimAll(MergeRuns(features, runs, mapping, rtTol));
      && (forall id :: id in r.values <==> HasMatch(ms, id))
      && (forall id | id in r.values :: r.values[id].count == CountFor(ms, id))
      && (forall id | id in r.values :: exists s :: BestMatched(ms, id, s) && r.values[id].best == Trim(s))
  {
    var ms := AllMatches(features, runs, mapping, rtTol);
    var d := MergeRuns(features, runs, mapping, rtTol);
    MergeRunsAll(features, runs, mapping, rtTol);
    MergeFromEmpty(ms);
    var r := TrimAll(d);
    forall id | id in r.values
      ensures exists s :: BestMatched(ms, id, s) && r.values[id].best == Trim(s)
    {
      assert id in d.values;
      TrimmedBest(ms, id, d.values[id].best, r.values[id].best);
    }
  }

  lemma TrimmedBest(ms: seq<Match>, id: string, s: Spectrum, t: Spectrum)
    requires BestMatched(ms, id, s) && t == Trim(s)
    ensures exists s' :: BestMatched(ms, id, s') && t == Trim(s')
  {
  }
}

=== FILE: search.dfy ===
/** The module search of `ModularAnalysis.find_modules`: grow networks around
    the seed compounds in four steps, cut each into connected components,
    build a module from every component of a useful size, split the larger
    modules into communities, and keep one module per label. */
module ModuleSearch {
  import opened Graphs
  import opened Trios
  import opened Mmodule

  /** `SEARCH_STEPS`: the number of networks grown around the seeds. */
  const SearchSteps: nat := 4

  /** `MODULE_SIZE_LIMIT`: components must have fewer nodes than this. */
  const ModuleSizeLimit: nat := 100

  /** The graph algorithms the search delegates to networkx, supplied by the
      caller: the connected components of a graph, its community partition
      (Louvain by default), and the square root used by the activity score. */
  datatype Collaborators = Collaborators(
    components: Graph -> seq<set<NodeId>>,
    communities: Graph -> seq<set<NodeId>>,
    sqrt: real -> real)

  // -------------------------------------------------------------- networks

  /** Every node of `g` is an end of one of its edges, as in any graph built
      from an edge list. */
  ghost predicate NoIsolated(g: Graph) {
    forall x {:trigger Covered(g.edges, x)} | x in g.nodes :: Covered(g.edges, x)
  }

  /** A network the search may build: well formed, with edges of the
      reference network only, and no isolated node. */
  ghost predicate Grown(ref: Graph, g: Graph) {
    WellFormed(g) && g.edges <= ref.edges && NoIsolated(g)
  }

  /** Step 0: the reference edges joining two seeds, as a graph. Its nodes are
      the seeds that have a seed neighbour. */
  function SeedNetwork(ref: Graph, seeds: set<NodeId>): (g: Graph)
    requires WellFormed(ref)
    ensures Grown(ref, g)
    ensures forall e | e in ref.edges :: e in g.edges <==> e.Inside(seeds)
    ensures g.nodes <= seeds
  {
    FromEdges(set e | e in EdgesTouching(ref, seeds) && e.Inside(seeds))
  }

  /** Steps 1 to 3: every reference edge with an end in `ns`, as a graph. */
  function Expand(ref: Graph, ns: set<NodeId>): (g: Graph)
    requires WellFormed(ref)
    ensures Grown(ref, g)
    ensures forall e | e in ref.edges :: e in g.edges <==> e.Touches(ns)
  {
    FromEdges(EdgesTouching(ref, ns))
  }

  /** `a` is a subgraph of `b`: its nodes and edges are among theirs. */
  ghost predicate Within(a: Graph, b: Graph) {
    a.nodes <= b.nodes && a.edges <= b.edges
  }

  /** Expanding a search network around its own nodes loses nothing. */
  lemma ExpandKeeps(ref: Graph, g: Graph)
    requires WellFormed(ref) && Grown(ref, g)
    ensures Within(g, Expand(ref, g.nodes))
  {
    var h := Expand(ref, g.nodes);
    forall x | x in g.nodes
      ensures x in h.nodes
    {
      assert Covered(g.edges, x);
      var e :| e in g.edges && e.Has(x);
      assert Covered(h.edges, x);
    }
  }

  /** Step 1 already contains step 0. */
  lemma SeedWithinExpand(ref: Graph, seeds: set<NodeId>)
    requires WellFormed(ref)
    ensures Within(SeedNetwork(ref, seeds), Expand(ref, seeds))
  {
    var g := SeedNetwork(ref, seeds);
    var h := Expand(ref, seeds);
    forall x | x in g.nodes
      ensures x in h.nodes
    {
      assert Covered(g.edges, x);
      var e :| e in g.edges && e.Has(x);
      assert Covered(h.edges, x);
    }
  }

  /** Steps 1 onwards: `k` networks, the first expanded around `ns`, each
      later one around the nodes of the one before. */
  function Grow(ref: Graph, ns: set<NodeId>, k: nat): (nets: seq<Graph>)
    requires WellFormed(ref)
    ensures |nets| == k
    ensures forall i | 0 <= i < k :: Grown(ref, nets[i])
    ensures k > 0 ==> nets[0] == Expand(ref, ns)
    decreases k
  {
    if k == 0 then []
    else
      var g := Expand(ref, ns);
      [g] + Grow(ref, g.nodes, k - 1)
  }

  /** The `SEARCH_STEPS` networks of the search: step 0 joins seeds to seeds;
      step 1 expands around the seeds themselves; steps 2 and 3 expand around
      the nodes of the previous step. */
  function SearchNetworks(ref: Graph, seeds: set<NodeId>): (nets: seq<Graph>)
    requires WellFormed(ref)
    ensures |nets| == SearchSteps
    ensures forall i | 0 <= i < |nets| :: Grown(ref, nets[i])
    ensures nets[0] == SeedNetwork(ref, seeds) && nets[1] == Expand(ref, seeds)
  {
    [SeedNetwork(ref, seeds)] + Grow(ref, seeds, SearchSteps - 1)
  }

  /** Each grown network contains the one before it. */
  lemma {:induction false} GrowMonotone(ref: Graph, ns: set<NodeId>, k: nat)
    requires WellFormed(ref)
    ensures forall i | 0 <= i < k - 1 :: Within(Grow(ref, ns, k)[i], Grow(ref, ns, k)[i + 1])
    decreases k
  {
    if k > 1 {
      var g := Expand(ref, ns);
      var nets := Grow(ref, ns, k);
      var rest := Grow(ref, g.nodes, k - 1);
      assert nets == [g] + rest;
      GrowMonotone(ref, g.nodes, k - 1);
      ExpandKeeps(ref, g);
      forall i | 0 <= i < k - 1
        ensures Within(nets[i], nets[i + 1])
      {
        if i > 0 {
          var j := i - 1;
          assert nets[i] == rest[j] && nets[i + 1] == rest[j + 1];
          assert Within(rest[j], rest[j + 1]);
        }
      }
    }
  }

  lemma WithinTransitive(a: Graph, b: Graph, c: Graph)
    requires Within(a, b) && Within(b, c)
    ensures Within(a, c)
  {
  }

  /** The search networks only grow from one step to the next: every later
      network contains every earlier one, nodes and edges. */
  lemma {:induction false} SearchNetworksGrow(ref: Graph, seeds: set<NodeId>, i: nat, j: nat)
    requires WellFormed(ref)
    requires i <= j < SearchSteps
    ensures Within(SearchNetworks(ref, seeds)[i], SearchNetworks(ref, seeds)[j])
    decreases j - i
  {
    var nets := SearchNetworks(ref, seeds);
    if i < j {
      SearchNetworksGrow(ref, seeds, i + 1, j);
      if i == 0 {
        SeedWithinExpand(ref, seeds);
      } else {
        var rest := Grow(ref, seeds, SearchSteps - 1);
        assert nets[i] == rest[i - 1] && nets[i + 1] == rest[i];
        GrowMonotone(ref, seeds, SearchSteps - 1);
        assert Within(rest[i - 1], rest[i - 1 + 1]);
      }
      WithinTransitive(nets[i], nets[i + 1], nets[j]);
    }
  }

  // ------------------------------------------------------------- modules

  /** A module whose graph can be split further: well formed, on reference
      edges, and non-empty only when the reference network has edges. */
  ghost predicate Valid(ref: Graph, m: Module) {
    && WellFormed(m.graph)
    && m.graph.edges <= ref.edges
    && (m.graph.nodes == {} || |ref.edges| > 0)
  }

  /** A module of the search: valid, built for the trio list, and inside
      `reach`. */
  ghost predicate Good(ref: Graph, trios: seq<Trio>, reach: set<NodeId>, m: Module) {
    Valid(ref, m) && Built(m, trios) && m.graph.nodes <= reach
  }

  ghost predicate AllGood(ref: Graph, trios: seq<Trio>, reach: set<NodeId>, ms: seq<Module>) {
    forall k | 0 <= k < |ms| :: Good(ref, trios, reach, ms[k])
  }

  lemma AllGoodAppend(ref: Graph, trios: seq<Trio>, reach: set<NodeId>, a: seq<Module>, b: seq<Module>)
    requires AllGood(ref, trios, reach, a) && AllGood(ref, trios, reach, b)
    ensures AllGood(ref, trios, reach, a + b)
  {
    forall k | 0 <= k < |a + b|
      ensures Good(ref, trios, reach, (a + b)[k])
    {
      if k < |a| {
        assert (a + b)[k] == a[k];
      } else {
        assert (a + b)[k] == b[k - |a|];
      }
    }
  }

  /** A component is made into a module when it has more than 3 and fewer
      than `MODULE_SIZE_LIMIT` nodes. */
  predicate UsefulSize(g: Graph) {
    3 < |g.nodes| < ModuleSizeLimit
  }

  /** A non-empty node set inside a search network means the reference
      network has edges. */
  lemma ReferenceHasEdges(ref: Graph, net: Graph, ns: set<NodeId>)
    requires Grown(ref, net) && ns <= net.nodes && ns != {}
    ensures |ref.edges| > 0
  {
    var x :| x in ns;
    assert Covered(net.edges, x);
    var e :| e in net.edges && e.Has(x);
    assert e in ref.edges;
  }

  /** The module built from one component of a search network. */
  function ComponentModule(ref: Graph, net: Graph, c: set<NodeId>, trios: seq<Trio>, sqrt: real -> real): (m: Module)
    requires Grown(ref, net)
    ensures Valid(ref, m)
    ensures m.graph.nodes <= net.nodes * c
  {
    ComponentHasEdges(ref, net, c);
    MakeModule(ref, InducedSubgraph(net, c), trios, sqrt)
  }

  /** A non-empty component of a search network means the reference network
      has edges. */
  lemma ComponentHasEdges(ref: Graph, net: Graph, c: set<NodeId>)
    requires Grown(ref, net)
    ensures InducedSubgraph(net, c).nodes == {} || |ref.edges| > 0
  {
    var sub := InducedSubgraph(net, c);
    if sub.nodes != {} {
      ReferenceHasEdges(ref, net, sub.nodes);
    }
  }

  lemma ComponentModuleBuilt(ref: Graph, net: Graph, c: set<NodeId>, trios: seq<Trio>, sqrt: real -> real)
    requires Grown(ref, net)
    ensures Built(ComponentModule(ref, net, c, trios, sqrt), trios)
  {
    ComponentHasEdges(ref, net, c);
    MakeModuleBuilt(ref, InducedSubgraph(net, c), trios, sqrt);
  }

  /** Component `c` is of useful size and `m` is its module. */
  ghost predicate Yields(ref: Graph, net: Graph, c: set<NodeId>, trios: seq<Trio>, sqrt: real -> real, m: Module)
    requires Grown(ref, net)
  {
    UsefulSize(InducedSubgraph(net, c)) && m == ComponentModule(ref, net, c, trios, sqrt)
  }

  /** The loop over `nx.connected_components(new_network)` for one network:
      one module per component of useful size, in component order. */
  function ComponentModules(ref: Graph, net: Graph, comps: seq<set<NodeId>>, trios: seq<Trio>, sqrt: real -> real): (ms: seq<Module>)
    requires Grown(ref, net)
    ensures |ms| <= |comps|
  {
    if comps == [] then []
    else if UsefulSize(InducedSubgraph(net, comps[0])) then
      [ComponentModule(ref, net, comps[0], trios, sqrt)] + ComponentModules(ref, net, comps[1..], trios, sqrt)
    else
      ComponentModules(ref, net, comps[1..], trios, sqrt)
  }

  /** Every component of useful size yields its module, and nothing else
      does. */
  lemma {:induction false} ComponentModulesSpec(ref: Graph, net: Graph, comps: seq<set<NodeId>>, trios: seq<Trio>, sqrt: real -> real)
    requires Grown(ref, net)
    ensures var ms := ComponentModules(ref, net, comps, trios, sqrt);
      && (forall i | 0 <= i < |comps| && UsefulSize(InducedSubgraph(net, comps[i])) ::
            ComponentModule(ref, net, comps[i], trios, sqrt) in ms)
      && (forall m | m in ms :: exists i | 0 <= i < |comps| :: Yields(ref, net, comps[i], trios, sqrt, m))
  {
    if comps != [] {
      var ms := ComponentModules(ref, net, comps, trios, sqrt);
      var tail := comps[1..];
      var rest := ComponentModules(ref, net, tail, trios, sqrt);
      ComponentModulesSpec(ref, net, tail, trios, sqrt);
      var useful := UsefulSize(InducedSubgraph(net, comps[0]));
      var first := ComponentModule(ref, net, comps[0], trios, sqrt);
      assert ms == (if useful then [first] + rest else rest);
      forall i | 0 <= i < |comps| && UsefulSize(InducedSubgraph(net, comps[i]))
        ensures ComponentModule(ref, net, comps[i], trios, sqrt) in ms
      {
        if i > 0 {
          assert comps[i] == tail[i - 1];
        }
      }
      forall m | m in ms
        ensures exists i | 0 <= i < |comps| :: Yields(ref, net, comps[i], trios, sqrt, m)
      {
        if m in rest {
          var j :| 0 <= j < |tail| && Yields(ref, net, tail[j], trios, sqrt, m);
          assert tail[j] == comps[j + 1];
        } else {
          assert m == first;
          assert Yields(ref, net, comps[0], trios, sqrt, m);
        }
      }
    }
  }

  /** Every module of one network is valid, built, and inside the network. */
  lemma ComponentModulesValid(ref: Graph, net: Graph, comps: seq<set<NodeId>>, trios: seq<Trio>, sqrt: real -> real)
    requires Grown(ref, net)
    ensures AllGood(ref, trios, net.nodes, ComponentModules(ref, net, comps, trios, sqrt))
  {
    var ms := ComponentModules(ref, net, comps, trios, sqrt);
    ComponentModulesSpec(ref, net, comps, trios, sqrt);
    forall k | 0 <= k < |ms|
      ensures Good(ref, trios, net.nodes, ms[k])
    {
      assert ms[k] in ms;
      var i :| 0 <= i < |comps| && Yields(ref, net, comps[i], trios, sqrt, ms[k]);
      ComponentModuleBuilt(ref, net, comps[i], trios, sqrt);
    }
  }

  /** The first stage of `find_modules`: the modules of every search network,
      step by step. Every module is valid and stays inside `reach`, any node
      set holding all the networks. */
  function StepModules(ref: Graph, nets: seq<Graph>, trios: seq<Trio>, collab: Collaborators, ghost reach: set<NodeId>): (ms: seq<Module>)
    requires forall i | 0 <= i < |nets| :: Grown(ref, nets[i]) && nets[i].nodes <= reach
    ensures AllGood(ref, trios, reach, ms)
  {
    if nets == [] then []
    else
      var first := ComponentModules(ref, nets[0], collab.components(nets[0]), trios, collab.sqrt);
      ComponentModulesValid(ref, nets[0], collab.components(nets[0]), trios, collab.sqrt);
      Widen(ref, trios, nets[0].nodes, reach, first);
      var rest := StepModules(ref, nets[1..], trios, collab, reach);
      AllGoodAppend(ref, trios, reach, first, rest);
      first + rest
  }

  lemma Widen(ref: Graph, trios: seq<Trio>, inner: set<NodeId>, reach: set<NodeId>, ms: seq<Module>)
    requires inner <= reach && AllGood(ref, trios, inner, ms)
    ensures AllGood(ref, trios, reach, ms)
  {
  }

  /** Every component of useful size, in every search network, yields its
      module. */
  lemma {:induction false} StepModulesComplete(ref: Graph, nets: seq<Graph>, trios: seq<Trio>, collab: Collaborators, reach: set<NodeId>, i: int, j: int)
    requires forall i | 0 <= i < |nets| :: Grown(ref, nets[i]) && nets[i].nodes <= reach
    requires 0 <= i < |nets| && 0 <= j < |collab.components(nets[i])|
    requires UsefulSize(InducedSubgraph(nets[i], collab.components(nets[i])[j]))
    ensures ComponentModule(ref, nets[i], collab.components(nets[i])[j], trios, collab.sqrt)
      in StepModules(ref, nets, trios, collab, reach)
  {
    var first := ComponentModules(ref, nets[0], collab.components(nets[0]), trios, collab.sqrt);
    var rest := StepModules(ref, nets[1..], trios, collab, reach);
    assert StepModules(ref, nets, trios, collab, reach) == first + rest;
    if i == 0 {
      ComponentModulesSpec(ref, nets[0], collab.components(nets[0]), trios, collab.sqrt);
    } else {
      assert nets[i] == nets[1..][i - 1];
      StepModulesComplete(ref, nets[1..], trios, collab, reach, i - 1, j);
    }
  }

  // ------------------------------------------------------------ splitting

  /** A module is split into communities when it has more than 5 nodes. */
  predicate Splittable(m: Module) {
    |m.graph.nodes| > 5
  }

  /** The module built on the subgraph a community induces in its parent
      module. */
  function CommunityModule(ref: Graph, parent: Module, part: set<NodeId>, trios: seq<Trio>, sqrt: real -> real): (m: Module)
    requires Valid(ref, parent)
    ensures Valid(ref, m)
    ensures m.graph.nodes <= parent.graph.nodes * part
  {
    MakeModule(ref, InducedSubgraph(parent.graph, part), trios, sqrt)
  }

  lemma CommunityModuleBuilt(ref: Graph, parent: Module, part: set<NodeId>, trios: seq<Trio>, sqrt: real -> real)
    requires Valid(ref, parent)
    ensures Built(CommunityModule(ref, parent, part, trios, sqrt), trios)
  {
    MakeModuleBuilt(ref, InducedSubgraph(parent.graph, part), trios, sqrt);
  }

  /** `__split_modules__` followed by module construction: one module per
      community of more than 3 nodes, built on the subgraph it induces. */
  function CommunityModules(ref: Graph, parent: Module, parts: seq<set<NodeId>>, trios: seq<Trio>, sqrt: real -> real): (ms: seq<Module>)
    requires Valid(ref, parent)
    ensures |ms| <= |parts|
  {
    if parts == [] then []
    else if |parts[0]| > 3 then
      [CommunityModule(ref, parent, parts[0], trios, sqrt)] + CommunityModules(ref, parent, parts[1..], trios, sqrt)
    else
      CommunityModules(ref, parent, parts[1..], trios, sqrt)
  }

  /** Every community of more than 3 nodes yields its module, and nothing
      else does. */
  lemma {:induction false} CommunityModulesSpec(ref: Graph, parent: Module, parts: seq<set<NodeId>>, trios: seq<Trio>, sqrt: real -> real)
    requires Valid(ref, parent)
    ensures var ms := CommunityModules(ref, parent, parts, trios, sqrt);
      && (forall i | 0 <= i < |parts| && |parts[i]| > 3 ::
            CommunityModule(ref, parent, parts[i], trios, sqrt) in ms)
      && (forall m | m in ms :: exists i | 0 <= i < |parts| ::
            |parts[i]| > 3 && m == CommunityModule(ref, parent, parts[i], trios, sqrt))
  {
    if parts != [] {
      var ms := CommunityModules(ref, parent, parts, trios, sqrt);
      var tail := parts[1..];
      var rest := CommunityModules(ref, parent, tail, trios, sqrt);
      CommunityModulesSpec(ref, parent, tail, trios, sqrt);
      var first := CommunityModule(ref, parent, parts[0], trios, sqrt);
      assert ms == (if |parts[0]| > 3 then [first] + rest else rest);
      forall i | 0 <= i < |parts| && |parts[i]| > 3
        ensures CommunityModule(ref, parent, parts[i], trios, sqrt) in ms
      {
        if i > 0 {
          assert parts[i] == tail[i - 1];
        }
      }
      forall m | m in ms
        ensures exists i | 0 <= i < |parts| ::
          |parts[i]| > 3 && m == CommunityModule(ref, parent, parts[i], trios, sqrt)
      {
        if m in rest {
          var j :| 0 <= j < |tail| &&
            |tail[j]| > 3 && m == CommunityModule(ref, parent, tail[j], trios, sqrt);
          assert tail[j] == parts[j + 1];
        } else {
          assert m == first;
        }
      }
    }
  }

  /** Every module split from `parent` is valid, built, and inside it. */
  lemma CommunityModulesValid(ref: Graph, parent: Module, parts: seq<set<NodeId>>, trios: seq<Trio>, sqrt: real -> real)
    requires Valid(ref, parent)
    ensures AllGood(ref, trios, parent.graph.nodes, CommunityModules(ref, parent, parts, trios, sqrt))
  {
    var ms := CommunityModules(ref, parent, parts, trios, sqrt);
    CommunityModulesSpec(ref, parent, parts, trios, sqrt);
    forall k | 0 <= k < |ms|
      ensures Good(ref, trios, parent.graph.nodes, ms[k])
    {
      assert ms[k] in ms;
      var i :| 0 <= i < |parts| && ms[k] == CommunityModule(ref, parent, parts[i], trios, sqrt);
      CommunityModuleBuilt(ref, parent, parts[i], trios, sqrt);
    }
  }

  /** The `modules2` loop: the community modules of every splittable module,
      in module order. Every one is valid, built, and stays inside `reach`
      when the modules split do. */
  function SplitModules(ref: Graph, ms: seq<Module>, trios: seq<Trio>, collab: Collaborators, ghost reach: set<NodeId>): (r: seq<Module>)
    requires forall k | 0 <= k < |ms| :: Valid(ref, ms[k]) && ms[k].graph.nodes <= reach
    ensures AllGood(ref, trios, reach, r)
  {
    if ms == [] then []
    else
      assert forall k | 1 <= k < |ms| :: ms[1..][k - 1] == ms[k];
      var rest := SplitModules(ref, ms[1..], trios, collab, reach);
      if Splittable(ms[0]) then
        var first := CommunityModules(ref, ms[0], collab.communities(ms[0].graph), trios, collab.sqrt);
        CommunityModulesValid(ref, ms[0], collab.communities(ms[0].graph), trios, collab.sqrt);
        Widen(ref, trios, ms[0].graph.nodes, reach, first);
        AllGoodAppend(ref, trios, reach, first, rest);
        first + rest
      else
        rest
  }

  /** Every community of more than 3 nodes of every splittable module yields
      its module. */
  lemma {:induction false} SplitModulesComplete(ref: Graph, ms: seq<Module>, trios: seq<Trio>, collab: Collaborators, reach: set<NodeId>, i: int, j: int)
    requires forall k | 0 <= k < |ms| :: Valid(ref, ms[k]) && ms[k].graph.nodes <= reach
    requires 0 <= i < |ms| && Splittable(ms[i])
    requires 0 <= j < |collab.communities(ms[i].graph)| && |collab.communities(ms[i].graph)[j]| > 3
    ensures CommunityModule(ref, ms[i], collab.communities(ms[i].graph)[j], trios, collab.sqrt)
      in SplitModules(ref, ms, trios, collab, reach)
  {
    var rest := SplitModules(ref, ms[1..], trios, collab, reach);
    if i == 0 {
      var first := CommunityModules(ref, ms[0], collab.communities(ms[0].graph), trios, collab.sqrt);
      assert SplitModules(ref, ms, trios, collab, reach) == first + rest;
      CommunityModulesSpec(ref, ms[0], collab.communities(ms[0].graph), trios, collab.sqrt);
    } else {
      assert ms[i] == ms[1..][i - 1];
      SplitModulesComplete(ref, ms[1..], trios, collab, reach, i - 1, j);
    }
  }

  // ----------------------------------------------------------- dedupe

  /** A module that survives the final filter has more than 3 nodes. */
  predicate Big(m: Module) {
    |m.graph.nodes| > 3
  }

  /** `ms[i]` is the first module of `ms` with more than 3 nodes and its
      label, and its label is not in `seen`. */
  ghost predicate FirstOccurrence(ms: seq<Module>, seen: set<string>, i: int)
    requires 0 <= i < |ms|
  {
    && Big(ms[i])
    && ms[i].nodestr !in seen
    && forall j | 0 <= j < i && Big(ms[j]) :: ms[j].nodestr != ms[i].nodestr
  }

  /** `a` is `b` with some elements left out, order kept. */
  ghost predicate IsSubsequence<T>(a: seq<T>, b: seq<T>)
    decreases |b|
  {
    |a| == 0 || (|b| > 0 && ((a[0] == b[0] && IsSubsequence(a[1..], b[1..])) || IsSubsequence(a, b[1..])))
  }

  /** The labels to skip once the first module of `ms` has been looked at. */
  function NextSeen(ms: seq<Module>, seen: set<string>): set<string>
    requires |ms| > 0
  {
    if Big(ms[0]) then seen + {ms[0].nodestr} else seen
  }

  lemma FirstOccurrenceShift(ms: seq<Module>, seen: set<string>, i: int)
    requires 1 <= i < |ms|
    ensures FirstOccurrence(ms, seen, i) <==> FirstOccurrence(ms[1..], NextSeen(ms, seen), i - 1)
  {
    var tail := ms[1..];
    assert forall j | 1 <= j <= i :: ms[j] == tail[j - 1];
    if FirstOccurrence(tail, NextSeen(ms, seen), i - 1) {
      forall j | 0 <= j < i && Big(ms[j])
        ensures ms[j].nodestr != ms[i].nodestr
      {
        if j > 0 {
          assert tail[j - 1] == ms[j];
        }
      }
    }
  }

  /** The final loop of `find_modules`: walk the modules in order and keep
      each one with more than 3 nodes whose label has not been kept before.
      Every kept module is one of `ms`, has more than 3 nodes and a label not
      in `seen`, and no two kept modules share a label. */
  function Dedup(ms: seq<Module>, seen: set<string>): (r: seq<Module>)
    ensures forall k | 0 <= k < |r| :: r[k] in ms && Big(r[k]) && r[k].nodestr !in seen
    ensures forall k, l | 0 <= k < l < |r| :: r[k].nodestr != r[l].nodestr
    decreases |ms|
  {
    if ms == [] then []
    else
      var m := ms[0];
      var keep := Big(m) && m.nodestr !in seen;
      var seen' := if keep then seen + {m.nodestr} else seen;
      var rest := Dedup(ms[1..], seen');
      assert forall k | 0 <= k < |rest| :: rest[k] in ms;
      if keep then [m] + rest else rest
  }

  /** Dedup keeps exactly the first occurrences: every first occurrence is
      kept, and every kept module is a first occurrence. */
  lemma {:induction false} DedupKeepsFirst(ms: seq<Module>, seen: set<string>)
    ensures forall i | 0 <= i < |ms| && FirstOccurrence(ms, seen, i) :: ms[i] in Dedup(ms, seen)
    ensures forall m | m in Dedup(ms, seen) :: exists i | 0 <= i < |ms| :: FirstOccurrence(ms, seen, i) && ms[i] == m
    decreases |ms|
  {
    if ms != [] {
      var m := ms[0];
      var keep := Big(m) && m.nodestr !in seen;
      var seen' := if keep then seen + {m.nodestr} else seen;
      assert seen' == NextSeen(ms, seen);
      var rest := Dedup(ms[1..], seen');
      assert Dedup(ms, seen) == if keep then [m] + rest else rest;
      DedupKeepsFirst(ms[1..], seen');
      forall i | 1 <= i < |ms|
        ensures FirstOccurrence(ms, seen, i) <==> FirstOccurrence(ms[1..], seen', i - 1)
      {
        FirstOccurrenceShift(ms, seen, i);
      }
      assert forall i | 1 <= i < |ms| :: ms[i] == ms[1..][i - 1];
      assert keep <==> FirstOccurrence(ms, seen, 0);
    }
  }

  /** Dedup keeps the modules in their original order. */
  lemma {:induction false} DedupInOrder(ms: seq<Module>, seen: set<string>)
    ensures IsSubsequence(Dedup(ms, seen), ms)
    decreases |ms|
  {
    if ms != [] {
      var m := ms[0];
      var keep := Big(m) && m.nodestr !in seen;
      var seen' := if keep then seen + {m.nodestr} else seen;
      var rest := Dedup(ms[1..], seen');
      DedupInOrder(ms[1..], seen');
      if keep {
        var r := [m] + rest;
        assert r[1..] == rest;
      }
    }
  }

  // ---------------------------------------------------------- the search

  /** The candidates of `find_modules`: the modules of the search networks,
      followed by the modules split from them. All are valid and built, and
      lie inside the last search network. */
  function Candidates(ref: Graph, trios: seq<Trio>, collab: Collaborators): (all: seq<Module>)
    requires WellFormed(ref)
    ensures AllGood(ref, trios, SearchNetworks(ref, SeedSet(trios))[SearchSteps - 1].nodes, all)
  {
    var nets := SearchNetworks(ref, SeedSet(trios));
    ghost var reach := nets[SearchSteps - 1].nodes;
    assert forall i | 0 <= i < |nets| :: nets[i].nodes <= reach by {
      forall i | 0 <= i < |nets|
        ensures nets[i].nodes <= reach
      {
        SearchNetworksGrow(ref, SeedSet(trios), i, SearchSteps - 1);
      }
    }
    var modules := StepModules(ref, nets, trios, collab, reach);
    var split := SplitModules(ref, modules, trios, collab, reach);
    AllGoodAppend(ref, trios, reach, modules, split);
    modules + split
  }

  /** `ModularAnalysis.find_modules`: the candidates reduced to the first
      module per label with more than 3 nodes. Every result is a valid module
      built for the trio list with more than 3 nodes, lies inside the last
      search network (the search never reaches further than `SEARCH_STEPS`
      expansions from the seeds), and no two results share a label. */
  function FindModules(ref: Graph, trios: seq<Trio>, collab: Collaborators): (r: seq<Module>)
    requires WellFormed(ref)
    ensures AllGood(ref, trios, SearchNetworks(ref, SeedSet(trios))[SearchSteps - 1].nodes, r)
    ensures forall k | 0 <= k < |r| :: Big(r[k])
    ensures forall k, l | 0 <= k < l < |r| :: r[k].nodestr != r[l].nodestr
  {
    var all := Candidates(ref, trios, collab);
    var r := Dedup(all, {});
    AllGoodSubset(ref, trios, SearchNetworks(ref, SeedSet(trios))[SearchSteps - 1].nodes, all, r);
    r
  }

  lemma AllGoodSubset(ref: Graph, trios: seq<Trio>, reach: set<NodeId>, a: seq<Module>, b: seq<Module>)
    requires AllGood(ref, trios, reach, a)
    requires forall k | 0 <= k < |b| :: b[k] in a
    ensures AllGood(ref, trios, reach, b)
  {
    forall k | 0 <= k < |b|
      ensures Good(ref, trios, reach, b[k])
    {
      var i :| 0 <= i < |a| && a[i] == b[k];
    }
  }

  /** The results keep the candidates' order, and every label of a candidate
      with more than 3 nodes is carried by some result. */
  lemma FindModulesComplete(ref: Graph, trios: seq<Trio>, collab: Collaborators)
    requires WellFormed(ref)
    ensures IsSubsequence(FindModules(ref, trios, collab), Candidates(ref, trios, collab))
    ensures var r := FindModules(ref, trios, collab);
      forall m | m in Candidates(ref, trios, collab) && Big(m) ::
        exists k | 0 <= k < |r| :: r[k].nodestr == m.nodestr
  {
    var all := Candidates(ref, trios, collab);
    DedupInOrder(all, {});
    forall m | m in all && Big(m)
      ensures exists k | 0 <= k < |Dedup(all, {})| :: Dedup(all, {})[k].nodestr == m.nodestr
    {
      FirstLabelKept(all, m);
    }
  }

  /** Some module carrying the label of a big module is a first occurrence. */
  lemma FirstLabelKept(ms: seq<Module>, m: Module)
    requires m in ms && Big(m)
    ensures exists k | 0 <= k < |Dedup(ms, {})| :: Dedup(ms, {})[k].nodestr == m.nodestr
  {
    var i :| 0 <= i < |ms| && ms[i] == m;
    var first := FirstBigWithLabel(ms, m.nodestr, i);
    assert FirstOccurrence(ms, {}, first);
    DedupKeepsFirst(ms, {});
    var r := Dedup(ms, {});
    assert ms[first] in r;
    var k :| 0 <= k < |r| && r[k] == ms[first];
  }

  /** The index of the first big module of `ms` labelled `s`. */
  lemma {:induction false} FirstBigWithLabel(ms: seq<Module>, s: string, i: int) returns (first: int)
    requires 0 <= i < |ms| && Big(ms[i]) && ms[i].nodestr == s
    ensures 0 <= first <= i && Big(ms[first]) && ms[first].nodestr == s
    ensures forall j | 0 <= j < first && Big(ms[j]) :: ms[j].nodestr != s
    decreases i
  {
    if j :| 0 <= j < i && Big(ms[j]) && ms[j].nodestr == s {
      first := FirstBigWithLabel(ms, s, j);
    } else {
      first := i;
    }
  }
}

=== FILE: significance.dfy ===
/** The significance stage of the module search: the rank-based empirical
    p-value, the selection of significant modules, the permutation null
    distribution, the trios hit by significant modules, and the JSON shape
    of the result. */
module Significance {
  import opened Graphs
  import opened Trios
  import opened Mmodule
  import ModuleSearch
  import Sorting
  import Text

  /** `SIGNIFICANCE_CUTOFF`. */
  const SignificanceCutoff: real := 0.05

  // ------------------------------------------------------------- p-value

  /** The number of entries of `record` strictly above `x`. */
  function CountAbove(record: seq<real>, x: real): (c: nat)
    ensures c <= |record|
  {
    if |record| == 0 then 0
    else (if record[0] > x then 1 else 0) + CountAbove(record[1..], x)
  }

  lemma {:induction false} CountAboveAppend(a: seq<real>, b: seq<real>, x: real)
    ensures CountAbove(a + b, x) == CountAbove(a, x) + CountAbove(b, x)
    decreases |a|
  {
    if |a| == 0 {
      assert a + b == b;
    } else {
      assert (a + b)[1..] == a[1..] + b;
      CountAboveAppend(a[1..], b, x);
    }
  }

  /** Taking out the entry at `k` lowers the count by that entry's share. */
  lemma CountAboveRemove(b: seq<real>, k: nat, x: real)
    requires k < |b|
    ensures CountAbove(b, x) == (if b[k] > x then 1 else 0) + CountAbove(b[..k] + b[k + 1..], x)
  {
    assert b == b[..k] + ([b[k]] + b[k + 1..]);
    CountAboveAppend(b[..k], [b[k]] + b[k + 1..], x);
    CountAboveAppend([b[k]], b[k + 1..], x);
    CountAboveAppend(b[..k], b[k + 1..], x);
    assert [b[k]][1..] == [];
  }

  /** The count does not depend on the order of the entries. */
  lemma {:induction false} CountAbovePermutation(a: seq<real>, b: seq<real>, x: real)
    requires multiset(a) == multiset(b)
    ensures CountAbove(a, x) == CountAbove(b, x)
    decreases |a|
  {
    if |a| == 0 {
      assert |b| == |multiset(b)| == 0;
    } else {
      assert a[0] in multiset(b);
      var k :| 0 <= k < |b| && b[k] == a[0];
      Sorting.TailPermutation(a, b, k);
      CountAbovePermutation(a[1..], b[..k] + b[k + 1..], x);
      CountAboveRemove(b, k, x);
    }
  }

  lemma {:induction false} CountAboveAll(s: seq<real>, x: real)
    requires forall j | 0 <= j < |s| :: s[j] > x
    ensures CountAbove(s, x) == |s|
    decreases |s|
  {
    if |s| > 0 {
      CountAboveAll(s[1..], x);
    }
  }

  lemma {:induction false} CountAboveNone(s: seq<real>, x: real)
    requires forall j | 0 <= j < |s| :: s[j] <= x
    ensures CountAbove(s, x) == 0
    decreases |s|
  {
    if |s| > 0 {
      CountAboveNone(s[1..], x);
    }
  }

  /** Scores from the highest down. */
  ghost predicate NonIncreasing(xs: seq<real>) {
    forall i, j | 0 <= i < j < |xs| :: xs[j] <= xs[i]
  }

  /** Python's `xs.sort(reverse=True)` on scores: the same scores, from the
      highest down. */
  function Descending(xs: seq<real>): (r: seq<real>)
    ensures multiset(r) == multiset(xs)
    ensures NonIncreasing(r)
    ensures forall v | v in xs :: v in r
  {
    var r := Sorting.SortDescendingBy(xs, x => x);
    assert forall v | v in xs :: v in multiset(r);
    r
  }

  /** `(a + 1) / (d + 1)` as a real number. */
  function Ratio(a: nat, d: nat): real {
    ((a + 1) as real) / ((d + 1) as real)
  }

  /** `ModularAnalysis.__calculate_p__`: the position (from 1) of the first
      `x` once `x` and the null scores are sorted from the highest down,
      divided by the number of null scores plus one. */
  function CalculateP(x: real, record: seq<real>): real
  {
    Ratio(Text.IndexOf(Descending([x] + record), x), |record|)
  }

  /** In a sequence sorted from the highest down, the first `x` comes right
      after the entries strictly above `x`. */
  lemma {:induction false} IndexInDescending(total: seq<real>, x: real)
    requires NonIncreasing(total)
    requires x in total
    ensures Text.IndexOf(total, x) == CountAbove(total, x)
  {
    var i := Text.IndexOf(total, x);
    var above, rest := total[..i], total[i..];
    forall j | 0 <= j < |above|
      ensures above[j] > x
    {
      assert above[j] == total[j] && total[i] <= total[j];
      assert above[j] in above;
    }
    forall j | 0 <= j < |rest|
      ensures rest[j] <= x
    {
      assert rest[j] == total[i + j];
    }
    assert total == above + rest;
    CountAboveAll(above, x);
    CountAboveNone(rest, x);
    CountAboveAppend(above, rest, x);
  }

  /** The p-value is one plus the number of null scores strictly above `x`,
      over the number of null scores plus one: a tie counts in the module's
      favour. */
  lemma CalculatePRank(x: real, record: seq<real>)
    ensures CalculateP(x, record) == Ratio(CountAbove(record, x), |record|)
  {
    var total := Descending([x] + record);
    IndexInDescending(total, x);
    CountAbovePermutation(total, [x] + record, x);
    assert ([x] + record)[1..] == record;
  }

  /** Every p-value lies in (0, 1], and a score at least as high as every
      null score gets the smallest one, 1 / (n + 1). */
  lemma PValueRange(x: real, record: seq<real>)
    ensures 0.0 < CalculateP(x, record) <= 1.0
    ensures (forall j | 0 <= j < |record| :: record[j] <= x) ==>
      CalculateP(x, record) == 1.0 / ((|record| + 1) as real)
  {
    CalculatePRank(x, record);
    RatioInUnit(CountAbove(record, x), |record|);
    if forall j | 0 <= j < |record| :: record[j] <= x {
      CountAboveNone(record, x);
    }
  }

  lemma RatioInUnit(a: nat, d: nat)
    requires a <= d
    ensures 0.0 < Ratio(a, d) <= 1.0
  {
    var q := Ratio(a, d);
    assert q * ((d + 1) as real) == (a + 1) as real;
  }

  // ------------------------------------------------------------ selection

  /** A module with the p-value assigned to it. */
  datatype Ranked = Ranked(m: Module, pValue: real)

  /** The modules whose p-value is strictly below the cutoff, in order. */
  function SignificantOnly(rs: seq<Ranked>): (r: seq<Ranked>)
    ensures |r| <= |rs|
    ensures forall t :: t in r <==> t in rs && t.pValue < SignificanceCutoff
  {
    if |rs| == 0 then []
    else
      var rest := SignificantOnly(rs[1..]);
      assert forall t :: t in rs <==> t == rs[0] || t in rs[1..];
      if rs[0].pValue < SignificanceCutoff then [rs[0]] + rest else rest
  }

  /** Every module with its rank p-value against the permutation scores,
      in order. */
  function Scored(ms: seq<Module>, record: seq<real>): (rs: seq<Ranked>)
    ensures |rs| == |ms|
    ensures forall k | 0 <= k < |ms| :: rs[k].m == ms[k]
    ensures forall k | 0 <= k < |ms| :: rs[k].pValue == CalculateP(ms[k].score, record)
  {
    seq(|ms|, k requires 0 <= k < |ms| => Ranked(ms[k], CalculateP(ms[k].score, record)))
  }

  function PValueOf(t: Ranked): real {
    t.pValue
  }

  /** `ModularAnalysis.rank_significance`, rank branch: every module found
      for the real data gets its rank p-value against the permutation
      scores, and `top_modules` is the significant ones sorted by p-value. */
  function RankSignificance(ms: seq<Module>, record: seq<real>): (top: seq<Ranked>)
    ensures Sorting.SortedBy(top, PValueOf)
  {
    Sorting.SortBy(SignificantOnly(Scored(ms, record)), PValueOf)
  }

  /** `top_modules` is exactly the modules with a p-value strictly below
      the cutoff, each with that p-value, as often as they were found. */
  lemma RankSignificanceSpec(ms: seq<Module>, record: seq<real>)
    ensures var top := RankSignificance(ms, record);
      && multiset(top) == multiset(SignificantOnly(Scored(ms, record)))
      && forall t :: t in top <==>
        && t.pValue < SignificanceCutoff
        && exists k | 0 <= k < |ms| :: t == Ranked(ms[k], CalculateP(ms[k].score, record))
  {
    var scored := Scored(ms, record);
    var sig := SignificantOnly(scored);
    var top := RankSignificance(ms, record);
    forall t
      ensures t in top <==> t in sig
    {
      assert t in top <==> t in multiset(top);
    }
    forall t | t in scored
      ensures exists k | 0 <= k < |ms| :: t == Ranked(ms[k], CalculateP(ms[k].score, record))
    {
      var k :| 0 <= k < |scored| && scored[k] == t;
    }
    forall k | 0 <= k < |ms|
      ensures Ranked(ms[k], CalculateP(ms[k].score, record)) in scored
    {
      assert scored[k] == Ranked(ms[k], CalculateP(ms[k].score, record));
    }
  }

  /** Every selected module's p-value lies in (0, 0.05). */
  lemma TopModulesSignificant(ms: seq<Module>, record: seq<real>)
    ensures forall t | t in RankSignificance(ms, record) ::
      0.0 < t.pValue < SignificanceCutoff
  {
    RankSignificanceSpec(ms, record);
    forall t | t in RankSignificance(ms, record)
      ensures 0.0 < t.pValue
    {
      var k :| 0 <= k < |ms| && t == Ranked(ms[k], CalculateP(ms[k].score, record));
      PValueRange(ms[k].score, record);
    }
  }

  // --------------------------------------------------------- permutations

  /** What one permutation contributes: the activity scores of the modules
      its search found, or a single 0 when it found none. */
  function ScoresOrZero(ms: seq<Module>): (r: seq<real>)
    ensures |r| >= 1
    ensures forall m | m in ms :: m.score in r
    ensures forall v | v in r :: v == 0.0 || exists m | m in ms :: v == m.score
  {
    if |ms| == 0 then [0.0]
    else
      var found := seq(|ms|, k requires 0 <= k < |ms| => ms[k].score);
      assert forall k | 0 <= k < |ms| :: found[k] == ms[k].score;
      found
  }

  /** `v` is the score of a module found by one of the searches. */
  ghost predicate FoundScore(searches: seq<seq<Module>>, v: real) {
    exists k, m | 0 <= k < |searches| && m in searches[k] :: v == m.score
  }

  /** The module searches of the permutations, one per sampled trio list. */
  function Searches(ref: Graph, samples: seq<seq<Trio>>, collab: ModuleSearch.Collaborators): seq<seq<Module>>
    requires WellFormed(ref)
  {
    seq(|samples|, k requires 0 <= k < |samples| => ModuleSearch.FindModules(ref, samples[k], collab))
  }

  /** The score lists of the searches, `ScoresOrZero` of each, concatenated
      in search order. */
  function Pooled(all: seq<seq<Module>>): seq<real>
    decreases |all|
  {
    if all == [] then [] else Pooled(all[..|all| - 1]) + ScoresOrZero(all[|all| - 1])
  }

  /** The loop of `ModularAnalysis.do_permutations` over the searches'
      results: the searches' score lists concatenated in order, so at least
      one score per search, every score 0 or the score of a module some
      search found, and every such module's score present. */
  method PoolScores(all: seq<seq<Module>>) returns (scores: seq<real>)
    ensures scores == Pooled(all)
    ensures |scores| >= |all|
    ensures forall v | v in scores :: v == 0.0 || FoundScore(all, v)
    ensures forall k, m: Module | 0 <= k < |all| && m in all[k] :: m.score in scores
  {
    scores := [];
    for i := 0 to |all|
      invariant scores == Pooled(all[..i])
      invariant |scores| >= i
      invariant forall v | v in scores :: v == 0.0 || FoundScore(all[..i], v)
      invariant forall k, m: Module | 0 <= k < i && m in all[k] :: m.score in scores
    {
      var more := ScoresOrZero(all[i]);
      forall v | v in more && v != 0.0
        ensures FoundScore(all[..i + 1], v)
      {
        var m :| m in all[i] && v == m.score;
        assert all[..i + 1][i] == all[i];
      }
      forall v | v in scores && v != 0.0
        ensures FoundScore(all[..i + 1], v)
      {
        var k, m: Module :| 0 <= k < i && m in all[..i][k] && v == m.score;
        assert all[..i + 1][k] == all[..i][k];
      }
      forall k, m: Module | 0 <= k < i + 1 && m in all[k]
        ensures m.score in scores + more
      {
        if k < i {
          assert m.score in scores;
        } else {
          assert m.score in more;
        }
      }
      assert all[..i + 1][..i] == all[..i];
      scores := scores + more;
    }
    assert all[..|all|] == all;
  }

  /** `ModularAnalysis.do_permutations`: one module search per permutation,
      on the trio list mapped from that permutation's sampled features. The
      scores are the searches' score lists concatenated in permutation
      order: at least as many as permutations, every one 0 or the score of
      a module some permutation found, and every such module's score
      present. */
  method DoPermutations(ref: Graph, samples: seq<seq<Trio>>, collab: ModuleSearch.Collaborators)
    returns (scores: seq<real>)
    requires WellFormed(ref)
    ensures scores == Pooled(Searches(ref, samples, collab))
    ensures |scores| >= |samples|
    ensures forall v | v in scores :: v == 0.0 || FoundScore(Searches(ref, samples, collab), v)
    ensures forall k, m: Module | 0 <= k < |samples| && m in Searches(ref, samples, collab)[k] ::
      m.score in scores
  {
    scores := PoolScores(Searches(ref, samples, collab));
  }

  // ----------------------------------------------------------- hit trios

  /** All nodes of the given modules. */
  function TopNodes(top: seq<Ranked>): (ns: set<NodeId>)
    ensures forall x :: x in ns <==> exists k | 0 <= k < |top| :: x in top[k].m.graph.nodes
  {
    if |top| == 0 then {}
    else
      var rest := TopNodes(top[1..]);
      assert forall k | 1 <= k < |top| :: top[k] == top[1..][k - 1];
      top[0].m.graph.nodes + rest
  }

  /** The trios whose compound is in `ns`, in order. */
  function HitsIn(trios: seq<Trio>, ns: set<NodeId>): (r: seq<Trio>)
    ensures |r| <= |trios|
    ensures forall t :: t in r <==> t in trios && CpdIn(t, ns)
    ensures ModuleSearch.IsSubsequence(r, trios)
  {
    if |trios| == 0 then []
    else
      var rest := HitsIn(trios[1..], ns);
      assert forall t :: t in trios <==> t == trios[0] || t in trios[1..];
      if CpdIn(trios[0], ns) then
        assert ([trios[0]] + rest)[1..] == rest;
        [trios[0]] + rest
      else
        rest
  }

  /** `ModularAnalysis.collect_hit_Trios`: the significant trios whose
      compound is a node of some top module, in their original order. A
      trio without a compound is never hit. */
  function CollectHitTrios(top: seq<Ranked>, trios: seq<Trio>): (r: seq<Trio>)
    ensures forall t :: t in r <==>
      && t in trios && t.cpd.Some?
      && exists k | 0 <= k < |top| :: t.cpd.value in top[k].m.graph.nodes
    ensures ModuleSearch.IsSubsequence(r, trios)
  {
    HitsIn(trios, TopNodes(top))
  }

  // ---------------------------------------------------------------- JSON

  /** One entry of the `to_json` list. */
  datatype JsonModule = JsonModule(pValue: real, edges: seq<string>, nodes: seq<NodeId>)

  /** `','.join(e)` for an edge. */
  function EdgeString(e: Edge): string {
    Text.Join([e.lo, e.hi], ',')
  }

  /** An edge between identifiers without commas is recovered from its
      string by splitting on the comma. */
  lemma EdgeStringRoundTrip(e: Edge)
    requires ',' !in e.lo && ',' !in e.hi
    ensures Text.Split(EdgeString(e), ',') == [e.lo, e.hi]
  {
    Text.SplitJoin([e.lo, e.hi], ',');
  }

  /** The entry for one top module: its p-value, one string per edge and
      each node once. */
  function ModuleJson(t: Ranked): (j: JsonModule)
    ensures j.pValue == t.pValue
    ensures forall s :: s in j.edges <==> exists e | e in t.m.graph.edges :: s == EdgeString(e)
    ensures forall x :: x in j.nodes <==> x in t.m.graph.nodes
    ensures |j.nodes| == |t.m.graph.nodes|
  {
    var es := set e | e in t.m.graph.edges :: EdgeString(e);
    JsonModule(t.pValue, Text.SortedSeq(es), Text.SortedSeq(t.m.graph.nodes))
  }

  /** `ModularAnalysis.to_json`: one entry per top module, in order. */
  function ToJson(top: seq<Ranked>): (r: seq<JsonModule>)
    ensures |r| == |top|
    ensures forall k | 0 <= k < |top| ::
      && r[k].pValue == top[k].pValue
      && (forall x :: x in r[k].nodes <==> x in top[k].m.graph.nodes)
  {
    seq(|top|, k requires 0 <= k < |top| => ModuleJson(top[k]))
  }
}

=== FILE: sorting.dfy ===
/** Python's `sorted(xs, key=..., reverse=...)` followed by slicing: a stable
    insertion sort on a real-valued key, and the "top n" selection built on
    it. A descending sort is the ascending sort on the negated key; because
    Python's `reverse=True` keeps equal keys in their original order, the two
    agree element for element. */
module Sorting {
  import opened Wrappers

  /** Keys never decrease along `xs`. */
  ghost predicate SortedBy<T>(xs: seq<T>, key: T -> real) {
    forall i, j | 0 <= i < j < |xs| :: key(xs[i]) <= key(xs[j])
  }

  /** The key that orders by `key` from largest to smallest. */
  function Negated<T>(key: T -> real): T -> real
  {
    x => -key(x)
  }

  /** Putting an element no larger than the head in front keeps the order. */
  lemma SortedCons<T>(h: T, rest: seq<T>, key: T -> real)
    requires SortedBy(rest, key)
    requires |rest| > 0 ==> key(h) <= key(rest[0])
    ensures SortedBy([h] + rest, key)
  {
    var r := [h] + rest;
    forall i, j | 0 <= i < j < |r|
      ensures key(r[i]) <= key(r[j])
    {
      if i == 0 {
        assert r[j] == rest[j - 1];
        assert key(rest[0]) <= key(rest[j - 1]);
      } else {
        assert r[i] == rest[i - 1] && r[j] == rest[j - 1];
      }
    }
  }

  /** Inserts `x` before the first element whose key is not smaller, so that
      `x` precedes the equal keys that came after it in the input. */
  function InsertBy<T>(x: T, ys: seq<T>, key: T -> real): (r: seq<T>)
    requires SortedBy(ys, key)
    ensures SortedBy(r, key)
    ensures multiset(r) == multiset(ys) + multiset{x}
    ensures |r| == |ys| + 1
    ensures r[0] == (if |ys| == 0 || key(x) <= key(ys[0]) then x else ys[0])
  {
    if |ys| == 0 || key(x) <= key(ys[0]) then
      SortedCons(x, ys, key);
      [x] + ys
    else
      assert ys == [ys[0]] + ys[1..];
      assert |ys| > 1 ==> key(ys[0]) <= key(ys[1]);
      SortedCons(ys[0], InsertBy(x, ys[1..], key), key);
      [ys[0]] + InsertBy(x, ys[1..], key)
  }

  /** Index of the first element of `xs` with the smallest key. */
  function FirstMinIndex<T>(xs: seq<T>, key: T -> real): (i: nat)
    requires |xs| > 0
    ensures i < |xs|
    ensures forall j | 0 <= j < |xs| :: key(xs[i]) <= key(xs[j])
    ensures forall j | 0 <= j < i :: key(xs[i]) < key(xs[j])
  {
    if |xs| == 1 then 0
    else
      var k := FirstMinIndex(xs[1..], key);
      if key(xs[0]) <= key(xs[1 + k]) then 0 else 1 + k
  }

  /** Stable sort by ascending key: a permutation of `xs` whose keys never
      decrease and whose head is the first input element with the least key. */
  function SortBy<T>(xs: seq<T>, key: T -> real): (r: seq<T>)
    ensures SortedBy(r, key)
    ensures multiset(r) == multiset(xs)
    ensures |r| == |xs|
    ensures |xs| > 0 ==> r[0] == xs[FirstMinIndex(xs, key)]
  {
    if |xs| == 0 then []
    else
      assert xs == [xs[0]] + xs[1..];
      InsertBy(xs[0], SortBy(xs[1..], key), key)
  }

  /** The test for key `v`. */
  function HasKey<T>(key: T -> real, v: real): T -> bool {
    x => key(x) == v
  }

  /** The elements of `xs` whose key is `v`, in order. */
  function WithKey<T>(xs: seq<T>, key: T -> real, v: real): seq<T> {
    Filter(xs, HasKey(key, v))
  }

  /** Inserting `x` puts it before every element of equal key already
      there. */
  lemma {:induction false} InsertByStable<T>(x: T, ys: seq<T>, key: T -> real, v: real)
    requires SortedBy(ys, key)
    ensures WithKey(InsertBy(x, ys, key), key, v) == (if key(x) == v then [x] else []) + WithKey(ys, key, v)
    decreases |ys|
  {
    var p := HasKey(key, v);
    var fx := if key(x) == v then [x] else [];
    assert p(x) == (key(x) == v);
    if |ys| == 0 || key(x) <= key(ys[0]) {
      assert InsertBy(x, ys, key) == [x] + ys;
      FilterCons(x, ys, p);
    } else {
      var h, t := ys[0], ys[1..];
      assert ys == [h] + t;
      assert SortedBy(t, key);
      var fh := if key(h) == v then [h] else [];
      assert p(h) == (key(h) == v);
      var ins := InsertBy(x, t, key);
      assert InsertBy(x, ys, key) == [h] + ins;
      InsertByStable(x, t, key, v);
      FilterCons(h, ins, p);
      FilterCons(h, t, p);
      assert Filter([h] + ins, p) == fh + (fx + Filter(t, p));
      SwapFront(fh, fx, Filter(t, p));
      assert Filter(ys, p) == fh + Filter(t, p);
    }
  }

  /** Two fronts of which one is empty can be put in either order. */
  lemma SwapFront<T>(a: seq<T>, b: seq<T>, rest: seq<T>)
    requires a == [] || b == []
    ensures a + (b + rest) == b + (a + rest)
  {
    if a == [] {
      assert a + (b + rest) == b + rest == b + (a + rest);
    } else {
      assert a + (b + rest) == a + rest == b + (a + rest);
    }
  }

  /** The sort is stable: the elements of each key come out in their input
      order. */
  lemma {:induction false} SortByStable<T>(xs: seq<T>, key: T -> real, v: real)
    ensures WithKey(SortBy(xs, key), key, v) == WithKey(xs, key, v)
    decreases |xs|
  {
    if |xs| > 0 {
      assert xs == [xs[0]] + xs[1..];
      SortByStable(xs[1..], key, v);
      InsertByStable(xs[0], SortBy(xs[1..], key), key, v);
      FilterCons(xs[0], xs[1..], HasKey(key, v));
    }
  }

  /** Python's `xs[:n]` for any integer `n`; a negative `n` drops `-n`
      elements from the end. */
  function PyPrefix<T>(xs: seq<T>, n: int): (r: seq<T>)
    ensures r <= xs
    ensures 0 <= n ==> |r| == (if n <= |xs| then n else |xs|)
    ensures n < 0 ==> |r| == (if |xs| + n >= 0 then |xs| + n else 0)
  {
    if 0 <= n then (if n <= |xs| then xs[..n] else xs)
    else if |xs| + n >= 0 then xs[..|xs| + n]
    else []
  }

  /** Keys never increase along `xs`. */
  ghost predicate DescendingBy<T>(xs: seq<T>, key: T -> real) {
    forall i, j | 0 <= i < j < |xs| :: key(xs[j]) <= key(xs[i])
  }

  /** Index of the first element of `xs` with the largest key. */
  function FirstMaxIndex<T>(xs: seq<T>, key: T -> real): (i: nat)
    requires |xs| > 0
    ensures i < |xs|
    ensures forall j | 0 <= j < |xs| :: key(xs[j]) <= key(xs[i])
    ensures forall j | 0 <= j < i :: key(xs[j]) < key(xs[i])
  {
    var i := FirstMinIndex(xs, Negated(key));
    assert forall j | 0 <= j < |xs| :: -key(xs[i]) <= -key(xs[j]);
    assert forall j | 0 <= j < i :: -key(xs[i]) < -key(xs[j]);
    i
  }

  /** Python's `sorted(xs, key=key, reverse=True)`: a permutation of `xs`
      whose keys never increase and whose head is the first input element
      with the largest key (the reversed sort is stable too). */
  function SortDescendingBy<T>(xs: seq<T>, key: T -> real): (r: seq<T>)
    ensures DescendingBy(r, key)
    ensures multiset(r) == multiset(xs)
    ensures |r| == |xs|
    ensures |xs| > 0 ==> r[0] == xs[FirstMaxIndex(xs, key)]
  {
    assert forall i, j | 0 <= i < j < |SortBy(xs, Negated(key))| ::
      -key(SortBy(xs, Negated(key))[i]) <= -key(SortBy(xs, Negated(key))[j]);
    SortBy(xs, Negated(key))
  }

  /** The negated key is `-v` exactly where the key is `v`. */
  lemma NegatedKey<T>(key: T -> real, v: real)
    ensures forall x :: HasKey(Negated(key), -v)(x) == HasKey(key, v)(x)
  {
  }

  /** The descending sort is stable too, as `reverse=True` is: the elements
      of each key come out in their input order. */
  lemma SortDescendingStable<T>(xs: seq<T>, key: T -> real, v: real)
    ensures WithKey(SortDescendingBy(xs, key), key, v) == WithKey(xs, key, v)
  {
    var neg := Negated(key);
    var s := SortBy(xs, neg);
    assert SortDescendingBy(xs, key) == s;
    SortByStable(xs, neg, -v);
    NegatedKey(key, v);
    FilterSame(s, HasKey(neg, -v), HasKey(key, v));
    FilterSame(xs, HasKey(neg, -v), HasKey(key, v));
    assert Filter(s, HasKey(key, v)) == Filter(xs, HasKey(key, v));
  }

  /** The shape shared by the top-n helpers: `xs` itself when it has at most
      `n` elements, otherwise the first `n` (Python's `[:n]`) of the
      descending sort. */
  function TopN<T>(xs: seq<T>, n: int, key: T -> real): (r: seq<T>)
    ensures |xs| <= n ==> r == xs
    ensures n < |xs| ==> DescendingBy(r, key)
    ensures 0 <= n < |xs| ==> |r| == n
    ensures multiset(r) <= multiset(xs)
  {
    if |xs| <= n then xs
    else
      PrefixMultiset(SortDescendingBy(xs, key), PyPrefix(SortDescendingBy(xs, key), n));
      PyPrefix(SortDescendingBy(xs, key), n)
  }

  /** Among elements of equal key, `TopN` keeps the earliest in the input:
      the kept elements of each key are a prefix of that key's elements. */
  lemma TopNStable<T>(xs: seq<T>, n: int, key: T -> real)
    ensures forall v :: WithKey(TopN(xs, n, key), key, v) <= WithKey(xs, key, v)
  {
    forall v
      ensures WithKey(TopN(xs, n, key), key, v) <= WithKey(xs, key, v)
    {
      TopNStableAt(xs, n, key, v);
    }
  }

  lemma TopNStableAt<T>(xs: seq<T>, n: int, key: T -> real, v: real)
    ensures WithKey(TopN(xs, n, key), key, v) <= WithKey(xs, key, v)
  {
    if n < |xs| {
      var s := SortDescendingBy(xs, key);
      var r := TopN(xs, n, key);
      assert s == r + s[|r|..];
      FilterAppend(r, s[|r|..], HasKey(key, v));
      SortDescendingStable(xs, key, v);
    }
  }

  /** Taking out the element at `k` takes one occurrence out of the
      multiset. */
  lemma RemoveAt<T>(b: seq<T>, k: nat)
    requires k < |b|
    ensures b == b[..k] + ([b[k]] + b[k + 1..])
    ensures multiset(b[..k] + b[k + 1..]) == multiset(b) - multiset{b[k]}
  {
    assert b == b[..k] + ([b[k]] + b[k + 1..]);
    assert multiset(b) == multiset(b[..k]) + multiset{b[k]} + multiset(b[k + 1..]);
  }

  /** Removing the same element from two permutations of each other leaves
      permutations of each other. */
  lemma TailPermutation<T>(a: seq<T>, b: seq<T>, k: nat)
    requires multiset(a) == multiset(b) && a != [] && k < |b| && b[k] == a[0]
    ensures multiset(a[1..]) == multiset(b[..k] + b[k + 1..])
  {
    RemoveAt(b, k);
    assert a == [a[0]] + a[1..];
  }

  lemma PrefixMultiset<T>(s: seq<T>, p: seq<T>)
    requires p <= s
    ensures multiset(p) <= multiset(s)
    ensures multiset(s) - multiset(p) == multiset(s[|p|..])
  {
    assert s == p + s[|p|..];
  }

  /** When `TopN` cuts, no element it drops has a larger key than an
      element it keeps. */
  lemma TopNKeepsLargest<T>(xs: seq<T>, n: int, key: T -> real)
    requires n < |xs|
    ensures var r := TopN(xs, n, key);
      forall a, b | a in r && b in multiset(xs) - multiset(r) :: key(b) <= key(a)
  {
    var s := SortDescendingBy(xs, key);
    var r := TopN(xs, n, key);
    PrefixMultiset(s, r);
    forall a, b | a in r && b in multiset(xs) - multiset(r)
      ensures key(b) <= key(a)
    {
      var i :| 0 <= i < |r| && r[i] == a;
      assert b in s[|r|..];
      var j :| |r| <= j < |s| && s[j] == b;
      assert s[i] == a;
    }
  }
}

=== FILE: text.dfy ===
/** The string operations the original program borrows from Python's `str`:
    `split` on one delimiter and its inverse `join`, `strip`, code-point
    ordering of strings (`<` on `str`), sorting a set of strings, and `''.join`. */
module Text {

  // ---------------------------------------------------------------- split

  /** Python's `s.index(d)`: the index of the first occurrence of `d` in
      `s`, for strings and lists alike. */
  function IndexOf<T(==)>(s: seq<T>, d: T): (i: nat)
    requires d in s
    ensures i < |s| && s[i] == d
    ensures d !in s[..i]
  {
    if s[0] == d then 0
    else
      assert s == [s[0]] + s[1..];
      1 + IndexOf(s[1..], d)
  }

  /** Python's `sep.join(parts)` for a one-character separator. */
  function Join(parts: seq<string>, d: char): string
  {
    if |parts| == 0 then ""
    else if |parts| == 1 then parts[0]
    else parts[0] + [d] + Join(parts[1..], d)
  }

  /** Python's `s.split(d)`: the pieces between occurrences of `d`, empty
      pieces included, so there is always at least one piece. Joining the
      pieces gives `s` back. */
  function Split(s: string, d: char): (r: seq<string>)
    ensures |r| >= 1
    ensures Join(r, d) == s
    decreases |s|
  {
    if d !in s then [s]
    else
      var i := IndexOf(s, d);
      assert s == s[..i] + [d] + s[i + 1..];
      [s[..i]] + Split(s[i + 1..], d)
  }

  /** No piece of a split contains the separator. */
  lemma {:induction false} SplitPieces(s: string, d: char)
    ensures forall k | 0 <= k < |Split(s, d)| :: d !in Split(s, d)[k]
    decreases |s|
  {
    if d in s {
      var i := IndexOf(s, d);
      var rest := Split(s[i + 1..], d);
      SplitPieces(s[i + 1..], d);
      assert Split(s, d) == [s[..i]] + rest;
      assert forall k | 1 <= k < |Split(s, d)| :: Split(s, d)[k] == rest[k - 1];
    }
  }

  /** The first separator in a join is the one right after the first part. */
  lemma JoinFirstSeparator(parts: seq<string>, d: char)
    requires |parts| > 1
    requires d !in parts[0]
    ensures d in Join(parts, d)
    ensures IndexOf(Join(parts, d), d) == |parts[0]|
    ensures Join(parts, d)[|parts[0]| + 1..] == Join(parts[1..], d)
  {
    var s := Join(parts, d);
    assert s == parts[0] + [d] + Join(parts[1..], d);
    assert s[|parts[0]|] == d;
    assert s[..|parts[0]|] == parts[0];
  }

  /** Splitting a join gives the parts back, provided no part contains the
      separator: `split` and `join` are inverse on such lists. */
  lemma {:induction false} SplitJoin(parts: seq<string>, d: char)
    requires |parts| >= 1
    requires forall i | 0 <= i < |parts| :: d !in parts[i]
    ensures Split(Join(parts, d), d) == parts
    decreases |parts|
  {
    if |parts| > 1 {
      var s := Join(parts, d);
      JoinFirstSeparator(parts, d);
      SplitJoin(parts[1..], d);
      assert s[..|parts[0]|] == parts[0];
      assert Split(s, d) == [s[..|parts[0]|]] + Split(s[|parts[0]| + 1..], d);
      assert parts == [parts[0]] + parts[1..];
    }
  }

  /** Python's `s.startswith(p)`: `p` is a prefix of `s`. */
  predicate StartsWith(s: string, p: string)
    decreases |p|
  {
    |p| == 0 || (|s| > 0 && s[0] == p[0] && StartsWith(s[1..], p[1..]))
  }

  // ---------------------------------------------------------------- strip

  /** The characters Python's `str.isspace` accepts. */
  const SpaceChars: set<char> := {
    ' ', '\t', '\n', '\r', '\U{000B}', '\U{000C}',
    '\U{001C}', '\U{001D}', '\U{001E}', '\U{001F}',
    '\U{0085}', '\U{00A0}', '\U{1680}',
    '\U{2000}', '\U{2001}', '\U{2002}', '\U{2003}', '\U{2004}', '\U{2005}',
    '\U{2006}', '\U{2007}', '\U{2008}', '\U{2009}', '\U{200A}',
    '\U{2028}', '\U{2029}', '\U{202F}', '\U{205F}', '\U{3000}'
  }

  predicate IsSpace(c: char) {
    c in SpaceChars
  }

  /** Every character of `s` from index `lo` up to `hi` is whitespace. */
  ghost predicate SpaceBetween(s: string, lo: int, hi: int) {
    forall k | lo <= k < hi && 0 <= k < |s| :: IsSpace(s[k])
  }

  /** The number of whitespace characters at the start of `s`. */
  function LeadingSpaces(s: string): (n: nat)
    ensures n <= |s|
    ensures SpaceBetween(s, 0, n)
    ensures n == |s| || !IsSpace(s[n])
  {
    if |s| > 0 && IsSpace(s[0]) then 1 + LeadingSpaces(s[1..]) else 0
  }

  /** Where the whitespace at the end of `s` begins. */
  function TrailingStart(s: string): (n: nat)
    ensures n <= |s|
    ensures SpaceBetween(s, n, |s|)
    ensures n == 0 || !IsSpace(s[n - 1])
  {
    if |s| > 0 && IsSpace(s[|s| - 1]) then TrailingStart(s[..|s| - 1]) else |s|
  }

  /** Python's `s.rstrip()`: `s` without its trailing whitespace, all of
      which is cut away. */
  function RStrip(s: string): (r: string)
    ensures r <= s && SpaceBetween(s, |r|, |s|)
    ensures |r| == 0 || !IsSpace(r[|r| - 1])
  {
    s[..TrailingStart(s)]
  }

  /** Python's `s.strip()`: `s` without its leading and trailing
      whitespace. The result neither starts nor ends with whitespace. */
  function Strip(s: string): (r: string)
    ensures |r| == 0 || (!IsSpace(r[0]) && !IsSpace(r[|r| - 1]))
  {
    if LeadingSpaces(s) == |s| then ""
    else
      assert LeadingSpaces(s) < TrailingStart(s);
      s[LeadingSpaces(s)..TrailingStart(s)]
  }

  /** The stripped string is a slice of `s`, and everything cut away on
      either side is whitespace. */
  lemma StripSpec(s: string)
    ensures var r := Strip(s);
      var i := LeadingSpaces(s);
      && i + |r| <= |s|
      && r == s[i..i + |r|]
      && SpaceBetween(s, 0, i)
      && SpaceBetween(s, i + |r|, |s|)
  {
    if LeadingSpaces(s) < |s| {
      assert LeadingSpaces(s) < TrailingStart(s);
    }
  }

  // ------------------------------------------------------------- ordering

  /** Python's `a < b` on `str`: lexicographic on code points, a proper
      prefix before its extensions. */
  predicate LexLess(a: string, b: string)
  {
    if |a| == 0 then |b| > 0
    else |b| > 0 && (a[0] < b[0] || (a[0] == b[0] && LexLess(a[1..], b[1..])))
  }

  lemma {:induction false} LexLessIrreflexive(a: string)
    ensures !LexLess(a, a)
  {
    if |a| > 0 {
      LexLessIrreflexive(a[1..]);
    }
  }

  lemma {:induction false} LexLessTransitive(a: string, b: string, c: string)
    requires LexLess(a, b) && LexLess(b, c)
    ensures LexLess(a, c)
  {
    if |a| > 0 && a[0] == b[0] && b[0] == c[0] {
      LexLessTransitive(a[1..], b[1..], c[1..]);
    }
  }

  lemma {:induction false} LexLessTotal(a: string, b: string)
    requires a != b
    ensures LexLess(a, b) || LexLess(b, a)
  {
    if |a| > 0 && |b| > 0 && a[0] == b[0] {
      assert a == [a[0]] + a[1..];
      assert b == [b[0]] + b[1..];
      LexLessTotal(a[1..], b[1..]);
    }
  }

  /** `xs` is in strictly increasing string order. */
  ghost predicate StrictlySorted(xs: seq<string>) {
    forall i, j | 0 <= i < j < |xs| :: LexLess(xs[i], xs[j])
  }

  /** `m` is in `s` and comes before every other string of `s`. */
  predicate IsLeast(m: string, s: set<string>) {
    m in s && forall y | y in s && y != m :: LexLess(m, y)
  }

  /** A non-empty finite set of strings has a least element. */
  lemma {:induction false} LeastExists(s: set<string>)
    requires s != {}
    ensures exists m :: IsLeast(m, s)
    decreases |s|
  {
    var x :| x in s;
    if s == {x} {
      assert IsLeast(x, s);
    } else {
      var rest := s - {x};
      LeastExists(rest);
      var m :| IsLeast(m, rest);
      if LexLess(x, m) {
        forall y | y in s && y != x
          ensures LexLess(x, y)
        {
          if y != m {
            LexLessTransitive(x, m, y);
          }
        }
        assert IsLeast(x, s);
      } else {
        LexLessTotal(x, m);
        assert IsLeast(m, s);
      }
    }
  }

  /** The least string of a non-empty set. */
  function Least(s: set<string>): (m: string)
    requires s != {}
    ensures m in s
    ensures forall y | y in s && y != m :: LexLess(m, y)
  {
    LeastExists(s);
    LeastUnique(s);
    var m :| IsLeast(m, s);
    m
  }

  /** A set has at most one least element. */
  lemma LeastUnique(s: set<string>)
    ensures forall m, m' | IsLeast(m, s) && IsLeast(m', s) :: m == m'
  {
    forall m, m' | IsLeast(m, s) && IsLeast(m', s)
      ensures m == m'
    {
      if m != m' {
        LexLessTransitive(m, m', m);
        LexLessIrreflexive(m);
      }
    }
  }

  /** Python's `sorted(s)` for a set of strings. */
  function SortedSeq(s: set<string>): (r: seq<string>)
    ensures |r| == |s|
    ensures forall x :: x in r <==> x in s
    ensures StrictlySorted(r)
    decreases |s|
  {
    if s == {} then []
    else
      var m := Least(s);
      var rest := SortedSeq(s - {m});
      assert forall i | 0 <= i < |rest| :: rest[i] in s - {m};
      [m] + rest
  }

  /** Two strictly sorted sequences with the same elements are equal, so
      `SortedSeq(s)` is the only sorted listing of `s`. */
  lemma {:induction false} SortedUnique(a: seq<string>, b: seq<string>)
    requires StrictlySorted(a) && StrictlySorted(b)
    requires forall x :: x in a <==> x in b
    ensures a == b
  {
    if |a| > 0 && |b| > 0 {
      assert a[0] in a && b[0] in b;
      if a[0] != b[0] {
        var i :| 0 <= i < |b| && b[i] == a[0];
        var j :| 0 <= j < |a| && a[j] == b[0];
        assert i > 0 && j > 0;
        LexLessTransitive(a[0], a[j], b[i]);
        LexLessIrreflexive(a[0]);
      }
      forall x
        ensures x in a[1..] <==> x in b[1..]
      {
        if x in a[1..] {
          var k :| 1 <= k < |a| && a[k] == x;
          LexLessIrreflexive(x);
          assert x in b;
          var k' :| 0 <= k' < |b| && b[k'] == x;
          assert k' != 0;
          assert b[1..][k' - 1] == x;
        }
        if x in b[1..] {
          var k :| 1 <= k < |b| && b[k] == x;
          LexLessIrreflexive(x);
          assert x in a;
          var k' :| 0 <= k' < |a| && a[k'] == x;
          assert k' != 0;
          assert a[1..][k' - 1] == x;
        }
      }
      SortedUnique(a[1..], b[1..]);
      assert a == [a[0]] + a[1..];
      assert b == [b[0]] + b[1..];
    }
    assert |a| > 0 ==> a[0] in b;
    assert |b| > 0 ==> b[0] in a;
  }

  // --------------------------------------------------------------- concat

  /** Python's `''.join(xs)`. */
  function Concat(xs: seq<string>): string
  {
    if |xs| == 0 then "" else xs[0] + Concat(xs[1..])
  }

  lemma {:induction false} ConcatLength(xs: seq<string>, k: nat)
    requires forall i | 0 <= i < |xs| :: |xs[i]| == k
    ensures |Concat(xs)| == k * |xs|
  {
    if |xs| > 0 {
      ConcatLength(xs[1..], k);
    }
  }

  /** When every string has the same non-zero length, `''.join` loses
      nothing: equal concatenations come from equal lists. */
  lemma {:induction false} ConcatInjective(a: seq<string>, b: seq<string>, k: nat)
    requires k > 0
    requires forall i | 0 <= i < |a| :: |a[i]| == k
    requires forall i | 0 <= i < |b| :: |b[i]| == k
    requires Concat(a) == Concat(b)
    ensures a == b
  {
    ConcatLength(a, k);
    ConcatLength(b, k);
    if |a| > 0 {
      assert |b| > 0;
      assert Concat(a)[..k] == a[0];
      assert Concat(b)[..k] == b[0];
      assert Concat(a)[k..] == Concat(a[1..]);
      assert Concat(b)[k..] == Concat(b[1..]);
      ConcatInjective(a[1..], b[1..], k);
      assert a == [a[0]] + a[1..];
      assert b == [b[0]] + b[1..];
    }
  }
}

=== FILE: trios.dfy ===
/** Trios tie a measured feature to a compound of the metabolic network
    through the empirical compound that groups its candidate identities. */
module Trios {
  import opened Wrappers
  import opened Graphs

  /** A compound key as the feature-to-compound mapping produces it: a
      compound identifier, or Python's `None` when an annotation entry lacks
      the identifier field. */
  type CpdKey = Option<string>

  /** `(feature, empirical compound, compound)`. */
  datatype Trio = Trio(feature: string, empCpd: string, cpd: CpdKey)

  /** The compound identifiers of a trio list (`[x[2] for x in TrioList]`,
      read as a membership test on network nodes; `None` is never a node). */
  function SeedSet(trios: seq<Trio>): set<NodeId> {
    set i | 0 <= i < |trios| && trios[i].cpd.Some? :: trios[i].cpd.value
  }

  /** The compound of `t` is a node in `nodes`. */
  predicate CpdIn(t: Trio, nodes: set<NodeId>) {
    t.cpd.Some? && t.cpd.value in nodes
  }

  /** The empirical compounds mentioned in a trio list. */
  function Groups(trios: seq<Trio>): set<string> {
    set i | 0 <= i < |trios| :: trios[i].empCpd
  }

  /** The empirical compounds of the trios whose compound is in `nodes`. */
  function GroupsIn(trios: seq<Trio>, nodes: set<NodeId>): (gs: set<string>)
    ensures gs <= Groups(trios)
  {
    set i | 0 <= i < |trios| && CpdIn(trios[i], nodes) :: trios[i].empCpd
  }
}

=== FILE: userdata.dfy ===
/** The user's feature table (`InputUserData`): the rows of a tab-separated
    text become features, those outside the m/z range are dropped, and a
    p-value cutoff, the user's or one chosen near a p-value hotspot, marks
    the significant features whose identifiers seed the analysis. */
module UserData {
  import opened Wrappers
  import Text
  import Sorting

  /** Rows are kept only when their m/z lies strictly inside this range. */
  const MassRangeLow: real := 50.0
  const MassRangeHigh: real := 2000.0

  /** The candidate cutoffs of the automatic choice, from the loosest down. */
  const PHotspots: seq<real> := [0.2, 0.1, 0.05, 0.01, 0.005, 0.001, 0.0001]
  /** A hotspot is preferred when it selects more than this many features… */
  const NOptimum: real := 300.0
  /** …and accepted, failing that, when it selects more than this many. */
  const NMinimum: real := 30.0

  /** A row of the feature table. `fidFromUser` is the user's own
      identifier for the feature, or the generated one. */
  datatype Feature = Feature(
    idNumber: string,
    id: string,
    fidFromUser: string,
    mz: real,
    rtime: real,
    pval: real,
    statistic: real)

  /** Python's `float()` on a column, `None` when it does not parse, and
      the identifier `_make_id(row, mz, rt)` builds from the 1-based row
      number. Both are supplied by the caller. */
  datatype Parsers = Parsers(parseFloat: string -> Option<real>, makeId: (nat, real, real) -> string)

  // ----------------------------------------------------------------- rows

  predicate InMassRange(mz: real) {
    MassRangeLow < mz < MassRangeHigh
  }

  /** Column 5, stripped, when the row has one; otherwise empty. */
  function UserId(y: seq<string>): string {
    if |y| > 4 then Text.Strip(y[4]) else ""
  }

  /** `[float(x) for x in y[:4]]`. */
  function ParseColumns(y: seq<string>, p: Parsers): (r: Result<seq<real>>)
    ensures r.Success? ==> |r.value| == if |y| < 4 then |y| else 4
  {
    MapResult(y[..if |y| < 4 then |y| else 4],
      x => if p.parseFloat(x).Some? then Success(p.parseFloat(x).value)
           else Failure("ValueError: could not convert string to float"))
  }

  /** One data row, `ii` counting from 0: `Failure` when a column does not
      parse or there are fewer than four, `None` for a row outside the mass
      range, otherwise the feature, named by its 1-based row number. */
  function ParseRow(ii: nat, line: string, p: Parsers): (r: Result<Option<Feature>>)
    ensures r.Success? && r.value.Some? ==> InMassRange(r.value.value.mz)
  {
    ParseFields(ii, Text.Split(line, '\t'), p)
  }

  /** `ParseRow` on the tab-separated fields `y` of the row. */
  function ParseFields(ii: nat, y: seq<string>, p: Parsers): (r: Result<Option<Feature>>)
    ensures r.Success? && r.value.Some? ==> InMassRange(r.value.value.mz)
  {
    var cols :- ParseColumns(y, p);
    if |cols| < 4 then Failure("ValueError: not enough values to unpack")
    else if InMassRange(cols[0]) then
      var fid := p.makeId(ii + 1, cols[0], cols[1]);
      Success(Some(Feature(fid, fid, if UserId(y) == "" then fid else UserId(y), cols[0], cols[1], cols[2], cols[3])))
    else
      Success(None)
  }

  /** A row parses exactly when it has four columns and they parse. */
  lemma ParseRowSucceeds(ii: nat, y: seq<string>, p: Parsers)
    ensures ParseFields(ii, y, p).Success? <==> |y| >= 4 && forall k | 0 <= k < 4 :: p.parseFloat(y[k]).Some?
  {
    var f := x => if p.parseFloat(x).Some? then Success(p.parseFloat(x).value)
                  else Failure("ValueError: could not convert string to float");
    var head := y[..if |y| < 4 then |y| else 4];
    MapResultSpec(head, f);
    assert forall k | 0 <= k < |head| :: head[k] == y[k];
  }

  /** A parsed row is kept exactly when its m/z, the first column, is
      strictly between 50 and 2000; the feature takes its m/z, retention
      time, p-value and statistic from columns 1 to 4, is named by the
      generated identifier of its 1-based row number, and the user's
      identifier is the stripped fifth column unless that is missing or
      empty, when it is the generated identifier. */
  lemma ParseRowSpec(ii: nat, y: seq<string>, p: Parsers)
    requires ParseFields(ii, y, p).Success?
    ensures |y| >= 4 && forall k | 0 <= k < 4 :: p.parseFloat(y[k]).Some?
    ensures ParseFields(ii, y, p).value.Some? <==> InMassRange(p.parseFloat(y[0]).value)
    ensures ParseFields(ii, y, p).value.Some? ==>
      && ParseFields(ii, y, p).value.value.id == ParseFields(ii, y, p).value.value.idNumber
      && ParseFields(ii, y, p).value.value.id == p.makeId(ii + 1, p.parseFloat(y[0]).value, p.parseFloat(y[1]).value)
      && ParseFields(ii, y, p).value.value.mz == p.parseFloat(y[0]).value
      && ParseFields(ii, y, p).value.value.rtime == p.parseFloat(y[1]).value
      && ParseFields(ii, y, p).value.value.pval == p.parseFloat(y[2]).value
      && ParseFields(ii, y, p).value.value.statistic == p.parseFloat(y[3]).value
      && (|y| > 4 && Text.Strip(y[4]) != "" ==> ParseFields(ii, y, p).value.value.fidFromUser == Text.Strip(y[4]))
      && (|y| <= 4 || Text.Strip(y[4]) == "" ==>
            ParseFields(ii, y, p).value.value.fidFromUser == ParseFields(ii, y, p).value.value.id)
  {
    var f := x => if p.parseFloat(x).Some? then Success(p.parseFloat(x).value)
                  else Failure("ValueError: could not convert string to float");
    var head := y[..if |y| < 4 then |y| else 4];
    MapResultSpec(head, f);
    assert forall k | 0 <= k < |head| :: head[k] == y[k];
  }

  /** The features of the data rows, in row order; the first row that does
      not parse stops the reading. */
  function ParseRows(rows: seq<string>, p: Parsers): (r: Result<seq<Feature>>)
    ensures r.Success? ==> |r.value| <= |rows|
  {
    CollectResults(rows, (i, line) => ParseRow(i, line, p))
  }

  /** Reading succeeds exactly when every row parses, and then yields
      exactly the features of the rows in the mass range. */
  lemma ParseRowsSpec(rows: seq<string>, p: Parsers)
    ensures ParseRows(rows, p).Success? <==> forall i | 0 <= i < |rows| :: ParseRow(i, rows[i], p).Success?
    ensures ParseRows(rows, p).Success? ==>
      forall f :: f in ParseRows(rows, p).value <==> exists i | 0 <= i < |rows| :: ParseRow(i, rows[i], p) == Success(Some(f))
  {
    CollectResultsSpec(rows, (i, line) => ParseRow(i, line, p));
  }

  /** Every feature read is in the mass range. */
  lemma ParseRowsInRange(rows: seq<string>, p: Parsers)
    ensures ParseRows(rows, p).Success? ==>
      forall k | 0 <= k < |ParseRows(rows, p).value| :: InMassRange(ParseRows(rows, p).value[k].mz)
  {
    if ParseRows(rows, p).Success? {
      var fs := ParseRows(rows, p).value;
      ParseRowsSpec(rows, p);
      forall k | 0 <= k < |fs|
        ensures InMassRange(fs[k].mz)
      {
        assert fs[k] in fs;
        var i :| 0 <= i < |rows| && ParseRow(i, rows[i], p) == Success(Some(fs[k]));
      }
    }
  }

  /** `text_to_ListOfUserFeatures` on the lines of the text: the header
      fields, split on tabs after trailing whitespace is removed, and the
      features of the remaining lines. A text without lines fails, as
      `lines[0]` does. */
  function ReadTable(lines: seq<string>, p: Parsers): (r: Result<(seq<string>, seq<Feature>)>)
    ensures r.Failure? <==> lines == [] || ParseRows(lines[1..], p).Failure?
  {
    if lines == [] then Failure("IndexError: list index out of range")
    else
      var fs :- ParseRows(lines[1..], p);
      Success((Text.Split(Text.RStrip(lines[0]), '\t'), fs))
  }

  // --------------------------------------------------------------- cutoff

  /** `len([x for x in fs if x['pval'] < pp])`. */
  function CountBelow(fs: seq<Feature>, pp: real): (n: nat)
    ensures n <= |fs|
  {
    if fs == [] then 0
    else (if fs[0].pval < pp then 1 else 0) + CountBelow(fs[1..], pp)
  }

  /** A looser threshold selects at least as many features. */
  lemma {:induction false} CountBelowMonotone(fs: seq<Feature>, lo: real, hi: real)
    requires lo <= hi
    ensures CountBelow(fs, lo) <= CountBelow(fs, hi)
  {
    if fs != [] {
      CountBelowMonotone(fs[1..], lo, hi);
    }
  }

  lemma {:induction false} CountBelowAppend(a: seq<Feature>, b: seq<Feature>, pp: real)
    ensures CountBelow(a + b, pp) == CountBelow(a, pp) + CountBelow(b, pp)
  {
    if a == [] {
      assert a + b == b;
    } else {
      assert (a + b)[1..] == a[1..] + b;
      CountBelowAppend(a[1..], b, pp);
    }
  }

  /** The count does not depend on the order of the features. */
  lemma {:induction false} CountBelowPermutation(a: seq<Feature>, b: seq<Feature>, pp: real)
    requires multiset(a) == multiset(b)
    ensures CountBelow(a, pp) == CountBelow(b, pp)
  {
    if a == [] {
      assert |b| == |multiset(b)| == 0;
    } else {
      assert a[0] in multiset(b);
      var k :| 0 <= k < |b| && b[k] == a[0];
      Sorting.TailPermutation(a, b, k);
      Sorting.RemoveAt(b, k);
      CountBelowPermutation(a[1..], b[..k] + b[k + 1..], pp);
      CountBelowAppend(b[..k], [b[k]] + b[k + 1..], pp);
      CountBelowAppend([b[k]], b[k + 1..], pp);
      CountBelowAppend(b[..k], b[k + 1..], pp);
    }
  }

  /** No feature of `fs` is below `pp`. */
  lemma {:induction false} CountBelowNone(fs: seq<Feature>, pp: real)
    requires forall j | 0 <= j < |fs| :: pp <= fs[j].pval
    ensures CountBelow(fs, pp) == 0
  {
    if fs != [] {
      CountBelowNone(fs[1..], pp);
    }
  }

  /** In a list sorted by p-value, fewer than `k` features lie below the
      p-value at position `k`; so in any arrangement of it. */
  lemma CountBelowSorted(fs: seq<Feature>, sorted: seq<Feature>, k: nat)
    requires multiset(sorted) == multiset(fs)
    requires Sorting.SortedBy(sorted, PValue)
    requires k < |sorted|
    ensures CountBelow(fs, sorted[k].pval) <= k
  {
    var pp := sorted[k].pval;
    assert sorted == sorted[..k] + sorted[k..];
    forall j | 0 <= j < |sorted[k..]|
      ensures pp <= sorted[k..][j].pval
    {
      assert PValue(sorted[k]) <= PValue(sorted[k + j]);
    }
    CountBelowNone(sorted[k..], pp);
    CountBelowAppend(sorted[..k], sorted[k..], pp);
    CountBelowPermutation(fs, sorted, pp);
  }

  /** `N_hotspots`: how many features each hotspot selects. */
  function HotspotCounts(fs: seq<Feature>): (ns: seq<nat>)
    ensures |ns| == |PHotspots|
    ensures forall k | 0 <= k < |PHotspots| :: ns[k] == CountBelow(fs, PHotspots[k])
  {
    seq(|PHotspots|, k requires 0 <= k < |PHotspots| => CountBelow(fs, PHotspots[k]))
  }

  /** The hotspots decrease, so the counts never increase along them. */
  lemma HotspotCountsNonIncreasing(fs: seq<Feature>)
    ensures var ns := HotspotCounts(fs);
      forall i, j | 0 <= i <= j < |ns| :: ns[j] <= ns[i]
  {
    var ns := HotspotCounts(fs);
    forall i, j | 0 <= i <= j < |ns|
      ensures ns[j] <= ns[i]
    {
      assert PHotspots[j] <= PHotspots[i];
      CountBelowMonotone(fs, PHotspots[j], PHotspots[i]);
    }
  }

  /** The last index `ii` with `lo < ns[ii] < hi`, as the loop of
      `determine_significant_list` leaves it; `None` when there is none. */
  function LastWithin(ns: seq<nat>, lo: real, hi: real): (r: Option<nat>)
    ensures r.Some? ==> r.value < |ns| && lo < ns[r.value] as real < hi
    ensures r.Some? ==> forall j | r.value < j < |ns| :: !(lo < ns[j] as real < hi)
    ensures r.None? ==> forall j | 0 <= j < |ns| :: !(lo < ns[j] as real < hi)
    decreases |ns|
  {
    if ns == [] then None
    else if lo < ns[|ns| - 1] as real < hi then Some(|ns| - 1)
    else LastWithin(ns[..|ns| - 1], lo, hi)
  }

  /** The hotspot the two loops of `determine_significant_list` settle
      on: the last one selecting more than 300 features and fewer than a
      quarter of them, failing that the last one selecting more than 30 and
      fewer than a quarter. */
  function HotspotChoice(ns: seq<nat>, quarter: real): (r: Option<nat>)
    ensures r.Some? ==> r.value < |ns| && NMinimum < ns[r.value] as real < quarter
    ensures r.None? ==> forall j | 0 <= j < |ns| :: !(NMinimum < ns[j] as real < quarter)
  {
    if LastWithin(ns, NOptimum, quarter).Some? then LastWithin(ns, NOptimum, quarter)
    else LastWithin(ns, NMinimum, quarter)
  }

  /** A hotspot selecting more than 300 features wins over any selecting
      only more than 30, and among the winners the last (the strictest)
      is taken. */
  lemma HotspotChoicePrefersOptimum(ns: seq<nat>, quarter: real)
    ensures var r := HotspotChoice(ns, quarter);
      && ((exists j | 0 <= j < |ns| :: NOptimum < ns[j] as real < quarter) ==>
            r.Some? && NOptimum < ns[r.value] as real
            && forall j | r.value < j < |ns| :: !(NOptimum < ns[j] as real < quarter))
      && ((forall j | 0 <= j < |ns| :: !(NOptimum < ns[j] as real < quarter)) && r.Some? ==>
            forall j | r.value < j < |ns| :: !(NMinimum < ns[j] as real < quarter))
  {
  }

  /** `len(new) / 4`, a quarter of the feature count. */
  function Quarter(n: nat): real {
    (n as real) / 4.0
  }

  /** How the automatic cutoff was reached. */
  datatype Choice = Hotspot(index: nat) | Quantile(position: nat)

  function PValue(f: Feature): real {
    f.pval
  }

  /** The fallback of `determine_significant_list`: the p-value at
      position `int(N/4) + 1` of the features sorted by p-value; `None`
      when the list is too short to have that position. */
  function QuantileCutoff(fs: seq<Feature>): (r: Option<real>)
    ensures r.Some? <==> |fs| / 4 + 1 < |fs|
  {
    if |fs| / 4 + 1 < |fs| then Some(Sorting.SortBy(fs, PValue)[|fs| / 4 + 1].pval) else None
  }

  /** The fallback cutoff is the p-value of a feature of the table, and at
      most `int(N/4) + 1` features lie strictly below it. */
  lemma QuantileCutoffSpec(fs: seq<Feature>)
    requires QuantileCutoff(fs).Some?
    ensures exists i | 0 <= i < |fs| :: fs[i].pval == QuantileCutoff(fs).value
    ensures CountBelow(fs, QuantileCutoff(fs).value) <= |fs| / 4 + 1
  {
    var k := |fs| / 4 + 1;
    var sorted := Sorting.SortBy(fs, PValue);
    assert sorted[k] in multiset(fs);
    var i :| 0 <= i < |fs| && fs[i] == sorted[k];
    CountBelowSorted(fs, sorted, k);
  }

  /** The automatic choice of `determine_significant_list`: the chosen
      hotspot, or when there is none, the fallback cutoff, which fails when
      the list is too short. */
  function ChooseCutoff(fs: seq<Feature>): (r: Result<(Choice, real)>)
    ensures r.Success? && r.value.0.Hotspot? ==>
      && HotspotChoice(HotspotCounts(fs), Quarter(|fs|)) == Some(r.value.0.index)
      && r.value.0.index < |PHotspots| && r.value.1 == PHotspots[r.value.0.index]
    ensures r.Success? && r.value.0.Quantile? ==>
      r.value.0.position == |fs| / 4 + 1 && QuantileCutoff(fs) == Some(r.value.1)
  {
    var choice := HotspotChoice(HotspotCounts(fs), Quarter(|fs|));
    if choice.Some? then
      Success((Hotspot(choice.value), PHotspots[choice.value]))
    else if QuantileCutoff(fs).Some? then
      Success((Quantile(|fs| / 4 + 1), QuantileCutoff(fs).value))
    else
      Failure("IndexError: list index out of range")
  }

  /** The automatic cutoff fails only for fewer than two features. */
  lemma ChooseCutoffFails(fs: seq<Feature>)
    ensures ChooseCutoff(fs).Failure? <==> |fs| <= 1
  {
    if |fs| <= 1 {
      var ns := HotspotCounts(fs);
      assert forall k | 0 <= k < |ns| :: ns[k] <= 1;
    }
  }

  /** A chosen hotspot selects more than 30 features and fewer than a
      quarter of them. */
  lemma ChooseCutoffHotspot(fs: seq<Feature>)
    requires ChooseCutoff(fs).Success? && ChooseCutoff(fs).value.0.Hotspot?
    ensures NMinimum < CountBelow(fs, ChooseCutoff(fs).value.1) as real < Quarter(|fs|)
  {
    var i := ChooseCutoff(fs).value.0.index;
    assert HotspotCounts(fs)[i] == CountBelow(fs, PHotspots[i]);
  }

  // --------------------------------------------------------- significance

  /** `paradict['cutoff']` is falsy: absent or zero. */
  predicate Unset(cutoff: Option<real>) {
    cutoff.None? || cutoff.value == 0.0
  }

  /** The cutoff `determine_significant_list` uses: the user's when set,
      the automatic choice otherwise. */
  function Cutoff(fs: seq<Feature>, cutoff: Option<real>): (r: Result<real>)
    ensures !Unset(cutoff) ==> r == Success(cutoff.value)
  {
    if !Unset(cutoff) then Success(cutoff.value)
    else
      var choice :- ChooseCutoff(fs);
      Success(choice.1)
  }

  /** The `is_significant` mark of each feature: a p-value strictly below
      the cutoff. */
  function Marks(fs: seq<Feature>, cutoff: real): (ms: seq<bool>)
    ensures |ms| == |fs|
    ensures forall i | 0 <= i < |fs| :: ms[i] <==> fs[i].pval < cutoff
  {
    seq(|fs|, i requires 0 <= i < |fs| => fs[i].pval < cutoff)
  }

  /** `input_featurelist`: the user identifiers of the significant
      features, in table order. */
  function SignificantIds(fs: seq<Feature>, cutoff: real): (ids: seq<string>)
    ensures |ids| == CountBelow(fs, cutoff)
  {
    if fs == [] then []
    else (if fs[0].pval < cutoff then [fs[0].fidFromUser] else []) + SignificantIds(fs[1..], cutoff)
  }

  /** A user identifier is listed exactly when a feature carrying it is
      marked significant. */
  lemma {:induction false} SignificantIdsSpec(fs: seq<Feature>, cutoff: real, x: string)
    ensures x in SignificantIds(fs, cutoff) <==>
      exists i | 0 <= i < |fs| :: Marks(fs, cutoff)[i] && fs[i].fidFromUser == x
  {
    if fs != [] {
      SignificantIdsSpec(fs[1..], cutoff, x);
      var ms := Marks(fs, cutoff);
      if exists i | 0 <= i < |fs[1..]| :: Marks(fs[1..], cutoff)[i] && fs[1..][i].fidFromUser == x {
        var i :| 0 <= i < |fs[1..]| && Marks(fs[1..], cutoff)[i] && fs[1..][i].fidFromUser == x;
        assert ms[i + 1] && fs[i + 1].fidFromUser == x;
      }
      if exists i | 0 <= i < |fs| :: ms[i] && fs[i].fidFromUser == x {
        var i :| 0 <= i < |fs| && ms[i] && fs[i].fidFromUser == x;
        if i > 0 {
          assert Marks(fs[1..], cutoff)[i - 1] && fs[1..][i - 1].fidFromUser == x;
        }
      }
    }
  }

  /** The list keeps table order: the identifiers of two runs of features
      one after the other are those of the first run, then those of the
      second. */
  lemma {:induction false} SignificantIdsInOrder(a: seq<Feature>, b: seq<Feature>, cutoff: real)
    ensures SignificantIds(a + b, cutoff) == SignificantIds(a, cutoff) + SignificantIds(b, cutoff)
    decreases |a|
  {
    if a == [] {
      assert a + b == b;
    } else {
      SignificantIdsInOrder(a[1..], b, cutoff);
      assert (a + b)[1..] == a[1..] + b;
      assert (a + b)[0] == a[0];
      var h := if a[0].pval < cutoff then [a[0].fidFromUser] else [];
      var x, y := SignificantIds(a[1..], cutoff), SignificantIds(b, cutoff);
      assert SignificantIds(a + b, cutoff) == h + (x + y);
      assert SignificantIds(a, cutoff) == h + x;
      IdsAssoc(h, x, y);
    }
  }

  lemma IdsAssoc(x: seq<string>, y: seq<string>, z: seq<string>)
    ensures x + (y + z) == x + y + z
  {
  }

  /** A single feature gives its user identifier exactly when its p-value
      is below the cutoff. */
  lemma SignificantIdsOne(f: Feature, cutoff: real)
    ensures SignificantIds([f], cutoff) == (if f.pval < cutoff then [f.fidFromUser] else [])
  {
    assert [f][1..] == [];
  }

  /** With the automatic choice, a chosen hotspot puts more than 30 and
      fewer than a quarter of the features on the significant list. */
  lemma AutomaticListSize(fs: seq<Feature>)
    requires ChooseCutoff(fs).Success? && ChooseCutoff(fs).value.0.Hotspot?
    ensures NMinimum < |SignificantIds(fs, ChooseCutoff(fs).value.1)| as real < Quarter(|fs|)
  {
    ChooseCutoffHotspot(fs);
  }

  // --------------------------------------------------------------- maxima

  /** Python's `max` on a non-empty list of numbers. */
  function Max(xs: seq<real>): (m: real)
    requires xs != []
  {
    if |xs| == 1 then xs[0]
    else if xs[0] >= Max(xs[1..]) then xs[0]
    else Max(xs[1..])
  }

  /** The maximum is an element no other exceeds. */
  lemma {:induction false} MaxSpec(xs: seq<real>)
    requires xs != []
    ensures Max(xs) in xs
    ensures forall x | x in xs :: x <= Max(xs)
  {
    if |xs| > 1 {
      MaxSpec(xs[1..]);
      assert forall x | x in xs :: x == xs[0] || x in xs[1..];
    }
  }

  function RetentionTimes(fs: seq<Feature>): (ts: seq<real>)
    ensures |ts| == |fs| && forall i | 0 <= i < |fs| :: ts[i] == fs[i].rtime
  {
    seq(|fs|, i requires 0 <= i < |fs| => fs[i].rtime)
  }

  function Masses(fs: seq<Feature>): (ms: seq<real>)
    ensures |ms| == |fs| && forall i | 0 <= i < |fs| :: ms[i] == fs[i].mz
  {
    seq(|fs|, i requires 0 <= i < |fs| => fs[i].mz)
  }

  // ------------------------------------------------------------ the table

  /** What `InputUserData` holds once read and updated. */
  datatype InputData = InputData(
    headerFields: seq<string>,
    features: seq<Feature>,
    maxRetentionTime: real,
    maxMz: real,
    cutoff: real,
    significant: seq<bool>,
    inputFeatures: seq<string>)

  /** `update` on the header and features `read` produced, with the
      parameter `cutoff`: the maxima, then the significant list. */
  function Update(header: seq<string>, fs: seq<Feature>, cutoff: Option<real>): (r: Result<InputData>)
    ensures r.Success? ==> r.value.features == fs && r.value.headerFields == header
  {
    if fs == [] then Failure("ValueError: max() arg is an empty sequence")
    else
      var c :- Cutoff(fs, cutoff);
      Success(InputData(header, fs, Max(RetentionTimes(fs)), Max(Masses(fs)), c, Marks(fs, c), SignificantIds(fs, c)))
  }

  /** Updating fails exactly on a table without features or when no
      cutoff can be chosen; otherwise the maxima are the largest retention
      time and m/z of the features, a user cutoff is kept, an automatic one
      is the chosen one and needs at least two features, and each feature
      is marked significant exactly when its p-value is below the cutoff,
      the significant list holding the user identifiers of those. */
  lemma UpdateSpec(header: seq<string>, fs: seq<Feature>, cutoff: Option<real>)
    ensures var r := Update(header, fs, cutoff);
      && (r.Failure? <==> fs == [] || Cutoff(fs, cutoff).Failure?)
      && (r.Success? ==>
            var d := r.value;
            && (forall i | 0 <= i < |fs| :: fs[i].rtime <= d.maxRetentionTime && fs[i].mz <= d.maxMz)
            && d.maxRetentionTime in RetentionTimes(fs) && d.maxMz in Masses(fs)
            && Cutoff(fs, cutoff) == Success(d.cutoff)
            && (!Unset(cutoff) ==> d.cutoff == cutoff.value)
            && (Unset(cutoff) ==> |fs| >= 2)
            && |d.significant| == |fs|
            && (forall i | 0 <= i < |fs| :: d.significant[i] <==> fs[i].pval < d.cutoff)
            && d.inputFeatures == SignificantIds(fs, d.cutoff))
  {
    var r := Update(header, fs, cutoff);
    if r.Success? {
      MaxSpec(RetentionTimes(fs));
      MaxSpec(Masses(fs));
      assert forall i | 0 <= i < |fs| :: RetentionTimes(fs)[i] in RetentionTimes(fs) && Masses(fs)[i] in Masses(fs);
      if Unset(cutoff) {
        ChooseCutoffFails(fs);
      }
    }
  }

  /** `InputUserData`: `read` on the lines of the table, then `update`. */
  function Load(lines: seq<string>, p: Parsers, cutoff: Option<real>): (r: Result<InputData>)
    ensures r.Success? ==> ReadTable(lines, p).Success? && r.value.features == ReadTable(lines, p).value.1
  {
    var (header, fs) :- ReadTable(lines, p);
    Update(header, fs, cutoff)
  }
}

=== FILE: wrappers.dfy ===
/** Optional values and results with an error message, used where the
    original program returns None or raises. */
module Wrappers {

  datatype Option<+T> = None | Some(value: T) {

    /** The value, or `default` when absent (Python's `x or default`
        for values that are never falsy). */
    function GetOr(default: T): T {
      match this
      case Some(v) => v
      case None => default
    }
  }

  /** `Failure` stands for an exception the original program raises. */
  datatype Result<+T> = Success(value: T) | Failure(error: string) {

    predicate IsFailure() {
      Failure?
    }

    function PropagateFailure<U>(): Result<U>
      requires Failure?
    {
      Failure(error)
    }

    function Extract(): T
      requires Success?
    {
      value
    }
  }

  /** A loop that applies `f` to every element in order and stops at the
      first exception. */
  function MapResult<T, U>(xs: seq<T>, f: T -> Result<U>): (r: Result<seq<U>>)
    ensures r.Success? ==> |r.value| == |xs|
    decreases |xs|
  {
    if xs == [] then Success([])
    else if f(xs[0]).Failure? then Failure(f(xs[0]).error)
    else if MapResult(xs[1..], f).Failure? then Failure(MapResult(xs[1..], f).error)
    else Success([f(xs[0]).value] + MapResult(xs[1..], f).value)
  }

  /** The loop fails exactly when some element fails, and otherwise each
      result is the value `f` gives that element. */
  lemma {:induction false} MapResultSpec<T, U>(xs: seq<T>, f: T -> Result<U>)
    ensures MapResult(xs, f).Failure? <==> exists i | 0 <= i < |xs| :: f(xs[i]).Failure?
    ensures MapResult(xs, f).Success? ==>
      forall i | 0 <= i < |xs| :: f(xs[i]).Success? && MapResult(xs, f).value[i] == f(xs[i]).value
    decreases |xs|
  {
    if xs != [] {
      var tail := xs[1..];
      MapResultSpec(tail, f);
      if f(xs[0]).Success? && MapResult(tail, f).Failure? {
        var i :| 0 <= i < |tail| && f(tail[i]).Failure?;
        assert xs[i + 1] == tail[i];
      } else if f(xs[0]).Success? {
        forall i | 1 <= i < |xs|
          ensures f(xs[i]).Success? && MapResult(xs, f).value[i] == f(xs[i]).value
        {
          assert xs[i] == tail[i - 1];
        }
      }
    }
  }

  /** A loop that handles element `i` of `xs` by `f(i, xs[i])`, keeps the
      values it is given, skips the elements given `None`, and stops at the
      first failure. */
  function CollectResults<T, U>(xs: seq<T>, f: (nat, T) -> Result<Option<U>>): (r: Result<seq<U>>)
    ensures r.Success? ==> |r.value| <= |xs|
    decreases |xs|
  {
    if xs == [] then Success([])
    else if CollectResults(xs[..|xs| - 1], f).Failure? then Failure(CollectResults(xs[..|xs| - 1], f).error)
    else if f(|xs| - 1, xs[|xs| - 1]).Failure? then Failure(f(|xs| - 1, xs[|xs| - 1]).error)
    else
      Success(CollectResults(xs[..|xs| - 1], f).value
        + (if f(|xs| - 1, xs[|xs| - 1]).value.Some? then [f(|xs| - 1, xs[|xs| - 1]).value.value] else []))
  }

  /** The loop fails exactly when some element fails, and otherwise keeps
      exactly the values the elements are given. */
  lemma {:induction false} CollectResultsSpec<T, U>(xs: seq<T>, f: (nat, T) -> Result<Option<U>>)
    ensures CollectResults(xs, f).Failure? <==> exists i | 0 <= i < |xs| :: f(i, xs[i]).Failure?
    ensures CollectResults(xs, f).Success? ==>
      forall u :: u in CollectResults(xs, f).value <==> exists i | 0 <= i < |xs| :: f(i, xs[i]) == Success(Some(u))
    decreases |xs|
  {
    if xs != [] {
      var n := |xs| - 1;
      var init := xs[..n];
      CollectResultsSpec(init, f);
      assert forall i | 0 <= i < n :: xs[i] == init[i];
      if CollectResults(init, f).Failure? {
        var i :| 0 <= i < n && f(i, init[i]).Failure?;
      }
    }
  }

  /** `[x for x in xs if p(x)]`. */
  function Filter<T>(xs: seq<T>, p: T -> bool): (r: seq<T>)
    ensures |r| <= |xs|
    ensures forall i | 0 <= i < |r| :: p(r[i])
    decreases |xs|
  {
    if xs == [] then []
    else Filter(xs[..|xs| - 1], p) + (if p(xs[|xs| - 1]) then [xs[|xs| - 1]] else [])
  }

  /** The filter keeps exactly the elements that pass, each as often as it
      occurs in the input. */
  lemma {:induction false} FilterSpec<T>(xs: seq<T>, p: T -> bool)
    ensures forall x :: x in Filter(xs, p) <==> x in xs && p(x)
    ensures forall x :: multiset(Filter(xs, p))[x] == if p(x) then multiset(xs)[x] else 0
    decreases |xs|
  {
    if xs != [] {
      var n := |xs| - 1;
      FilterSpec(xs[..n], p);
      assert xs == xs[..n] + [xs[n]];
      assert multiset(xs) == multiset(xs[..n]) + multiset{xs[n]};
    }
  }

  /** The filter keeps the input order: filtering a concatenation is
      concatenating the filtered parts. */
  lemma {:induction false} FilterAppend<T>(xs: seq<T>, ys: seq<T>, p: T -> bool)
    ensures Filter(xs + ys, p) == Filter(xs, p) + Filter(ys, p)
    decreases |ys|
  {
    if ys == [] {
      assert xs + ys == xs;
    } else {
      var n := |ys| - 1;
      FilterAppend(xs, ys[..n], p);
      assert (xs + ys)[..|xs + ys| - 1] == xs + ys[..n];
    }
  }

  /** A single element is kept exactly when it passes. */
  lemma FilterOne<T>(x: T, p: T -> bool)
    ensures Filter([x], p) == if p(x) then [x] else []
  {
    assert [x][..0] == [];
  }

  /** The filter of `[x] + xs`: `x` first if it passes, then the rest. */
  lemma FilterCons<T>(x: T, xs: seq<T>, p: T -> bool)
    ensures Filter([x] + xs, p) == (if p(x) then [x] else []) + Filter(xs, p)
  {
    FilterAppend([x], xs, p);
    FilterOne(x, p);
  }

  /** Filters by predicates that agree everywhere are equal. */
  lemma {:induction false} FilterSame<T>(xs: seq<T>, p: T -> bool, q: T -> bool)
    requires forall x :: p(x) == q(x)
    ensures Filter(xs, p) == Filter(xs, q)
    decreases |xs|
  {
    if xs != [] {
      FilterSame(xs[..|xs| - 1], p, q);
    }
  }

  /** `[f(x) for x in xs if f(x) is not None]`. */
  function FilterMap<T, U>(xs: seq<T>, f: T -> Option<U>): (r: seq<U>)
    ensures |r| <= |xs|
    decreases |xs|
  {
    if xs == [] then []
    else FilterMap(xs[..|xs| - 1], f) + (if f(xs[|xs| - 1]).Some? then [f(xs[|xs| - 1]).value] else [])
  }

  /** The values keep the input order: mapping a concatenation is
      concatenating the mapped parts. */
  lemma {:induction false} FilterMapAppend<T, U>(xs: seq<T>, ys: seq<T>, f: T -> Option<U>)
    ensures FilterMap(xs + ys, f) == FilterMap(xs, f) + FilterMap(ys, f)
    decreases |ys|
  {
    if ys == [] {
      assert xs + ys == xs;
    } else {
      var n := |ys| - 1;
      FilterMapAppend(xs, ys[..n], f);
      assert (xs + ys)[..|xs + ys| - 1] == xs + ys[..n];
    }
  }

  /** A single element gives its value when it has one, and nothing
      otherwise. */
  lemma FilterMapOne<T, U>(x: T, f: T -> Option<U>)
    ensures FilterMap([x], f) == if f(x).Some? then [f(x).value] else []
  {
    assert [x][..0] == [];
  }

  /** The result holds exactly the values `f` gives. */
  lemma {:induction false} FilterMapSpec<T, U>(xs: seq<T>, f: T -> Option<U>)
    ensures forall u :: u in FilterMap(xs, f) <==> exists i | 0 <= i < |xs| :: f(xs[i]) == Some(u)
    decreases |xs|
  {
    if xs != [] {
      var n := |xs| - 1;
      FilterMapSpec(xs[..n], f);
      assert forall i | 0 <= i < n :: xs[..n][i] == xs[i];
    }
  }
}
